=== FILE: README.md ===
# HR back office: attendance, employees, leave, projects and notifications

This project models the administrative services of a NestJS back office for a small
company. The services are backed by an ORM over a relational store:

- **Attendance** (`AttendanceService`): daily records with worked hours; at most one
  live PRESENT record per user and day; a paged listing; a monthly grid per employee;
  a day-by-day table for one employee.
- **Dashboard** (`DashboardService`): the share of each employee role, and a day-by-day
  chart of PRESENT and ABSENT counts.
- **Employees** (`EmployeeService`): creation, with a derived username, a default
  password and automatic assignment to every active project. Also a listing that
  refreshes each listed employee's recorded hours and earnings, and a detail view.
- **Employee holidays** (`EmployeeHolidayService`): leave requests with an inclusive
  day count.
- **Projects** (`ProjectService`): creation with assignees, update that replaces the
  assignees, and a filtered listing.
- **Notifications** (`NotificationService`): the formatted inbox of a user, and
  deletion of one or all notifications.

The store is a record of sequences of rows. Soft-deleted rows carry a `deleted` flag.
Fetch order is sequence order. Every service call is a pure function from the store and
the request to a `Response` (success with data, a handled failure with a message, or
the `catch` branch taken because the ORM or foreign code threw). Where the call writes,
it also returns the new store.

Calendar dates are day numbers counted from 0000-01-01 in the proleptic Gregorian
calendar (years 0 to 9999), printed as in section 5.6 of RFC 3339. Instants are
integer milliseconds, read at UTC.

Shared modules:

- `Common`: responses, options, filtering and counting.
- `Calendar`: civil dates and day numbers.
- `IsoDate`: `YYYY-MM-DD` and `HH:MM` text.
- `Pagination`: `parseInt`, `page`/`limit` handling, the `meta` block and the
  `skip`/`take` window.
- `Entities`: the rows of the store.

## Model

| member | source | states |
|---|---|---|
| Calendar.MonthStep | src/modules/admin/attendance/attendance.service.ts:114 | The days before month m plus the length of m are the days before month m+1, and the twelve months fill the year, so the month length used for the grid is consistent with the calendar. |
| Calendar.DaysInMonth | src/modules/admin/attendance/attendance.service.ts:115 | A month has 28 to 31 days; it has 29 exactly for February of a leap year and 28 exactly for February of any other year. |
| Calendar.DaysBeforeYearClosed | src/modules/admin/attendance/attendance.service.ts:98-99 | The recursive count of days before a year equals the Gregorian closed form with its 4/100/400 leap-year corrections. |
| Calendar.DayNumber | src/modules/admin/attendance/attendance.service.ts:98-99 | Every valid civil date of years 0-9999 gets a day number inside the modelled range. |
| Calendar.CivilFromDay | src/modules/admin/attendance/attendance.service.ts:122 | Turning a day number back into a civil date gives a valid date whose day number is the one given, which is what reading the date part of an instant needs. |
| Calendar.CivilRoundTrip | src/modules/admin/attendance/attendance.service.ts:122 | Date to day number to date is the identity. |
| Calendar.DayNumberInjective | src/modules/admin/attendance/attendance.service.ts:122 | Two valid dates with the same day number are the same date. |
| Calendar.YearOrder | src/modules/admin/attendance/attendance.service.ts:103 | A date in an earlier year has a smaller day number, so range comparisons on dates follow the calendar. |
| Calendar.MonthOrder | src/modules/admin/attendance/attendance.service.ts:103 | Within a year, a date in an earlier month has a smaller day number. |
| Calendar.MonthDaysConsecutive | src/modules/admin/attendance/attendance.service.ts:175-176 | Day d of a month is exactly d-1 days after the first, so the loop over `d` visits consecutive days. |
| Calendar.InMonthIff | src/modules/admin/attendance/attendance.service.ts:98-103 | A day number lies between the first and the last day of a month exactly when it is the day number of a date of that month. |
| Calendar.LastDayPrecedesNextMonth | src/modules/admin/attendance/attendance.service.ts:99 | Day 0 of the next month is the last day of this month: it is one day before the first day of the next month. |
| IsoDate.NumeralValue | src/modules/admin/attendance/attendance.service.ts:118 | A zero-padded numeral of a value below 10^width reads back as that value. |
| IsoDate.NumeralOfValue | src/modules/admin/attendance/attendance.service.ts:118 | Reading a digit string and padding its value back to the same width gives the same string. |
| IsoDate.TwoDigits | src/modules/admin/attendance/attendance.service.ts:118 | Any two-digit string is the two-digit padding of its own value. |
| IsoDate.FourDigits | src/modules/admin/attendance/attendance.service.ts:118 | Any four-digit string is the four-digit padding of its own value. |
| IsoDate.ParsePrinted | src/modules/admin/attendance/attendance.service.ts:122 | Parsing the printed `YYYY-MM-DD` of a valid date gives that date back. |
| IsoDate.FullDateInjective | src/modules/admin/attendance/attendance.service.ts:122 | Two dates print the same iff they are equal, and the text is always 10 characters long. |
| IsoDate.DayKeyInjective | src/modules/admin/dashboard/dashboard.service.ts:96 | Two days have the same `toISOString().slice(0, 10)` key iff they are the same day, so keying by it merges no days. |
| IsoDate.DayKeyOfDate | src/modules/admin/attendance/attendance.service.ts:176-177 | The key of a date's day number is that date printed as `YYYY-MM-DD`. |
| IsoDate.ParseFullDate | src/modules/admin/attendance/attendance.service.ts:122 | Whatever parses as a full date is a valid calendar date. |
| IsoDate.MinuteOfDay | src/modules/admin/attendance/attendance.service.ts:182 | The time of day of an instant is a minute in 0..1439, also for instants before 1970. |
| IsoDate.ClockText | src/modules/admin/attendance/attendance.service.ts:182 | The `HH:MM` slice has five characters with a colon in the middle. |
| IsoDate.HourText | src/modules/admin/attendance/attendance.service.ts:183 | The `HH` slice has two characters. |
| IsoDate.HourTextValue | src/modules/admin/attendance/attendance.service.ts:183 | The `HH` text reads back as the instant's UTC hour and is the first two characters of the `HH:MM` text. |
| IsoDate.ClockTextValue | src/modules/admin/attendance/attendance.service.ts:182-184 | The two digit pairs of the `HH:MM` text read back as the instant's UTC minute of the day: 60 times the hour plus the minute. |
| Pagination.ParseInt | src/modules/admin/attendance/attendance.service.ts:204-205 | `parseInt(s, 10)` gives no number exactly when no digit follows the leading white space (the ECMAScript white space and line terminators) and the optional sign. |
| Pagination.ParseSigned | src/modules/admin/attendance/attendance.service.ts:204-205 | Text made of white space, an optional `+` or `-`, a digit run and a tail not starting with a digit parses to the digit run's value, negated exactly for `-`. |
| Pagination.SkipSpaceSkipsBlanks | src/modules/admin/attendance/attendance.service.ts:204-205 | The scan before the number drops only white space, keeps the rest of the text, and stops at a character that is not white space. |
| Pagination.ParseDecimal | src/modules/admin/attendance/attendance.service.ts:204 | A plain digit string parses to its decimal value. |
| Pagination.ParseOr | src/modules/admin/attendance/attendance.service.ts:204-205 | `parseInt(x) \|\| fallback` is never 0: it is the parsed value when that is a non-zero number and the fallback when the parameter is absent, unparsable or zero. |
| Pagination.PagingOf | src/modules/admin/attendance/attendance.service.ts:204-206 | Page and size are never 0, and skip is (page - 1) * size. |
| Pagination.DefaultPaging | src/modules/admin/attendance/attendance.service.ts:201-206 | With no page and no limit the listing reads page 1 of size 10 from row 0. |
| Pagination.CeilDiv | src/modules/admin/attendance/attendance.service.ts:240 | The result is the least integer not below the exact quotient, as `Math.ceil(total / pageSize)`. |
| Pagination.MetaOf | src/modules/admin/attendance/attendance.service.ts:236-241 | The meta block echoes total, page and size, and `totalPages` is the least number of full pages that holds all matching rows. |
| Pagination.PagesCoverRows | src/modules/admin/attendance/attendance.service.ts:240 | Every matching row falls on a page between 1 and `totalPages`, and the last page is not empty. |
| Pagination.Window | src/modules/admin/attendance/attendance.service.ts:220-221 | `skip`/`take` is refused for negative arguments; otherwise it returns at most `take` rows, namely the rows from position `skip` on, in order, and exactly `take` of them when enough rows remain. |
| Pagination.WindowMembers | src/modules/admin/attendance/attendance.service.ts:220-221 | A window with non-negative bounds exists and holds only stored rows. |
| Common.First | src/modules/admin/employee/employee.service.ts:190-191 | A lookup returns a stored element that matches, or none iff no element matches. |
| Common.FirstUnique | src/modules/admin/employee-holiday/employee-holiday.service.ts:97-98 | When exactly one element matches, the lookup returns it. |
| Pagination.List | src/modules/admin/attendance/attendance.service.ts:204-243 | A paged listing succeeds iff page and size are positive. On success the meta block is computed from the count of every matching row, and the page is exactly the `skip`/`take` window of the matching rows in fetch order, so at most `size` rows, each stored and matching. |
| Pagination.ListPage | src/modules/admin/attendance/attendance.service.ts:216-243 | The same facts for an already computed paging: the page is the window of the matching rows at `skip` of length at most `size`. |
| Attendance.WorkedHours | src/modules/admin/attendance/attendance.service.ts:35-42 | Without both start and end, the hours are the ones supplied. With both, they are the span minus the lunch span (only when both lunch bounds are given), in hours, never below zero. |
| Attendance.LunchNeedsBothBounds | src/modules/admin/attendance/attendance.service.ts:38-40 | A lunch with a missing bound does not change the hours. |
| Attendance.LunchNeverAddsHours | src/modules/admin/attendance/attendance.service.ts:36-41 | A well-ordered lunch never increases the worked hours. |
| Attendance.Create | src/modules/admin/attendance/attendance.service.ts:10-61 | Creation is refused with the PRESENT message, leaving the store as it was, iff the request is PRESENT or has no status and the user already has a live PRESENT record that day. Otherwise the insert throws, leaving the store as it was, iff no stored user has the id. Otherwise exactly one record is appended with the given fields, the computed hours and the given (or default) status. |
| Attendance.CreateKeepsOnePresent | src/modules/admin/attendance/attendance.service.ts:12-26 | If the store had at most one live PRESENT record per user and day, it still has after any create, whatever the column default. |
| Attendance.FindAll | src/modules/admin/attendance/attendance.service.ts:194-246 | It succeeds iff page and size are positive and a given status text is PRESENT or ABSENT. Any other non-empty status text ("LATE", "present") is refused by the ORM and reported through the catch. The meta block is computed from the count of the records meeting every supplied filter (user, status, date, notes search) among the live ones. The page is exactly the window of those records at `skip` of length at most `size`, in fetch order, each with the included card of its user. |
| Attendance.AttendanceUserOf | src/modules/admin/attendance/attendance.service.ts:222-231 | The included user card is the user's id, name, email, avatar and role. |
| Attendance.EntryOf | src/modules/admin/attendance/attendance.service.ts:217-232 | A listed record carries itself and a user card, present iff its user exists, and then the card of a stored user with the record's user id. |
| Attendance.StatusOf | src/modules/admin/attendance/attendance.service.ts:209 | The status text of the `where` names an enum value exactly when it is PRESENT or ABSENT, the spelling the service itself uses at lines 13-19. |
| Attendance.StatusTextIsExact | src/modules/admin/attendance/attendance.service.ts:209 | A listing with status text "present" fails, and one with "PRESENT" lists only PRESENT records. |
| Attendance.EntriesOfMatches | src/modules/admin/attendance/attendance.service.ts:207-232 | The entries of matching records hold stored live records meeting every supplied filter. |
| AttendanceGrid.LastOnSpec | src/modules/admin/attendance/attendance.service.ts:121-124 | The last record of a day is a record of that day, there is none iff no record has that date, and no later record has that date. |
| AttendanceGrid.LastKeyedIsLastOn | src/modules/admin/attendance/attendance.service.ts:121-124 | Looking records up by their `YYYY-MM-DD` key finds the last record of exactly that day. |
| AttendanceGrid.Index | src/modules/admin/attendance/attendance.service.ts:121-124 | Writing records one by one into a prefilled map keeps the old keys and adds each record's key. A key a record wrote holds that key's last record; any other key keeps its old value. |
| AttendanceGrid.GridKeyInjective | src/modules/admin/attendance/attendance.service.ts:117-119 | Different days of the month get different grid keys, so the prefill has one entry per day. |
| AttendanceGrid.GridKey | src/modules/admin/attendance/attendance.service.ts:118 | The prefill key is the year text, a dash, the padded month, a dash and the two-digit day. |
| AttendanceGrid.PlainTextIsCanonical | src/modules/admin/attendance/attendance.service.ts:118 | A four-digit year and a one- or two-digit month of a valid month produce keys in the canonical `YYYY-MM` form. |
| AttendanceGrid.GridKeyIsFullDate | src/modules/admin/attendance/attendance.service.ts:118-122 | With canonical year and month text, the prefill key of day d equals the key `toISOString` gives that day. |
| AttendanceGrid.EmptyRow | src/modules/admin/attendance/attendance.service.ts:116-120 | The prefilled row has exactly one null entry per day of the month. |
| AttendanceGrid.MonthKeyable | src/modules/admin/attendance/attendance.service.ts:98-103 | Records inside a valid month have dates whose keys can be printed. |
| AttendanceGrid.NumberValue | src/modules/admin/attendance/attendance.service.ts:66 | A parameter is a number iff it is a non-empty run of decimal digits. |
| AttendanceGrid.NumberIsParseInt | src/modules/admin/attendance/attendance.service.ts:66-70 | Where `Number` accepts a month or year, `parseInt` reads the same value. |
| AttendanceGrid.GridRow | src/modules/admin/attendance/attendance.service.ts:115-126 | Every day of the month has an entry. With canonical text, the keys are exactly the month's days, and each day holds the id and hours of its last record, or null. |
| AttendanceGrid.RecordKeysPrefilled | src/modules/admin/attendance/attendance.service.ts:117-123 | Each record of the month writes to a key the prefill already created, so the grid gains no extra keys. |
| AttendanceGrid.PrefilledKeys | src/modules/admin/attendance/attendance.service.ts:116-124 | After the records are written, the keys are the prefilled ones, and each is the printed date of its day. |
| AttendanceGrid.RowCells | src/modules/admin/attendance/attendance.service.ts:121-124 | The cell of each day holds the last record of that day, or null. |
| AttendanceGrid.MonthRecords | src/modules/admin/attendance/attendance.service.ts:100-112 | The fetched records are exactly the live records of the user inside the month. |
| AttendanceGrid.FindGrid | src/modules/admin/attendance/attendance.service.ts:64-136 | It fails with the month/year message iff either parameter is not a number, and succeeds iff both are numbers and page and size are positive. The meta block is computed from the count of matching live employees. The lines are, in order, one per employee of the window of matching employees at `skip` of length at most `size`, each that user's selected columns and month row. |
| AttendanceGrid.CardOf | src/modules/admin/attendance/attendance.service.ts:88-95 | A grid line shows the id, first name, last name, name, email and avatar of its user. |
| AttendanceGrid.LinesFor | src/modules/admin/attendance/attendance.service.ts:115-126 | The page of users maps to one grid line per user, in page order. |
| AttendanceGrid.LookupIsLastOn | src/modules/admin/attendance/attendance.service.ts:168-178 | The record map built from all records returns, for a day, that day's last record. |
| AttendanceGrid.DayLines | src/modules/admin/attendance/attendance.service.ts:174-187 | One line per day of the month, in order, each built from the last record of its day. |
| AttendanceGrid.IndexedLineIsLast | src/modules/admin/attendance/attendance.service.ts:170-186 | The line of one day read through the record map is that day's line built from its last record. |
| AttendanceGrid.IndexedLinesAreLast | src/modules/admin/attendance/attendance.service.ts:168-187 | Lines built through the record map equal lines built from each day's last record. |
| AttendanceGrid.EmployeeMonth | src/modules/admin/attendance/attendance.service.ts:142-188 | It fails with the user/month/year message iff the user id is empty or a parameter is not a number. Otherwise it returns one line per day of the month, in order, each from the last live record of that user and day. |
| AttendanceGrid.LineOf | src/modules/admin/attendance/attendance.service.ts:179-186 | A day line carries its day. Without a record it shows no id, dashes and "No Record". With one, the id shows iff it is non-empty. The start and end show exactly when known, as the `HH:MM` text of the instant. The lunch shows exactly when both bounds are known, as the two `HH` texts joined by a dash. The total shows the record's hours when it has hours. |
| Dashboard.TallyCounts | src/modules/admin/dashboard/dashboard.service.ts:94-99 | The per-key tally after grouping holds, for each key, the number of PRESENT and ABSENT records with that key. |
| Dashboard.InRange | src/modules/admin/dashboard/dashboard.service.ts:82-86 | The fetched records are live and dated inside the range. |
| Dashboard.TallyOfDay | src/modules/admin/dashboard/dashboard.service.ts:94-109 | For a key that names exactly one day of the range, the tally holds that day's PRESENT and ABSENT counts. |
| Dashboard.RangeKeyCount | src/modules/admin/dashboard/dashboard.service.ts:94-99 | Counting by key within the range equals counting the records of that day. |
| Dashboard.RangeStep | src/modules/admin/dashboard/dashboard.service.ts:105 | Extending the range by one day adds exactly that day's count. |
| Dashboard.RangeEmpty | src/modules/admin/dashboard/dashboard.service.ts:105 | An empty range counts nothing. |
| Dashboard.Series | src/modules/admin/dashboard/dashboard.service.ts:102-110 | The loop emits one date, one present and one absent entry per day from start to end inclusive, each taken from the tally for that day's key, or 0. |
| Dashboard.SeriesSum | src/modules/admin/dashboard/dashboard.service.ts:102-110 | A series of daily counts sums to the count over the whole range. |
| Dashboard.RecordKeysNameDays | src/modules/admin/dashboard/dashboard.service.ts:96-106 | Inside the range, a record's key equals a day's key iff the record is dated that day. |
| Dashboard.CountsOfSeries | src/modules/admin/dashboard/dashboard.service.ts:94-110 | The chart's i-th entries are the PRESENT and ABSENT counts of day start+i, and the arrays sum to the counts over the range. |
| Dashboard.AttendanceReport | src/modules/admin/dashboard/dashboard.service.ts:74-120 | It fails with the date message iff a bound is missing. Otherwise the chart lists every day of the range with its counts. |
| Dashboard.Report | src/modules/admin/dashboard/dashboard.service.ts:81-119 | The chart for a range gives each day of the range its PRESENT and ABSENT counts, and the totals match the range. |
| Dashboard.RoleCount | src/modules/admin/dashboard/dashboard.service.ts:52-56 | No role has more employees than the live employee total. |
| Dashboard.Increment | src/modules/admin/dashboard/dashboard.service.ts:52-56 | Counting one more employee raises only the count of that employee's role. |
| Dashboard.GroupByRole | src/modules/admin/dashboard/dashboard.service.ts:52-56 | There are never more groups than live employees. |
| Dashboard.GroupByRoleSpec | src/modules/admin/dashboard/dashboard.service.ts:52-56 | Grouping gives each role at most once, each with its live-employee count, and a role appears iff it has a live employee. |
| Dashboard.GroupCountBounds | src/modules/admin/dashboard/dashboard.service.ts:52-56 | Every group counts at least one and at most all live employees. |
| Dashboard.LiveRoleGrouped | src/modules/admin/dashboard/dashboard.service.ts:52-56 | The role of every live employee appears in the grouping. |
| Dashboard.SumIncrement | src/modules/admin/dashboard/dashboard.service.ts:52-56 | Counting one more employee adds one to the sum of the counts when the role is already present. |
| Dashboard.GroupsCoverEmployees | src/modules/admin/dashboard/dashboard.service.ts:47-56 | The group counts add up to the live employee total: every live employee is counted once. |
| Dashboard.Shares | src/modules/admin/dashboard/dashboard.service.ts:59-63 | Each group becomes a share with its role, count and percentage of the total, in group order. |
| Dashboard.RoleDistribution | src/modules/admin/dashboard/dashboard.service.ts:45-72 | The total is the live employee count. Roles are distinct. Every live employee's role is listed. Each listed count is at least 1, at most the total, and equal to that role's count. |
| Dashboard.SharesFacts | src/modules/admin/dashboard/dashboard.service.ts:59-63 | The shares carry distinct roles that cover every live employee, with counts between 1 and the total. |
| Dashboard.LiveRoleCounted | src/modules/admin/dashboard/dashboard.service.ts:52-56 | A live employee's role has a positive count. |
| Dashboard.PercentBounds | src/modules/admin/dashboard/dashboard.service.ts:62 | A group's percentage is positive, at most 100, and scales back to its count. |
| Employees.LocalPart | src/modules/admin/employee/employee.service.ts:35 | The local part is the prefix of the email before the first `@`, or all of it when there is none. |
| Employees.Lower | src/modules/admin/employee/employee.service.ts:36 | No ASCII capital survives lower-casing, every character with nothing to lower-case is kept, and text with nothing to lower-case is returned as it is. |
| Employees.LowerOf | src/modules/admin/employee/employee.service.ts:36 | ASCII capitals become their small letters, the Kelvin sign becomes `k`, and the capital I with dot above becomes `i` with a combining dot; no result holds an ASCII capital. |
| Employees.LowerConcat | src/modules/admin/employee/employee.service.ts:36 | Lower-casing distributes over concatenation. |
| Employees.Username | src/modules/admin/employee/employee.service.ts:34-37 | The username holds only `[a-z0-9._-]`, and keeps every such character of the local part. |
| Employees.UsernameCharacters | src/modules/admin/employee/employee.service.ts:34-37 | The username holds only `[a-z0-9._-]`. A character is in it iff it is in the lower-cased local part and allowed. Its length counts the allowed characters. |
| Employees.UsernameKeepsOrder | src/modules/admin/employee/employee.service.ts:34-37 | Cutting the local part anywhere, the username is what the two lower-cased halves keep, end to end: characters keep their order. |
| Employees.UsernameIdempotent | src/modules/admin/employee/employee.service.ts:34-37 | Deriving a username from a username changes nothing. |
| Employees.PasswordToUse | src/modules/admin/employee/employee.service.ts:43 | A supplied password is used; otherwise the physical number. |
| Employees.AssignActive | src/modules/admin/employee/employee.service.ts:336-368 | Each new row links the user to an active project with zero totals and duplicates no existing pair. Afterwards every active project is linked to the user. |
| Employees.Create | src/modules/admin/employee/employee.service.ts:20-96 | Creation is refused iff the email is taken, with the store unchanged. Without a usable password, the hash throws and nothing is stored. Otherwise one employee is appended with the derived username, joined name, hashed password and given fields. The reply succeeds iff the welcome mail is sent. Active-project links are added only when that storage step succeeds. |
| Employees.CreateKeepsEmailsUnique | src/modules/admin/employee/employee.service.ts:26-31 | If emails were unique, they stay unique after any create. |
| Employees.Refreshed | src/modules/admin/employee/employee.service.ts:152-157 | A listed employee's recorded hours become the sum of its live attendance hours and its earning becomes hours times rate; no other field changes. |
| Employees.Refresh | src/modules/admin/employee/employee.service.ts:159-163 | Exactly the listed employees are rewritten with their refreshed totals; the others stay as they were. |
| Employees.RefreshPage | src/modules/admin/employee/employee.service.ts:152-165 | Each row of the page becomes its refreshed version, in order. |
| Employees.Zeroed | src/modules/admin/employee/employee.service.ts:152-165 | Clearing the two derived totals row by row keeps everything else. |
| Employees.ListedRowsStored | src/modules/admin/employee/employee.service.ts:98-165 | Every refreshed row, with its derived totals cleared, is a stored employee that matches the query. |
| Employees.FindAll | src/modules/admin/employee/employee.service.ts:98-186 | It succeeds iff page and size are positive; on failure the store is untouched. On success the meta block is computed from the count of matching employees. The page is exactly the window of the matching employees at `skip`, each as its nine selected columns with recomputed hours and earning. Each listed employee matches the query and is a stored employee apart from its totals. The store is the users with exactly the listed ones refreshed. |
| Employees.ColumnsOf | src/modules/admin/employee/employee.service.ts:131-141 | The selected columns are the user's id, names, username, email, avatar, role and hourly rate; the password hash, phone numbers and address are not among them. |
| Employees.SummaryOf | src/modules/admin/employee/employee.service.ts:165-169 | A listed employee is the selected columns of the refreshed row with its recorded hours and earning. |
| Employees.Summaries | src/modules/admin/employee/employee.service.ts:150-171 | Every refreshed employee of the page gets its summary, in order. |
| Employees.RefreshIdempotent | src/modules/admin/employee/employee.service.ts:159-163 | Refreshing the same page twice gives the same store as refreshing it once. |
| Entities.Related | src/modules/admin/employee-holiday/employee-holiday.service.ts:58-68 | The selected user of a row is present iff its user exists, and is then the selection of a stored user with that id. |
| Entities.UserById | src/modules/admin/employee/employee.service.ts:190-191 | The lookup returns a stored user with that id, or none iff no user has it. |
| Entities.RecordedHours | src/modules/admin/employee/employee.service.ts:152-156 | The sum is 0 when the user has no live record with hours, and it is never negative when no record has negative hours. |
| Employees.FindOne | src/modules/admin/employee/employee.service.ts:188-259 | It fails with "Employee not found" iff no live employee has the id. Otherwise it returns that employee's nine selected columns with the hours and earning of its records, and exactly its project links to projects it attended. |
| Employees.FindOneKeepsOrder | src/modules/admin/employee/employee.service.ts:240-245 | The listed project links keep store order: filtering splits over a split of the links. |
| EmployeeHoliday.TotalDays | src/modules/admin/employee-holiday/employee-holiday.service.ts:74-76 | The inclusive day count n is the least one with end - start at most (n-1) days: any part of a further day counts it whole. |
| EmployeeHoliday.HolidayUserOf | src/modules/admin/employee-holiday/employee-holiday.service.ts:58-68 | The selected user card is the user's id, names, email, avatar and role. |
| EmployeeHoliday.View | src/modules/admin/employee-holiday/employee-holiday.service.ts:53-78 | A listed request carries itself, its inclusive day count, and a user card that is present iff its user exists and is then the card of a stored user with the request's user id. |
| EmployeeHoliday.BuildWhere | src/modules/admin/employee-holiday/employee-holiday.service.ts:41-44 | The filter has a user condition iff a non-empty user id is given, and date bounds exactly as given. |
| EmployeeHoliday.Views | src/modules/admin/employee-holiday/employee-holiday.service.ts:72-78 | Every request of the page gets its view, in order. |
| EmployeeHoliday.FindAll | src/modules/admin/employee-holiday/employee-holiday.service.ts:27-93 | It succeeds iff page and size are positive. The meta block is computed from the count of the matching requests, and the page is the views of exactly the window of those requests at `skip` of length at most `size`; each is stored, meets every supplied bound and carries its day count and user card. |
| EmployeeHoliday.ViewsOfMatches | src/modules/admin/employee-holiday/employee-holiday.service.ts:72-78 | The view of a matching request carries that stored request and its day count. |
| EmployeeHoliday.FindOne | src/modules/admin/employee-holiday/employee-holiday.service.ts:95-125 | The reply always succeeds. It carries no data iff no request has the id, else the view of that request, with its day count and user card. |
| EmployeeHoliday.Create | src/modules/admin/employee-holiday/employee-holiday.service.ts:12-25 | The insert throws iff the user does not exist, leaving the store unchanged. Otherwise exactly the requested leave is appended. |
| EmployeeHoliday.CreateThenFind | src/modules/admin/employee-holiday/employee-holiday.service.ts:12-25 | A created request is found again by its id, with its day count and its user's card. |
| EmployeeHoliday.Remove | src/modules/admin/employee-holiday/employee-holiday.service.ts:147-156 | The delete throws iff no request has the id. Afterwards a request remains iff it was stored and has another id. |
| Projects.RowsFor | src/modules/admin/project/project.service.ts:27-29 | One assignee row per listed id, in order, each linking that user to the project with zero totals. |
| Projects.Listed | src/modules/admin/project/project.service.ts:25 | No ids are connected when the list is absent, and the list's ids when it is present. |
| Projects.Create | src/modules/admin/project/project.service.ts:11-40 | Creation throws iff a listed user does not exist or a truthy owner id names no user, leaving the store as it was. Otherwise the project with the given fields and the default status is appended, with one assignee row per listed id. The reply carries the new project together with exactly those assignee rows, as the stored rows of that project. |
| Projects.Included | src/modules/admin/project/project.service.ts:33 | The reply of a write holds the project and exactly the stored assignee rows whose project id is that project's. |
| Projects.AddedRows | src/modules/admin/project/project.service.ts:25-33 | When no stored row belongs to the new id, that project's rows after the insert are exactly the rows created from the list. |
| Projects.CreateAssigneeRows | src/modules/admin/project/project.service.ts:25-31 | The new project's assignee rows are exactly one per listed id, in list order, and none when the list is absent or empty. |
| Projects.ApplyTo | src/modules/admin/project/project.service.ts:153-158 | Only the project with the id changes, and it changes only in the supplied fields. |
| Projects.Apply | src/modules/admin/project/project.service.ts:151-158 | Updating a project never changes its id, status or deletion mark, and changes the owner exactly when a truthy `userId` is given. |
| Projects.ApplyIdempotent | src/modules/admin/project/project.service.ts:153-158 | Applying the same changes twice is applying them once, and a request with no field set changes nothing. |
| Projects.Update | src/modules/admin/project/project.service.ts:149-178 | The update throws iff the project is missing, a truthy owner id names no user, or a listed assignee is unknown, leaving the store as it was. On success only the scalar fields given change. With an assignee list, the project's old links are replaced by one per listed id and other projects' links stay. Without one, the links are untouched. The reply carries the updated project together with its assignee rows as stored after the write: the new ones with a list, the old ones without. |
| Projects.ReplacedRows | src/modules/admin/project/project.service.ts:160-172 | After the delete-then-create of an update, the project's rows are exactly the rows created from the list. |
| Projects.UpdateReplacesAssignees | src/modules/admin/project/project.service.ts:160-167 | After an update with a list, the project's links are exactly one per listed id, in order. |
| Projects.UpdateIdempotent | src/modules/admin/project/project.service.ts:149-178 | Repeating a successful update leaves the store as the first update left it. |
| Projects.ApplyToIdempotent | src/modules/admin/project/project.service.ts:153-158 | Applying the same scalar changes twice to the store is applying them once. |
| Projects.ReplaceIdempotent | src/modules/admin/project/project.service.ts:160-167 | Replacing a project's links with the same list twice is replacing them once. |
| Projects.FindAll | src/modules/admin/project/project.service.ts:42-109 | As written: any truthy `status` makes the listing throw. Without one, the listing is the intended listing. |
| Projects.FindAllIntended | src/modules/admin/project/project.service.ts:52-104 | It succeeds iff paging is positive and a given status spells an integer. The total counts the projects meeting priority, status and search, and the page is exactly the window of those projects at `skip` of length at most `size`, each stored and meeting them. |
| Projects.StatusQueryRefused | src/modules/admin/project/project.service.ts:59 | `?status=1` makes the listing as written throw, whatever the store holds. |
| Projects.StatusQueryIntended | src/modules/admin/project/project.service.ts:59 | With the status read as an integer, the listing succeeds, counts exactly the projects with that status and lists only such projects. |
| Projects.UnfilteredCountsAll | src/modules/admin/project/project.service.ts:56-67 | With no filter the total is the number of stored projects, soft-deleted ones included. |
| Notifications.LoanAmount | src/modules/admin/notification/notification.service.ts:73-77 | There is no amount when no loan has the id. Otherwise the amount is that of the first stored loan with the id (ids are unique, as `findUnique` needs), and any amount is that of a stored loan with the id. |
| Notifications.Format | src/modules/admin/notification/notification.service.ts:83-96 | The ids, entity and time are copied. The sender name falls back to "Unknown", the text to "Notification" and the type to "message". An amount is present only for a loan request, and is then its loan's amount. |
| Notifications.FormatAll | src/modules/admin/notification/notification.service.ts:65-99 | Every notification is formatted, in order. |
| Notifications.FindAll | src/modules/admin/notification/notification.service.ts:13-112 | It throws iff the user is unknown. Otherwise it returns, in order, the formatted notifications the user may see. |
| Notifications.FindAllVisibility | src/modules/admin/notification/notification.service.ts:15-23 | An admin sees a notification iff it is addressed to them or to nobody; any other user sees every notification. |
| Notifications.VisibleTo | src/modules/admin/notification/notification.service.ts:18-23 | A user who is not an admin sees every notification. A notification addressed to nobody or to the user is visible to them, and one addressed to someone else is hidden from an admin. |
| Notifications.FormatKeepsOrder | src/modules/admin/notification/notification.service.ts:65-99 | Formatting a split list is formatting the parts. |
| Notifications.AmountOnlyForLoans | src/modules/admin/notification/notification.service.ts:68-77 | A formatted notification has an amount iff it is a loan request whose loan has a non-null amount. |
| Notifications.Fallbacks | src/modules/admin/notification/notification.service.ts:86-92 | With no sender name and no event, the notification shows "Unknown", "Notification" and "message". |
| Notifications.Remove | src/modules/admin/notification/notification.service.ts:135-161 | Removal fails with "Notification not found" iff no notification has the id. Otherwise it reports deletion, and a notification remains iff it was stored with another id. |
| Notifications.RemoveAll | src/modules/admin/notification/notification.service.ts:170-195 | It fails with "Notification not found" iff nothing is addressed to the user or to nobody. Otherwise it removes exactly those, and the store shrinks by their count. |
| Notifications.RemoveAllTwice | src/modules/admin/notification/notification.service.ts:173-190 | A second "remove all" for the same user always reports that nothing was found. |

## Left out

- Side effects of foreign code become parameters or are left out:
  - the ORM's `orderBy` (the store's sequence order is the fetch order);
  - case-insensitive `contains` (the parameter `matchText`);
  - bcrypt (the parameter `hash`);
  - id generation (the parameter `newId`);
  - column defaults (the parameter `defaultStatus`);
  - the welcome mail and the assignment write (the parameter `Outcomes`);
  - avatar upload and storage URLs (the avatar text stands for its URL);
  - logging.
- The `UserRepository.getUserDetails` lookup is not part of this model. It is modelled as a lookup of the user by id, and an unknown user takes the `catch` branch.
- Concurrency: `Promise.all` and the awaits of one request are modelled as one sequential step.
- Floating point: hours and money are exact reals. Real `Decimal` columns count as truthy whenever present, as Prisma's `Decimal` objects are.
- Floating point: `toFixed(1)` is left out, so the `total` text of a day line is its hours value.
- Dashboard.RoleDistribution: the percentage is the exact share; `Math.round` is not modelled.
- Dates are read at UTC. The server's local time zone and the time-zone helper are not modelled.
- Date strings arrive already parsed to instants or day numbers, and an unparsable date string is not modelled.
- AttendanceGrid.FindGrid: requires numeric month text of 1-12 and numeric year text of 100-9999. This is the domain where `new Date(y, m, …)` is the plain calendar, because JavaScript maps years 0-99 into the 1900s and rolls months over.
- AttendanceGrid.EmployeeMonth: requires the same month and year domain as `FindGrid`.
- Dashboard.AttendanceReport: requires the range bounds to be day numbers of years 0-9999.
- AttendanceGrid.NumberValue: `Number(text)` is read as "a non-empty run of digits". Text that `Number` also accepts, with surrounding blanks, a sign, a decimal point, an exponent or a hex prefix (" 5", "+5", "5.0", "1e1", "0x5"), is reported as the month/year error, although the source builds the grid for it. `parseInt` itself is modelled with its leading white space (the ECMAScript white space and line terminators), sign and digit prefix.
- Pagination.Window: a negative `take` (Prisma's reverse take) is modelled as a refusal, like a negative `skip`.
- Attendance.Create: the status is PRESENT or ABSENT or absent. An empty-string status is not modelled, and neither is the `status` enum's validation by the DTO layer.
- Employees.FindOne: the nested `attendance` list (employee.service.ts:215-234) is not part of the detail, and the `take: 10` and `take: 30` limits on the nested lists (employee.service.ts:213, 233) are not modelled. The detail carries the selected user columns, the whole stored project links rather than their project id, name and totals, and the aggregate totals.
- Employees.Lower: characters outside ASCII other than the Kelvin sign and the capital I with dot above are kept as they are rather than lower-cased. None of them lower-cases to a character of `[a-z0-9._-]`, so the username is the one JavaScript derives.
- Projects.Create: duplicate ids in the assignee list and the uniqueness of (project, user) pairs are not modelled, since the database schema is not part of this model.
- Projects.FindAllIntended: a listed project is the whole stored row; the `select` of its listed columns and of its assignees' users is not modelled. The other listings' users are modelled as their selected columns (`AttendanceGrid.CardOf`, `Attendance.AttendanceUserOf`, `EmployeeHoliday.HolidayUserOf`, `Employees.ColumnsOf`).
- Operations outside the modelled core:
  - `DashboardService.getSummary`;
  - attendance `findOne`/`update`/`remove` (the update can bypass the PRESENT guard);
  - employee `update`/`remove`;
  - holiday `update`;
  - project `findOne`/`remove`;
  - notification `update`;
  - the loan, academic-calendar, Google-Calendar, user-deletion and scheduled-job code.

## Findings

| source | as written | input that shows it | evidently intended | confidence | as-written member | corrected member |
|---|---|---|---|---|---|---|
| src/modules/admin/project/project.service.ts:59 | The `status` query text is put into the filter unconverted, while `status` is an integer column (the `status: 1` filters at employee.service.ts:341 and dashboard.service.ts:31 compare it with a number), so the ORM rejects the query. | `GET /project?status=1` | Compare the status as the integer the text spells. | medium: not executed; rests on the column being an integer, as the other filters show | Projects.FindAll, Projects.StatusQueryRefused | Projects.FindAllIntended, Projects.StatusQueryIntended |

=== FILE: attendance.dfy ===
/** Attendance creation: the worked-hours formula and the guard that keeps at most one
    live PRESENT row per user and date; and the attendance listing. */
module Attendance {
  import opened Common
  import opened Entities
  import opened IsoDate
  import opened Pagination

  /** The body of `POST /attendance`. `date` is a day number, the four instants are
      milliseconds; absent fields are `None`. */
  datatype CreateDto = CreateDto(
    user_id: string,
    date: int,
    start_time: Option<int>,
    lunch_start: Option<int>,
    lunch_end: Option<int>,
    end_time: Option<int>,
    hours: Option<real>,
    attendance_status: Option<AttendanceStatus>,
    notes: Option<string>,
    address: Option<string>)

  const AlreadyPresent := "Attendance already marked as PRESENT for this user and date."

  /** Worked time in whole milliseconds: the shift less the lunch break (only when both
      lunch bounds are known), floored at zero. */
  function WorkedMillis(start: int, end: int, lunchStart: Option<int>, lunchEnd: Option<int>): nat {
    var lunch := if lunchStart.Some? && lunchEnd.Some? then lunchEnd.value - lunchStart.value else 0;
    var worked := (end - start) - lunch;
    if worked > 0 then worked else 0
  }

  /** The `hours` stored by `create`: computed in hours from the instants when both shift
      bounds are given, otherwise the caller's `hours` unchanged. */
  function WorkedHours(dto: CreateDto): (h: Option<real>)
    ensures dto.start_time.None? || dto.end_time.None? ==> h == dto.hours
    ensures dto.start_time.Some? && dto.end_time.Some? ==>
      h.Some? && h.value >= 0.0
      && h.value * MillisPerHour as real
         == WorkedMillis(dto.start_time.value, dto.end_time.value, dto.lunch_start, dto.lunch_end) as real
  {
    if dto.start_time.Some? && dto.end_time.Some? then
      var shift := (dto.end_time.value - dto.start_time.value) as real / MillisPerHour as real;
      var lunch :=
        if dto.lunch_start.Some? && dto.lunch_end.Some?
        then (dto.lunch_end.value - dto.lunch_start.value) as real / MillisPerHour as real
        else 0.0;
      var hours := shift - lunch;
      Some(if hours > 0.0 then hours else 0.0)
    else dto.hours
  }

  /** A lunch break with only one bound is ignored. */
  lemma LunchNeedsBothBounds(dto: CreateDto)
    requires dto.lunch_start.None? || dto.lunch_end.None?
    ensures WorkedHours(dto) == WorkedHours(dto.(lunch_start := None, lunch_end := None))
  {
  }

  /** Deducting a (non-negative) lunch break never increases the worked hours. */
  lemma LunchNeverAddsHours(dto: CreateDto)
    requires dto.start_time.Some? && dto.end_time.Some?
    requires dto.lunch_start.Some? && dto.lunch_end.Some? && dto.lunch_start.value <= dto.lunch_end.value
    ensures WorkedHours(dto).value <= WorkedHours(dto.(lunch_start := None, lunch_end := None)).value
  {
  }

  predicate LivePresentOn(a: Attendance, user: string, date: int) {
    !a.deleted && a.user_id == user && a.date == date && a.status == Present
  }

  /** The `findFirst` of the guard: a live PRESENT row for this user and date. */
  predicate PresentMarked(rows: seq<Attendance>, user: string, date: int) {
    exists i :: 0 <= i < |rows| && LivePresentOn(rows[i], user, date)
  }

  predicate IdUnused(rows: seq<Attendance>, id: string) {
    forall i :: 0 <= i < |rows| ==> rows[i].id != id
  }

  /** The invariant the guard maintains: no two live PRESENT rows share user and date. */
  predicate AtMostOnePresent(rows: seq<Attendance>) {
    forall i, j ::
      0 <= i < |rows| && 0 <= j < |rows|
      && LivePresentOn(rows[i], rows[j].user_id, rows[j].date) && LivePresentOn(rows[j], rows[i].user_id, rows[i].date)
      ==> i == j
  }

  /** `AttendanceService.create`. A request without a status is guarded as PRESENT but
      stored with the column default, here the parameter `defaultStatus`; `newId` is the
      id the database generates. The guard runs first; an insert for an unknown user
      then fails on the foreign key and is caught. */
  function Create(rows: seq<Attendance>, users: seq<User>, dto: CreateDto, newId: string, defaultStatus: AttendanceStatus)
    : (s: Step<Attendance, seq<Attendance>>)
    requires IdUnused(rows, newId)
    ensures s.response.Fail? <==>
      dto.attendance_status != Some(Absent) && PresentMarked(rows, dto.user_id, dto.date)
    ensures s.response.Fail? ==> s.response.message == AlreadyPresent && s.store == rows
    ensures s.response.Caught? <==> !s.response.Fail? && !UserExists(users, dto.user_id)
    ensures s.response.Caught? ==> s.store == rows
    ensures s.response.Ok? ==>
      var a := s.response.data;
      && s.store == rows + [a]
      && a.id == newId && a.user_id == dto.user_id && a.date == dto.date
      && a.start_time == dto.start_time && a.end_time == dto.end_time
      && a.lunch_start == dto.lunch_start && a.lunch_end == dto.lunch_end
      && a.hours == WorkedHours(dto)
      && a.status == dto.attendance_status.GetOr(defaultStatus)
      && a.notes == dto.notes && a.address == dto.address
      && a.project_id.None? && !a.deleted
  {
    var status := dto.attendance_status.GetOr(Present);
    if status == Present && PresentMarked(rows, dto.user_id, dto.date) then
      Step(Fail(AlreadyPresent), rows)
    else if !UserExists(users, dto.user_id) then
      Step(Caught("orm"), rows)
    else
      var a := Attendance(newId, dto.user_id, dto.date, dto.start_time, dto.lunch_start, dto.lunch_end,
        dto.end_time, WorkedHours(dto), dto.attendance_status.GetOr(defaultStatus), dto.notes, dto.address,
        None, false);
      Step(Ok(a), rows + [a])
  }

  /** Whatever the column default, a successful create never produces a second live
      PRESENT row for the same user and date. */
  lemma CreateKeepsOnePresent(rows: seq<Attendance>, users: seq<User>, dto: CreateDto, newId: string, defaultStatus: AttendanceStatus)
    requires IdUnused(rows, newId) && AtMostOnePresent(rows)
    ensures AtMostOnePresent(Create(rows, users, dto, newId, defaultStatus).store)
  {
    var s := Create(rows, users, dto, newId, defaultStatus);
    if s.response.Ok? {
      var a := s.response.data;
      assert s.store == rows + [a];
      if a.status == Present {
        assert forall j :: 0 <= j < |rows| ==> !LivePresentOn(rows[j], a.user_id, a.date);
      }
    }
  }

  /** The query of `GET /attendance`; `date` is a day number. The query object is not
      validated, so the status arrives as whatever text the caller sent. */
  datatype Query = Query(
    user_id: Option<string>,
    date: Option<int>,
    attendance_status: Option<string>,
    search: Option<string>,
    page: Option<string>,
    limit: Option<string>)

  /** The `where` object `findAll` builds: each condition present only when its query
      parameter is truthy; `deleted_at: null` always. */
  datatype Where = Where(user_id: Option<string>, status: Option<string>, date: Option<int>, notesContain: Option<string>)

  function BuildWhere(q: Query): Where {
    Where(
      if Given(q.user_id) then q.user_id else None,
      if Given(q.attendance_status) then q.attendance_status else None,
      q.date,
      if Given(q.search) then q.search else None)
  }

  /** The enum value the ORM reads a status text as; any other text is not a value of
      the `AttendanceStatus` enum, and the ORM rejects a query that compares with it. */
  function StatusOf(t: string): (r: Option<AttendanceStatus>)
    ensures r == Some(Present) <==> t == "PRESENT"
    ensures r == Some(Absent) <==> t == "ABSENT"
  {
    if t == "PRESENT" then Some(Present)
    else if t == "ABSENT" then Some(Absent)
    else None
  }

  /** A `Where` the ORM accepts: its status, if any, names an enum value. */
  predicate Accepted(w: Where) {
    w.status.Some? ==> StatusOf(w.status.value).Some?
  }

  /** The ORM's reading of an accepted `Where`. Case-insensitive `contains` is the abstract `matchText`. */
  predicate Satisfies(w: Where, a: Attendance, matchText: (string, string) -> bool) {
    && !a.deleted
    && (w.user_id.Some? ==> a.user_id == w.user_id.value)
    && (w.status.Some? ==> StatusOf(w.status.value) == Some(a.status))
    && (w.date.Some? ==> a.date == w.date.value)
    && (w.notesContain.Some? ==> a.notes.Some? && matchText(a.notes.value, w.notesContain.value))
  }

  function Keep(q: Query, matchText: (string, string) -> bool): Attendance -> bool {
    a => Satisfies(BuildWhere(q), a, matchText)
  }

  /** The columns of the `user` relation `findAll` includes. */
  datatype AttendanceUser = AttendanceUser(
    id: string, name: string, email: string, avatar: Option<string>, employee_role: string)

  function AttendanceUserOf(u: User): (c: AttendanceUser)
    ensures c.id == u.id && c.name == u.name && c.email == u.email
    ensures c.avatar == u.avatar && c.employee_role == u.employee_role
  {
    AttendanceUser(u.id, u.name, u.email, u.avatar, u.employee_role)
  }

  /** A listed record with the card of the user it belongs to. */
  datatype Entry = Entry(record: Attendance, user: Option<AttendanceUser>)

  function EntryOf(a: Attendance, users: seq<User>): (e: Entry)
    ensures e.record == a
    ensures e.user.None? <==> !UserExists(users, a.user_id)
    ensures e.user.Some? ==> exists u :: u in users && u.id == a.user_id && e.user.value == AttendanceUserOf(u)
  {
    Entry(a, Related(users, a.user_id, AttendanceUserOf))
  }

  function Entries(found: seq<Attendance>, users: seq<User>): (r: seq<Entry>)
    ensures |r| == |found|
    ensures forall i :: 0 <= i < |r| ==> r[i] == EntryOf(found[i], users)
  {
    seq(|found|, i requires 0 <= i < |found| => EntryOf(found[i], users))
  }

  /** A status text that is given (non-empty) and names no enum value, such as "LATE"
      or "present". */
  predicate BadStatus(q: Query) {
    Given(q.attendance_status) && StatusOf(q.attendance_status.value).None?
  }

  /** `AttendanceService.findAll`: one window of the matching rows, each with its user's
      card, and the count of all matching rows. */
  function FindAll(rows: seq<Attendance>, users: seq<User>, q: Query, matchText: (string, string) -> bool)
    : (r: Response<Page<Entry>>)
    ensures r.Ok? || r.Caught?
    ensures var p := PagingOf(q.page, q.limit);
      r.Ok? <==> p.page >= 1 && p.size >= 1 && !BadStatus(q)
    ensures r.Ok? ==> |r.data.data| <= PagingOf(q.page, q.limit).size
    ensures r.Ok? ==> forall e :: e in r.data.data ==>
      && e.record in rows && !e.record.deleted
      && (Given(q.user_id) ==> e.record.user_id == q.user_id.value)
      && (Given(q.attendance_status) ==> StatusOf(q.attendance_status.value) == Some(e.record.status))
      && (q.date.Some? ==> e.record.date == q.date.value)
      && (Given(q.search) ==> e.record.notes.Some? && matchText(e.record.notes.value, q.search.value))
    ensures r.Ok? ==> r.data.meta == MetaOf(CountWhere(rows, Keep(q, matchText)), PagingOf(q.page, q.limit))
    ensures r.Ok? ==>
      var p := PagingOf(q.page, q.limit);
      var w := Window(Filter(rows, Keep(q, matchText)), p.skip, p.size);
      w.Some? && r.data.data == Entries(w.value, users)
  {
    var listed := List(rows, Keep(q, matchText), q.page, q.limit);
    if !Accepted(BuildWhere(q)) then Caught("orm")
    else if listed.Caught? then Caught(listed.origin)
    else
      EntriesOfMatches(rows, users, q, matchText, listed.data.data);
      Ok(Page(listed.data.meta, Entries(listed.data.data, users)))
  }

  /** The status text is compared as the enum's spelling: "present" makes the listing
      fail, where "PRESENT" lists only PRESENT records. */
  lemma StatusTextIsExact(rows: seq<Attendance>, users: seq<User>, q: Query, matchText: (string, string) -> bool)
    ensures FindAll(rows, users, q.(attendance_status := Some("present")), matchText).Caught?
    ensures var r := FindAll(rows, users, q.(attendance_status := Some("PRESENT")), matchText);
      r.Ok? ==> forall e :: e in r.data.data ==> e.record.status == Present
  {
  }

  /** The entries of matching records hold stored records meeting the query. */
  lemma EntriesOfMatches(rows: seq<Attendance>, users: seq<User>, q: Query, matchText: (string, string) -> bool,
                         found: seq<Attendance>)
    requires forall a :: a in found ==> a in rows && Keep(q, matchText)(a)
    ensures forall e :: e in Entries(found, users) ==>
      && e.record in rows && !e.record.deleted
      && (Given(q.user_id) ==> e.record.user_id == q.user_id.value)
      && (Given(q.attendance_status) ==> StatusOf(q.attendance_status.value) == Some(e.record.status))
      && (q.date.Some? ==> e.record.date == q.date.value)
      && (Given(q.search) ==> e.record.notes.Some? && matchText(e.record.notes.value, q.search.value))
  {
    var es := Entries(found, users);
    forall e | e in es
      ensures e.record in found
    {
      var i :| 0 <= i < |es| && es[i] == e;
      assert found[i] in found;
    }
  }
}

=== FILE: attendance_grid.dfy ===
/** The monthly views of attendance: the per-user grid of `findGrid` and the
    per-day table of `getEmployeeAttendance`.

    Both key records by `DayKey(date)` (the `YYYY-MM-DD` prefix of `toISOString()`,
    read at UTC) and, because later assignments overwrite earlier ones, keep the
    LAST record of each day in fetch order. */
module AttendanceGrid {
  import opened Common
  import opened Calendar
  import opened IsoDate
  import opened Entities
  import opened Pagination

  const InvalidMonthYear := "Invalid or missing month/year parameter."
  const InvalidUserMonthYear := "Invalid or missing user_id/month/year parameter."
  const Dashes := "----"

  /** `Number(s)` for a month or year parameter, as far as the model reads it: a
      non-empty run of decimal digits has its value; anything else is `NaN`. */
  function NumberValue(s: string): (r: Option<nat>)
    ensures r.Some? <==> s != [] && AllDigits(s)
  {
    if s != [] && AllDigits(s) then Some(DecimalValue(s)) else None
  }

  /** Where `Number` accepts a parameter, `parseInt` reads the same value from it. */
  lemma NumberIsParseInt(s: string)
    requires NumberValue(s).Some?
    ensures ParseInt(s) == Some(NumberValue(s).value as int)
  {
    ParseDecimal(s);
  }

  /** Month parameters the model accepts once they are numbers: `1 .. 12`, with a year
      the `Date` constructor takes literally (it maps `0 .. 99` into the 1900s). */
  predicate InDomain(monthText: string, yearText: string) {
    && (NumberValue(monthText).Some? ==> 1 <= NumberValue(monthText).value <= 12)
    && (NumberValue(yearText).Some? ==> 100 <= NumberValue(yearText).value <= MaxYear)
  }

  /** First and last day numbers of month `m` of year `y`. */
  function FirstDay(y: int, m: int): int
    requires ValidYearMonth(y, m)
  {
    DayNumber(Date(y, m, 1))
  }

  function LastDay(y: int, m: int): int
    requires ValidYearMonth(y, m)
  {
    DayNumber(Date(y, m, DaysInMonth(y, m)))
  }

  /** The `date: { gte: startDate, lte: endDate }` window of the month. */
  predicate InMonth(a: Attendance, y: int, m: int)
    requires ValidYearMonth(y, m)
  {
    FirstDay(y, m) <= a.date <= LastDay(y, m)
  }

  predicate KeyableDates(recs: seq<Attendance>) {
    forall i :: 0 <= i < |recs| ==> 0 <= recs[i].date < DayLimit
  }

  /** The last record of day `n`, in fetch order. */
  function LastOn(recs: seq<Attendance>, n: int): Option<Attendance> {
    if recs == [] then None
    else if recs[|recs| - 1].date == n then Some(recs[|recs| - 1])
    else LastOn(recs[..|recs| - 1], n)
  }

  /** The last record of a day is a record of that day, and it is missing exactly when no
      record has that day; no later record has that day. */
  lemma {:induction false} LastOnSpec(recs: seq<Attendance>, n: int)
    ensures LastOn(recs, n).Some? ==> LastOn(recs, n).value.date == n
    ensures LastOn(recs, n).None? <==> forall i :: 0 <= i < |recs| ==> recs[i].date != n
    ensures LastOn(recs, n).Some? ==>
      exists i :: 0 <= i < |recs| && recs[i] == LastOn(recs, n).value && (forall j :: i < j < |recs| ==> recs[j].date != n)
  {
    if recs != [] {
      var init := recs[..|recs| - 1];
      LastOnSpec(init, n);
      if recs[|recs| - 1].date != n && LastOn(init, n).Some? {
        var i :| 0 <= i < |init| && init[i] == LastOn(init, n).value && (forall j :: i < j < |init| ==> init[j].date != n);
        assert recs[i] == LastOn(recs, n).value;
      }
    }
  }

  /** The key a record is filed under: the `full-date` of its day. Stored dates always lie
      in the calendar's domain, so the fallback never applies to a stored record. */
  function RecordKey(a: Attendance): string {
    if 0 <= a.date < DayLimit then DayKey(a.date) else ""
  }

  /** The last record filed under key `k`, in fetch order. */
  function LastKeyed<K(==)>(recs: seq<Attendance>, key: Attendance -> K, k: K): Option<Attendance> {
    if recs == [] then None
    else if key(recs[|recs| - 1]) == k then Some(recs[|recs| - 1])
    else LastKeyed(recs[..|recs| - 1], key, k)
  }

  /** Looking a day up by its key finds the same record as looking it up by its number. */
  lemma {:induction false} LastKeyedIsLastOn(recs: seq<Attendance>, n: int)
    requires KeyableDates(recs) && 0 <= n < DayLimit
    ensures LastKeyed(recs, RecordKey, DayKey(n)) == LastOn(recs, n)
  {
    if recs != [] {
      DayKeyInjective(recs[|recs| - 1].date, n);
      LastKeyedIsLastOn(recs[..|recs| - 1], n);
    }
  }

  /** `recs.forEach(a => index[key(a)] = val(a))` starting from `init`: every key of `init`
      stays, every record's key is added, and each key holds the value of the last record
      with that key, or its initial value when no record has it. */
  function Index<K(==,!new), V>(init: map<K, V>, recs: seq<Attendance>, key: Attendance -> K, val: Attendance -> V)
    : (r: map<K, V>)
    ensures forall k :: k in r <==> k in init || LastKeyed(recs, key, k).Some?
    ensures forall k :: k in r ==> r[k] == if LastKeyed(recs, key, k).Some? then val(LastKeyed(recs, key, k).value) else init[k]
  {
    if recs == [] then init
    else
      var prev := Index(init, recs[..|recs| - 1], key, val);
      var last := recs[|recs| - 1];
      prev[key(last) := val(last)]
  }

  /** A record's own key always finds a record. */
  lemma {:induction false} LastKeyedOwnKey<K>(recs: seq<Attendance>, key: Attendance -> K, i: int)
    requires 0 <= i < |recs|
    ensures LastKeyed(recs, key, key(recs[i])).Some?
  {
    if i < |recs| - 1 && key(recs[|recs| - 1]) != key(recs[i]) {
      LastKeyedOwnKey(recs[..|recs| - 1], key, i);
    }
  }

  /** The record found under a key is a record filed under that key. */
  lemma {:induction false} LastKeyedHasKey<K>(recs: seq<Attendance>, key: Attendance -> K, k: K)
    requires LastKeyed(recs, key, k).Some?
    ensures LastKeyed(recs, key, k).value in recs && key(LastKeyed(recs, key, k).value) == k
  {
    if key(recs[|recs| - 1]) != k {
      LastKeyedHasKey(recs[..|recs| - 1], key, k);
    }
  }

  // ---------------------------------------------------------------- findGrid

  /** `s.padStart(2, '0')`. */
  function PadStart2(s: string): string {
    if |s| >= 2 then s else if |s| == 1 then ['0', s[0]] else "00"
  }

  /** The key `findGrid` pre-fills for day `d`, built from the raw query text:
      `${year}-${month.padStart(2, '0')}-${String(d).padStart(2, '0')}`. */
  function GridKey(yearText: string, monthText: string, d: int): (k: string)
    requires 1 <= d <= 31
    ensures |k| == |yearText| + |PadStart2(monthText)| + 4
    ensures k[..|yearText|] == yearText && k[|yearText|] == '-'
    ensures k[|k| - 3] == '-' && k[|k| - 2..] == Pad2(d)
  {
    yearText + "-" + PadStart2(monthText) + "-" + Pad2(d)
  }

  lemma GridKeyInjective(yearText: string, monthText: string, a: int, b: int)
    requires 1 <= a <= 31 && 1 <= b <= 31
    ensures GridKey(yearText, monthText, a) == GridKey(yearText, monthText, b) <==> a == b
  {
    var ka, kb := GridKey(yearText, monthText, a), GridKey(yearText, monthText, b);
    if ka == kb {
      assert ka[|ka| - 2..] == Pad2(a);
      assert kb[|kb| - 2..] == Pad2(b);
      Pad2Value(a);
      Pad2Value(b);
    }
  }

  /** The query text spells the year and month the way `toISOString` does. */
  predicate Canonical(yearText: string, monthText: string, y: int, m: int)
    requires ValidYearMonth(y, m)
  {
    yearText == Pad4(y) && PadStart2(monthText) == Pad2(m)
  }

  /** Plain numerals are canonical: a four-digit year and a one- or two-digit month. */
  lemma PlainTextIsCanonical(yearText: string, monthText: string)
    requires |yearText| == 4 && AllDigits(yearText)
    requires 1 <= |monthText| <= 2 && AllDigits(monthText)
    requires ValidYearMonth(DecimalValue(yearText), DecimalValue(monthText))
    ensures Canonical(yearText, monthText, DecimalValue(yearText), DecimalValue(monthText))
  {
    FourDigits(yearText);
    if |monthText| == 2 {
      TwoDigits(monthText);
    } else {
      OneDigit(monthText);
    }
  }

  /** A one-digit numeral pads to itself behind a zero. */
  lemma OneDigit(s: string)
    requires |s| == 1 && AllDigits(s)
    ensures DecimalValue(s) <= 9 && Pad2(DecimalValue(s)) == PadStart2(s)
  {
    OneDigitValue(s);
    PadOneDigit(DigitValue(s[0]));
    DigitRoundTrip(s[0]);
  }

  /** For canonical text the pre-filled keys are the `full-date`s of the month's days. */
  lemma GridKeyIsFullDate(yearText: string, monthText: string, y: int, m: int, d: int)
    requires ValidYearMonth(y, m) && Canonical(yearText, monthText, y, m) && 1 <= d <= DaysInMonth(y, m)
    ensures GridKey(yearText, monthText, d) == FullDate(Date(y, m, d)) == DayKey(DayNumber(Date(y, m, d)))
  {
    DayKeyOfDate(Date(y, m, d));
  }

  /** The row of `null`s for days `1 .. n`. */
  function EmptyRow(yearText: string, monthText: string, n: int): (row: map<string, Option<Cell>>)
    requires 0 <= n <= 31
    ensures forall k :: k in row <==> exists d :: 1 <= d <= n && GridKey(yearText, monthText, d) == k
    ensures forall k :: k in row ==> row[k].None?
    ensures |row| == n
  {
    if n == 0 then map[]
    else
      var prev := EmptyRow(yearText, monthText, n - 1);
      assert GridKey(yearText, monthText, n) !in prev by {
        forall d | 1 <= d <= n - 1 ensures GridKey(yearText, monthText, d) != GridKey(yearText, monthText, n) {
          GridKeyInjective(yearText, monthText, d, n);
        }
      }
      prev[GridKey(yearText, monthText, n) := None]
  }

  datatype Cell = Cell(id: string, hours: real)

  /** `{ id: a.id, hours: Number(a.hours) }`; `Number(null)` is 0. */
  function CellOf(a: Attendance): Cell {
    Cell(a.id, a.hours.GetOr(0.0))
  }

  function CellOn(recs: seq<Attendance>, n: int): Option<Cell> {
    var last := LastOn(recs, n);
    if last.Some? then Some(CellOf(last.value)) else None
  }

  function SomeCell(a: Attendance): Option<Cell> {
    Some(CellOf(a))
  }

  /** Records inside the month window have day numbers in the calendar's domain. */
  lemma MonthKeyable(recs: seq<Attendance>, y: int, m: int)
    requires ValidYearMonth(y, m)
    requires forall i :: 0 <= i < |recs| ==> InMonth(recs[i], y, m)
    ensures KeyableDates(recs)
  {
    var first, last := FirstDay(y, m), LastDay(y, m);
    assert 0 <= first && last < DayLimit;
  }

  /** One user's row of the grid. For canonical query text it has exactly one key per
      day of the month, the `full-date` of that day, holding the last record of the
      day or `null`. */
  function GridRow(yearText: string, monthText: string, y: int, m: int, recs: seq<Attendance>)
    : (row: map<string, Option<Cell>>)
    requires ValidYearMonth(y, m)
    requires forall i :: 0 <= i < |recs| ==> InMonth(recs[i], y, m)
    ensures forall d :: 1 <= d <= DaysInMonth(y, m) ==> GridKey(yearText, monthText, d) in row
    ensures Canonical(yearText, monthText, y, m) ==>
      && |row| == DaysInMonth(y, m)
      && (forall k :: k in row <==> exists d :: 1 <= d <= DaysInMonth(y, m) && FullDate(Date(y, m, d)) == k)
      && (forall d :: 1 <= d <= DaysInMonth(y, m) ==>
            FullDate(Date(y, m, d)) in row && row[FullDate(Date(y, m, d))] == CellOn(recs, DayNumber(Date(y, m, d))))
  {
    MonthKeyable(recs, y, m);
    GridRowFacts(yearText, monthText, y, m, recs);
    Index(EmptyRow(yearText, monthText, DaysInMonth(y, m)), recs, RecordKey, SomeCell)
  }

  /** The facts `GridRow` promises, about the indexed pre-filled row. */
  lemma GridRowFacts(yearText: string, monthText: string, y: int, m: int, recs: seq<Attendance>)
    requires ValidYearMonth(y, m)
    requires forall i :: 0 <= i < |recs| ==> InMonth(recs[i], y, m)
    ensures KeyableDates(recs)
    ensures var row := Index(EmptyRow(yearText, monthText, DaysInMonth(y, m)), recs, RecordKey, SomeCell);
      && (forall d :: 1 <= d <= DaysInMonth(y, m) ==> GridKey(yearText, monthText, d) in row)
      && (Canonical(yearText, monthText, y, m) ==>
            && |row| == DaysInMonth(y, m)
            && (forall k :: k in row <==> exists d :: 1 <= d <= DaysInMonth(y, m) && FullDate(Date(y, m, d)) == k)
            && (forall d :: 1 <= d <= DaysInMonth(y, m) ==>
                  FullDate(Date(y, m, d)) in row && row[FullDate(Date(y, m, d))] == CellOn(recs, DayNumber(Date(y, m, d)))))
  {
    MonthKeyable(recs, y, m);
    PrefillKept(yearText, monthText, y, m, recs);
    if Canonical(yearText, monthText, y, m) {
      CanonicalRow(yearText, monthText, y, m, recs);
    }
  }

  /** Indexing keeps every pre-filled day key. */
  lemma PrefillKept(yearText: string, monthText: string, y: int, m: int, recs: seq<Attendance>)
    requires ValidYearMonth(y, m)
    ensures forall d :: 1 <= d <= DaysInMonth(y, m) ==>
      GridKey(yearText, monthText, d) in Index(EmptyRow(yearText, monthText, DaysInMonth(y, m)), recs, RecordKey, SomeCell)
  {
    var empty := EmptyRow(yearText, monthText, DaysInMonth(y, m));
    forall d | 1 <= d <= DaysInMonth(y, m)
      ensures GridKey(yearText, monthText, d) in Index(empty, recs, RecordKey, SomeCell)
    {
      assert GridKey(yearText, monthText, d) in empty;
    }
  }

  /** The canonical half of `GridRow`'s contract. */
  lemma CanonicalRow(yearText: string, monthText: string, y: int, m: int, recs: seq<Attendance>)
    requires ValidYearMonth(y, m) && Canonical(yearText, monthText, y, m)
    requires forall i :: 0 <= i < |recs| ==> InMonth(recs[i], y, m)
    ensures KeyableDates(recs)
    ensures var row := Index(EmptyRow(yearText, monthText, DaysInMonth(y, m)), recs, RecordKey, SomeCell);
      && |row| == DaysInMonth(y, m)
      && (forall k :: k in row <==> exists d :: 1 <= d <= DaysInMonth(y, m) && FullDate(Date(y, m, d)) == k)
      && (forall d :: 1 <= d <= DaysInMonth(y, m) ==>
            FullDate(Date(y, m, d)) in row && row[FullDate(Date(y, m, d))] == CellOn(recs, DayNumber(Date(y, m, d))))
  {
    var empty := EmptyRow(yearText, monthText, DaysInMonth(y, m));
    RecordKeysPrefilled(yearText, monthText, y, m, recs);
    SameKeys(empty, recs, RecordKey, SomeCell);
    PrefilledKeys(yearText, monthText, y, m);
    RowCells(yearText, monthText, y, m, recs);
  }

  /** For canonical text, every record's key is one of the pre-filled keys. */
  lemma RecordKeysPrefilled(yearText: string, monthText: string, y: int, m: int, recs: seq<Attendance>)
    requires ValidYearMonth(y, m) && Canonical(yearText, monthText, y, m)
    requires forall i :: 0 <= i < |recs| ==> InMonth(recs[i], y, m)
    ensures KeyableDates(recs)
    ensures forall i :: 0 <= i < |recs| ==> RecordKey(recs[i]) in EmptyRow(yearText, monthText, DaysInMonth(y, m))
  {
    MonthKeyable(recs, y, m);
    var empty := EmptyRow(yearText, monthText, DaysInMonth(y, m));
    forall i | 0 <= i < |recs| ensures RecordKey(recs[i]) in empty {
      var n := recs[i].date;
      InMonthIff(y, m, n);
      var c := CivilFromDay(n);
      assert c == Date(y, m, c.day);
      GridKeyIsFullDate(yearText, monthText, y, m, c.day);
    }
  }

  /** Indexing records whose keys are all already present adds no key. */
  lemma SameKeys<K(!new), V>(init: map<K, V>, recs: seq<Attendance>, key: Attendance -> K, val: Attendance -> V)
    requires forall i :: 0 <= i < |recs| ==> key(recs[i]) in init
    ensures Index(init, recs, key, val).Keys == init.Keys
  {
    var r := Index(init, recs, key, val);
    forall k | k in r ensures k in init {
      if LastKeyed(recs, key, k).Some? {
        LastKeyedHasKey(recs, key, k);
      }
    }
  }

  /** For canonical text the pre-filled keys are the month's `full-date`s, one per day. */
  lemma PrefilledKeys(yearText: string, monthText: string, y: int, m: int)
    requires ValidYearMonth(y, m) && Canonical(yearText, monthText, y, m)
    ensures var empty := EmptyRow(yearText, monthText, DaysInMonth(y, m));
      forall k :: k in empty <==> exists d :: 1 <= d <= DaysInMonth(y, m) && FullDate(Date(y, m, d)) == k
  {
    forall d | 1 <= d <= DaysInMonth(y, m)
      ensures GridKey(yearText, monthText, d) == FullDate(Date(y, m, d))
    {
      GridKeyIsFullDate(yearText, monthText, y, m, d);
    }
  }

  /** For canonical text each day's cell is the day's last record. */
  lemma RowCells(yearText: string, monthText: string, y: int, m: int, recs: seq<Attendance>)
    requires ValidYearMonth(y, m) && Canonical(yearText, monthText, y, m)
    requires forall i :: 0 <= i < |recs| ==> InMonth(recs[i], y, m)
    ensures KeyableDates(recs)
    ensures var row := Index(EmptyRow(yearText, monthText, DaysInMonth(y, m)), recs, RecordKey, SomeCell);
      forall d :: 1 <= d <= DaysInMonth(y, m) ==>
        FullDate(Date(y, m, d)) in row && row[FullDate(Date(y, m, d))] == CellOn(recs, DayNumber(Date(y, m, d)))
  {
    MonthKeyable(recs, y, m);
    var row := Index(EmptyRow(yearText, monthText, DaysInMonth(y, m)), recs, RecordKey, SomeCell);
    forall d | 1 <= d <= DaysInMonth(y, m)
      ensures FullDate(Date(y, m, d)) in row && row[FullDate(Date(y, m, d))] == CellOn(recs, DayNumber(Date(y, m, d)))
    {
      GridKeyIsFullDate(yearText, monthText, y, m, d);
      LastKeyedIsLastOn(recs, DayNumber(Date(y, m, d)));
    }
  }

  /** The user columns the grid selects. */
  datatype UserCard = UserCard(
    id: string, first_name: string, last_name: string, name: string, email: string, avatar: Option<string>)

  function CardOf(u: User): (c: UserCard)
    ensures c.id == u.id && c.first_name == u.first_name && c.last_name == u.last_name
    ensures c.name == u.name && c.email == u.email && c.avatar == u.avatar
  {
    UserCard(u.id, u.first_name, u.last_name, u.name, u.email, u.avatar)
  }

  datatype GridLine = GridLine(user: UserCard, days: map<string, Option<Cell>>)

  datatype Grid = Grid(meta: Meta, lines: seq<GridLine>)

  /** The `userWhere` of `findGrid` and `findAll`: live employees, and with a truthy
      `search`, those whose first name, last name, name or email contains it. */
  predicate UserMatches(u: User, search: Option<string>, matchText: (string, string) -> bool) {
    && LiveEmployee(u)
    && (Given(search) ==>
          || matchText(u.first_name, search.value) || matchText(u.last_name, search.value)
          || matchText(u.name, search.value) || matchText(u.email, search.value))
  }

  /** The attendance `findGrid` fetches for one user of the page: live rows of that user
      inside the month, in fetch order. */
  function MonthRecords(rows: seq<Attendance>, user: string, y: int, m: int): (r: seq<Attendance>)
    requires ValidYearMonth(y, m)
    ensures forall i :: 0 <= i < |r| ==> InMonth(r[i], y, m) && r[i].user_id == user && !r[i].deleted
    ensures forall a :: a in rows && !a.deleted && a.user_id == user && InMonth(a, y, m) ==> a in r
  {
    var r := Filter(rows, (a: Attendance) => !a.deleted && a.user_id == user && InMonth(a, y, m));
    assert forall i :: 0 <= i < |r| ==> r[i] in r;
    r
  }

  function Matcher(search: Option<string>, matchText: (string, string) -> bool): User -> bool {
    u => UserMatches(u, search, matchText)
  }

  /** The grid line of one user of the page. */
  function LineFor(rows: seq<Attendance>, yearText: string, monthText: string, y: int, m: int, u: User): GridLine
    requires ValidYearMonth(y, m)
  {
    GridLine(CardOf(u), GridRow(yearText, monthText, y, m, MonthRecords(rows, u.id, y, m)))
  }

  /** `AttendanceService.findGrid`: the month's grid of one page of the matching
      employees, in page order, and the count of all of them. */
  function FindGrid(users: seq<User>, rows: seq<Attendance>, monthText: string, yearText: string,
                    search: Option<string>, page: Option<string>, limit: Option<string>,
                    matchText: (string, string) -> bool): (r: Response<Grid>)
    requires InDomain(monthText, yearText)
    ensures r.Fail? <==> NumberValue(monthText).None? || NumberValue(yearText).None?
    ensures r.Fail? ==> r.message == InvalidMonthYear
    ensures r.Ok? <==>
      && NumberValue(monthText).Some? && NumberValue(yearText).Some?
      && PagingOf(page, limit).page >= 1 && PagingOf(page, limit).size >= 1
    ensures r.Ok? ==>
      var y, m := NumberValue(yearText).value, NumberValue(monthText).value;
      var p := PagingOf(page, limit);
      var w := Window(Filter(users, Matcher(search, matchText)), p.skip, p.size);
      && ValidYearMonth(y, m)
      && r.data.meta == MetaOf(CountWhere(users, Matcher(search, matchText)), p)
      && |r.data.lines| <= p.size
      && w.Some? && |r.data.lines| == |w.value|
      && forall i :: 0 <= i < |r.data.lines| ==>
           && w.value[i] in users && UserMatches(w.value[i], search, matchText)
           && r.data.lines[i] == LineFor(rows, yearText, monthText, y, m, w.value[i])
  {
    if NumberValue(monthText).None? || NumberValue(yearText).None? then Fail(InvalidMonthYear)
    else
      var y, m := NumberValue(yearText).value, NumberValue(monthText).value;
      var listed := List(users, Matcher(search, matchText), page, limit);
      if listed.Caught? then Caught(listed.origin)
      else
        Ok(Grid(listed.data.meta, LinesFor(rows, yearText, monthText, y, m, listed.data.data)))
  }

  /** The grid lines of the users of a page, in page order. */
  function LinesFor(rows: seq<Attendance>, yearText: string, monthText: string, y: int, m: int, found: seq<User>)
    : (r: seq<GridLine>)
    requires ValidYearMonth(y, m)
    ensures |r| == |found|
    ensures forall i :: 0 <= i < |r| ==> r[i] == LineFor(rows, yearText, monthText, y, m, found[i])
  {
    seq(|found|, i requires 0 <= i < |found| => LineFor(rows, yearText, monthText, y, m, found[i]))
  }

  // ---------------------------------------------------- getEmployeeAttendance

  datatype Total = HoursTotal(hours: real) | NoRecord

  datatype DayLine = DayLine(id: Option<string>, date: int, start_time: string, lunch: string, end_time: string, total: Total)

  /** The line of one day, from the day's record if there is one. A day without a record
      shows no id, dashes and "No Record"; with one, each time shows exactly when it is
      known, and the lunch span only when both of its bounds are. */
  function LineOf(n: int, rec: Option<Attendance>): (r: DayLine)
    ensures r.date == n
    ensures rec.None? ==> r == DayLine(None, n, "----", "----", "----", NoRecord)
    ensures r.id.Some? <==> rec.Some? && rec.value.id != ""
    ensures r.id.Some? ==> r.id.value == rec.value.id
    ensures r.start_time != "----" <==> rec.Some? && rec.value.start_time.Some?
    ensures r.lunch != "----" <==> rec.Some? && rec.value.lunch_start.Some? && rec.value.lunch_end.Some?
    ensures r.end_time != "----" <==> rec.Some? && rec.value.end_time.Some?
    ensures rec.Some? && rec.value.start_time.Some? ==> r.start_time == ClockText(rec.value.start_time.value)
    ensures rec.Some? && rec.value.end_time.Some? ==> r.end_time == ClockText(rec.value.end_time.value)
    ensures rec.Some? && rec.value.lunch_start.Some? && rec.value.lunch_end.Some? ==>
      r.lunch == HourText(rec.value.lunch_start.value) + "-" + HourText(rec.value.lunch_end.value)
    ensures r.total.HoursTotal? <==> rec.Some? && rec.value.hours.Some?
    ensures r.total.HoursTotal? ==> r.total.hours == rec.value.hours.value
  {
    if rec.None? then DayLine(None, n, Dashes, Dashes, Dashes, NoRecord)
    else
      var a := rec.value;
      var lunch :=
        if a.lunch_start.Some? && a.lunch_end.Some?
        then HourText(a.lunch_start.value) + "-" + HourText(a.lunch_end.value) else Dashes;
      assert a.lunch_start.Some? && a.lunch_end.Some? ==> |lunch| == 5;
      DayLine(
        if a.id != "" then Some(a.id) else None,
        n,
        if a.start_time.Some? then ClockText(a.start_time.value) else Dashes,
        lunch,
        if a.end_time.Some? then ClockText(a.end_time.value) else Dashes,
        if a.hours.Some? then HoursTotal(a.hours.value) else NoRecord)
  }

  function Itself(a: Attendance): Attendance {
    a
  }

  /** `index[key] || null` over the key-to-record index: the day's last record. */
  function Lookup(index: map<string, Attendance>, n: int): Option<Attendance>
    requires 0 <= n < DayLimit
  {
    if DayKey(n) in index then Some(index[DayKey(n)]) else None
  }

  /** Looking a day up in the record index finds the day's last record. */
  lemma LookupIsLastOn(recs: seq<Attendance>, n: int)
    requires KeyableDates(recs) && 0 <= n < DayLimit
    ensures Lookup(Index(map[], recs, RecordKey, Itself), n) == LastOn(recs, n)
  {
    LastKeyedIsLastOn(recs, n);
  }

  /** The line of day `d` of the month, read from the record index. */
  function IndexedLine(index: map<string, Attendance>, y: int, m: int, d: int): DayLine
    requires ValidYearMonth(y, m) && 1 <= d <= DaysInMonth(y, m)
  {
    LineOf(DayNumber(Date(y, m, d)), Lookup(index, DayNumber(Date(y, m, d))))
  }

  /** The lines of days `1 .. DaysInMonth(y, m)`, each from the day's last record. */
  function DayLines(recs: seq<Attendance>, y: int, m: int): (r: seq<DayLine>)
    requires ValidYearMonth(y, m) && KeyableDates(recs)
    ensures |r| == DaysInMonth(y, m)
    ensures forall i :: 0 <= i < |r| ==>
      r[i].date == DayNumber(Date(y, m, i + 1)) && r[i] == LineOf(r[i].date, LastOn(recs, r[i].date))
  {
    var lines := LinesOf(Index(map[], recs, RecordKey, Itself), y, m, DaysInMonth(y, m));
    IndexedLinesAreLast(recs, y, m, lines);
    lines
  }

  /** The lines of days `1 .. count` read from a record index. */
  function LinesOf(index: map<string, Attendance>, y: int, m: int, count: nat): (r: seq<DayLine>)
    requires ValidYearMonth(y, m) && count <= DaysInMonth(y, m)
    ensures |r| == count
    ensures forall i :: 0 <= i < count ==> r[i] == IndexedLine(index, y, m, i + 1)
  {
    if count == 0 then [] else LinesOf(index, y, m, count - 1) + [IndexedLine(index, y, m, count)]
  }

  lemma IndexedLinesAreLast(recs: seq<Attendance>, y: int, m: int, lines: seq<DayLine>)
    requires ValidYearMonth(y, m) && KeyableDates(recs)
    requires |lines| == DaysInMonth(y, m)
    requires forall i :: 0 <= i < |lines| ==> lines[i] == IndexedLine(Index(map[], recs, RecordKey, Itself), y, m, i + 1)
    ensures forall i :: 0 <= i < |lines| ==>
      lines[i].date == DayNumber(Date(y, m, i + 1)) && lines[i] == LineOf(lines[i].date, LastOn(recs, lines[i].date))
  {
    forall i | 0 <= i < |lines|
      ensures lines[i].date == DayNumber(Date(y, m, i + 1))
      ensures lines[i] == LineOf(lines[i].date, LastOn(recs, lines[i].date))
    {
      IndexedLineIsLast(recs, y, m, i + 1, lines[i]);
    }
  }

  lemma IndexedLineIsLast(recs: seq<Attendance>, y: int, m: int, d: int, line: DayLine)
    requires ValidYearMonth(y, m) && 1 <= d <= DaysInMonth(y, m) && KeyableDates(recs)
    requires line == IndexedLine(Index(map[], recs, RecordKey, Itself), y, m, d)
    ensures line.date == DayNumber(Date(y, m, d))
    ensures line == LineOf(line.date, LastOn(recs, line.date))
  {
    LookupIsLastOn(recs, DayNumber(Date(y, m, d)));
  }

  /** `AttendanceService.getEmployeeAttendance`: one line per day of the month, in day order. */
  function EmployeeMonth(rows: seq<Attendance>, userId: string, monthText: string, yearText: string)
    : (r: Response<seq<DayLine>>)
    requires InDomain(monthText, yearText)
    ensures r.Fail? <==> userId == "" || NumberValue(monthText).None? || NumberValue(yearText).None?
    ensures r.Fail? ==> r.message == InvalidUserMonthYear
    ensures r.Ok? ==>
      var y, m := NumberValue(yearText).value, NumberValue(monthText).value;
      && ValidYearMonth(y, m)
      && |r.data| == DaysInMonth(y, m)
      && forall i :: 0 <= i < |r.data| ==>
           && r.data[i].date == DayNumber(Date(y, m, i + 1))
           && r.data[i] == LineOf(r.data[i].date, LastOn(MonthRecords(rows, userId, y, m), r.data[i].date))
  {
    if userId == "" || NumberValue(monthText).None? || NumberValue(yearText).None? then
      Fail(InvalidUserMonthYear)
    else
      var y, m := NumberValue(yearText).value, NumberValue(monthText).value;
      var recs := MonthRecords(rows, userId, y, m);
      MonthKeyable(recs, y, m);
      Ok(DayLines(recs, y, m))
  }
}

=== FILE: calendar.dfy ===
/** Proleptic Gregorian calendar over day numbers.

    A date is stored as an integer day number: day 0 is 0000-01-01, and the
    domain stops before 10000-01-01 so that every year fits the four-digit
    `date-fullyear` of RFC 3339 section 5.6. Month lengths and the leap-year rule
    follow RFC 3339 section 5.7 (and its Appendix C). */
module Calendar {

  const MaxYear := 9999

  /** Number of days in years 0 .. 9999, i.e. the first day number past the domain. */
  const DayLimit := 3652425

  datatype Date = Date(year: int, month: int, day: int)

  predicate IsLeapYear(y: int) {
    y % 4 == 0 && (y % 100 != 0 || y % 400 == 0)
  }

  function DaysInYear(y: int): int {
    if IsLeapYear(y) then 366 else 365
  }

  /** Length of month `m` of year `y`: the table of RFC 3339 section 5.7. */
  function DaysInMonth(y: int, m: int): (n: int)
    requires 1 <= m <= 12
    ensures 28 <= n <= 31
    ensures n == 29 <==> m == 2 && IsLeapYear(y)
    ensures n == 28 <==> m == 2 && !IsLeapYear(y)
  {
    if m == 2 then (if IsLeapYear(y) then 29 else 28)
    else if m == 4 || m == 6 || m == 9 || m == 11 then 30
    else 31
  }

  predicate ValidYearMonth(y: int, m: int) {
    0 <= y <= MaxYear && 1 <= m <= 12
  }

  predicate Valid(d: Date) {
    ValidYearMonth(d.year, d.month) && 1 <= d.day <= DaysInMonth(d.year, d.month)
  }

  /** Days of years 0 .. y-1. */
  function DaysBeforeYear(y: nat): nat {
    if y == 0 then 0 else DaysBeforeYear(y - 1) + DaysInYear(y - 1)
  }

  /** Days of months 1 .. m-1 of year `y`; `m == 13` gives the whole year. */
  function DaysBeforeMonth(y: int, m: int): nat
    requires 1 <= m <= 13
  {
    var common :=
      match m
      case 1 => 0    case 2 => 31   case 3 => 59   case 4 => 90
      case 5 => 120  case 6 => 151  case 7 => 181  case 8 => 212
      case 9 => 243  case 10 => 273 case 11 => 304 case 12 => 334
      case _ => 365;
    if m > 2 && IsLeapYear(y) then common + 1 else common
  }

  /** The year table and the year length agree: the months of a year add up to the year. */
  lemma {:induction false} MonthStep(y: int, m: int)
    requires 1 <= m <= 12
    ensures DaysBeforeMonth(y, m) + DaysInMonth(y, m) == DaysBeforeMonth(y, m + 1)
    ensures DaysBeforeMonth(y, 13) == DaysInYear(y)
  {
  }

  /** The count in closed form: 365 days per year plus one per leap year, the leap years
      before `y` being the multiples of 4, minus those of 100, plus those of 400. */
  lemma {:induction false} DaysBeforeYearClosed(y: nat)
    ensures DaysBeforeYear(y) == 365 * y + (y + 3) / 4 - (y + 99) / 100 + (y + 399) / 400
  {
    if y > 0 {
      DaysBeforeYearClosed(y - 1);
      StepPast4(y - 1);
      StepPast100(y - 1);
      StepPast400(y - 1);
      DivisorChain(y - 1);
    }
  }

  /** Multiples of 400 are multiples of 100, which are multiples of 4. */
  lemma DivisorChain(y: nat)
    ensures y % 100 == 0 ==> y % 4 == 0
    ensures y % 400 == 0 ==> y % 100 == 0
  {
    if y % 100 == 0 {
      assert y == 4 * (25 * (y / 100));
    }
    if y % 400 == 0 {
      assert y == 100 * (4 * (y / 400));
    }
  }

  /** Counting multiples of 4, 100 and 400: stepping past `y` adds one exactly when it is one. */
  lemma StepPast4(y: nat)
    ensures (y + 4) / 4 == (y + 3) / 4 + (if y % 4 == 0 then 1 else 0)
  {
    var q, r := y / 4, y % 4;
    assert y == 4 * q + r;
    assert (y + 4) / 4 == q + 1;
    assert (y + 3) / 4 == if r == 0 then q else q + 1;
  }

  lemma StepPast100(y: nat)
    ensures (y + 100) / 100 == (y + 99) / 100 + (if y % 100 == 0 then 1 else 0)
  {
    var q, r := y / 100, y % 100;
    assert y == 100 * q + r;
    assert (y + 100) / 100 == q + 1;
    assert (y + 99) / 100 == if r == 0 then q else q + 1;
  }

  lemma StepPast400(y: nat)
    ensures (y + 400) / 400 == (y + 399) / 400 + (if y % 400 == 0 then 1 else 0)
  {
    var q, r := y / 400, y % 400;
    assert y == 400 * q + r;
    assert (y + 400) / 400 == q + 1;
    assert (y + 399) / 400 == if r == 0 then q else q + 1;
  }

  lemma {:induction false} YearsMonotone(a: nat, b: nat)
    requires a <= b
    ensures DaysBeforeYear(a) + 365 * (b - a) <= DaysBeforeYear(b)
    decreases b - a
  {
    if a < b {
      YearsMonotone(a + 1, b);
    }
  }

  lemma DayLimitIsEndOfYear9999()
    ensures DaysBeforeYear(MaxYear + 1) == DayLimit
  {
    DaysBeforeYearClosed(MaxYear + 1);
  }

  /** Day number of a valid date. */
  function DayNumber(d: Date): (n: int)
    requires Valid(d)
    ensures 0 <= n < DayLimit
  {
    DayOfYearBound(d);
    LastYearBound(d.year);
    DaysBeforeYear(d.year) + DaysBeforeMonth(d.year, d.month) + d.day - 1
  }

  /** The days before a date within its year number fewer than the year's days. */
  lemma DayOfYearBound(d: Date)
    requires Valid(d)
    ensures DaysBeforeMonth(d.year, d.month) + d.day - 1 < DaysInYear(d.year)
  {
    MonthStep(d.year, d.month);
    MonthsMonotone(d.year, d.month + 1, 13);
    MonthStep(d.year, 12);
  }

  /** Every year of the domain ends by `DayLimit`. */
  lemma LastYearBound(y: int)
    requires 0 <= y <= MaxYear
    ensures DaysBeforeYear(y) + DaysInYear(y) <= DayLimit
  {
    DayLimitIsEndOfYear9999();
    assert DaysBeforeYear(y + 1) == DaysBeforeYear(y) + DaysInYear(y);
    YearsMonotone(y + 1, MaxYear + 1);
  }

  lemma {:induction false} MonthsMonotone(y: int, a: int, b: int)
    requires 1 <= a <= b <= 13
    ensures DaysBeforeMonth(y, a) + 28 * (b - a) <= DaysBeforeMonth(y, b)
    decreases b - a
  {
    if a < b {
      MonthStep(y, a);
      MonthsMonotone(y, a + 1, b);
    }
  }

  /** The year holding day `n`, searching upwards from year `y`. */
  function FindYear(n: int, y: nat): (r: nat)
    requires y <= MaxYear && DaysBeforeYear(y) <= n < DayLimit
    ensures y <= r <= MaxYear
    ensures DaysBeforeYear(r) <= n < DaysBeforeYear(r) + DaysInYear(r)
    decreases MaxYear - y
  {
    if n < DaysBeforeYear(y) + DaysInYear(y) then y
    else
      assert y < MaxYear by {
        if y == MaxYear { DayLimitIsEndOfYear9999(); }
      }
      FindYear(n, y + 1)
  }

  /** The month of year `y` holding the `r`-th day of that year, searching upwards from `m`. */
  function FindMonth(y: int, r: int, m: int): (k: int)
    requires 1 <= m <= 12 && DaysBeforeMonth(y, m) <= r < DaysInYear(y)
    ensures m <= k <= 12
    ensures DaysBeforeMonth(y, k) <= r < DaysBeforeMonth(y, k) + DaysInMonth(y, k)
    decreases 12 - m
  {
    MonthStep(y, m);
    if r < DaysBeforeMonth(y, m) + DaysInMonth(y, m) then m
    else
      assert m < 12 by { MonthStep(y, 12); }
      FindMonth(y, r, m + 1)
  }

  /** The calendar date of day `n`: the inverse of `DayNumber`. */
  function CivilFromDay(n: int): (d: Date)
    requires 0 <= n < DayLimit
    ensures Valid(d) && DayNumber(d) == n
  {
    var y := FindYear(n, 0);
    var m := FindMonth(y, n - DaysBeforeYear(y), 1);
    Date(y, m, n - DaysBeforeYear(y) - DaysBeforeMonth(y, m) + 1)
  }

  /** A later year means a later day number. */
  lemma YearOrder(a: Date, b: Date)
    requires Valid(a) && Valid(b)
    ensures a.year < b.year ==> DayNumber(a) < DayNumber(b)
  {
    if a.year < b.year {
      YearsMonotone(a.year + 1, b.year);
    }
  }

  /** Within a year, a later month means a later day number. */
  lemma MonthOrder(a: Date, b: Date)
    requires Valid(a) && Valid(b)
    ensures a.year == b.year && a.month < b.month ==> DayNumber(a) < DayNumber(b)
  {
    if a.year == b.year && a.month < b.month {
      MonthStep(a.year, a.month);
      MonthsMonotone(a.year, a.month + 1, b.month);
    }
  }

  /** Distinct valid dates have distinct day numbers. */
  lemma DayNumberInjective(a: Date, b: Date)
    requires Valid(a) && Valid(b) && DayNumber(a) == DayNumber(b)
    ensures a == b
  {
    YearOrder(a, b);
    YearOrder(b, a);
    MonthOrder(a, b);
    MonthOrder(b, a);
  }

  /** Both directions of the date/day-number correspondence. */
  lemma CivilRoundTrip(d: Date)
    requires Valid(d)
    ensures CivilFromDay(DayNumber(d)) == d
  {
    DayNumberInjective(CivilFromDay(DayNumber(d)), d);
  }

  /** Days of one month are consecutive day numbers. */
  lemma MonthDaysConsecutive(y: int, m: int, d: int)
    requires ValidYearMonth(y, m) && 1 <= d <= DaysInMonth(y, m)
    ensures DayNumber(Date(y, m, d)) == DayNumber(Date(y, m, 1)) + d - 1
  {
  }

  /** A day number lies in month `m` of year `y` exactly when it is the number of one
      of that month's days. */
  lemma {:induction false} InMonthIff(y: int, m: int, n: int)
    requires ValidYearMonth(y, m)
    ensures (DayNumber(Date(y, m, 1)) <= n <= DayNumber(Date(y, m, DaysInMonth(y, m))))
        <==> (0 <= n < DayLimit && CivilFromDay(n).year == y && CivilFromDay(n).month == m)
  {
    if DayNumber(Date(y, m, 1)) <= n <= DayNumber(Date(y, m, DaysInMonth(y, m))) {
      var d := Date(y, m, n - DayNumber(Date(y, m, 1)) + 1);
      assert Valid(d) && DayNumber(d) == n;
      CivilRoundTrip(d);
    }
    if 0 <= n < DayLimit && CivilFromDay(n).year == y && CivilFromDay(n).month == m {
      var c := CivilFromDay(n);
      assert DayNumber(c) == DayNumber(Date(y, m, 1)) + c.day - 1;
    }
  }

  /** `new Date(y, m, 0)` — day zero of the following month — is the last day of month
      `m`: the day after `Date(y, m, DaysInMonth(y, m))` is the first of the next month. */
  lemma LastDayPrecedesNextMonth(y: int, m: int)
    requires ValidYearMonth(y, m) && (y < MaxYear || m < 12)
    ensures var next := if m == 12 then Date(y + 1, 1, 1) else Date(y, m + 1, 1);
      Valid(next) && DayNumber(Date(y, m, DaysInMonth(y, m))) + 1 == DayNumber(next)
  {
    MonthStep(y, m);
    if m == 12 {
    }
  }
}

=== FILE: common.dfy ===
/** Shared vocabulary of the services: optional values, the response envelope,
    JavaScript truthiness of optional text, and substring search. */
module Common {

  datatype Option<T> = None | Some(value: T) {
    function GetOr(default: T): T {
      if Some? then value else default
    }
  }

  /** The `{ success, data | message }` envelope every service returns.
      `Fail` is an explicit `success: false` with a fixed message; `Caught` is the
      `catch (error)` branch, whose message comes from code outside the model
      (the ORM, a hash library, the mailer); `origin` names that code. */
  datatype Response<T> = Ok(data: T) | Fail(message: string) | Caught(origin: string)

  /** A store transition: the response returned and the store left behind. */
  datatype Step<T, S> = Step(response: Response<T>, store: S)

  /** JavaScript truthiness of an optional string: absent and empty are both false. */
  predicate Given(s: Option<string>) {
    s.Some? && s.value != ""
  }

  /** `text.includes(pattern)`: case-sensitive substring test. */
  predicate Includes(text: string, pattern: string) {
    exists i :: 0 <= i <= |text| - |pattern| && IsPrefix(pattern, text[i..])
  }

  predicate IsPrefix(p: string, s: string) {
    |p| <= |s| && s[..|p|] == p
  }

  /** Number of elements of `s` satisfying `p`. */
  function CountWhere<T>(s: seq<T>, p: T -> bool): (n: nat)
    ensures n <= |s|
  {
    if s == [] then 0 else CountWhere(s[..|s| - 1], p) + (if p(s[|s| - 1]) then 1 else 0)
  }

  /** `s.filter(p)`. */
  function Filter<T>(s: seq<T>, p: T -> bool): (r: seq<T>)
    ensures |r| <= |s|
    ensures forall x :: x in r ==> x in s && p(x)
    ensures forall x :: x in s && p(x) ==> x in r
  {
    if s == [] then []
    else Filter(s[..|s| - 1], p) + (if p(s[|s| - 1]) then [s[|s| - 1]] else [])
  }

  lemma {:induction false} FilterCount<T>(s: seq<T>, p: T -> bool)
    ensures |Filter(s, p)| == CountWhere(s, p)
  {
    if s != [] {
      FilterCount(s[..|s| - 1], p);
    }
  }

  /** Filtering distributes over concatenation: kept elements stay in their original order. */
  lemma {:induction false} FilterConcat<T>(a: seq<T>, b: seq<T>, p: T -> bool)
    ensures Filter(a + b, p) == Filter(a, p) + Filter(b, p)
    decreases |b|
  {
    if b == [] {
      assert a + b == a;
    } else {
      var b0, x := b[..|b| - 1], b[|b| - 1];
      assert (a + b)[..|a + b| - 1] == a + b0;
      assert (a + b)[|a + b| - 1] == x;
      FilterConcat(a, b0, p);
      var tail := if p(x) then [x] else [];
      assert Filter(a + b, p) == Filter(a + b0, p) + tail;
      assert Filter(b, p) == Filter(b0, p) + tail;
    }
  }

  /** A sequence whose elements all pass is kept whole. */
  lemma {:induction false} FilterAll<T>(s: seq<T>, p: T -> bool)
    requires forall i :: 0 <= i < |s| ==> p(s[i])
    ensures Filter(s, p) == s
  {
    if s != [] {
      FilterAll(s[..|s| - 1], p);
    }
  }

  /** Filtering twice is filtering once by both conditions. */
  lemma {:induction false} FilterTwice<T>(s: seq<T>, p: T -> bool, q: T -> bool, both: T -> bool)
    requires forall x :: both(x) == (p(x) && q(x))
    ensures Filter(Filter(s, p), q) == Filter(s, both)
  {
    if s != [] {
      var init, x := s[..|s| - 1], s[|s| - 1];
      FilterTwice(init, p, q, both);
      if p(x) {
        assert Filter(s, p) == Filter(init, p) + [x];
        FilterConcat(Filter(init, p), [x], q);
        assert [x][..0] == [];
        assert Filter([x], q) == (if q(x) then [x] else []);
      } else {
        assert Filter(s, p) == Filter(init, p) + [];
        assert Filter(init, p) + [] == Filter(init, p);
        assert Filter(s, both) == Filter(init, both) + [];
      }
    }
  }

  /** A sequence none of whose elements pass is dropped whole. */
  lemma {:induction false} FilterNone<T>(s: seq<T>, p: T -> bool)
    requires forall i :: 0 <= i < |s| ==> !p(s[i])
    ensures Filter(s, p) == []
  {
    if s != [] {
      FilterNone(s[..|s| - 1], p);
    }
  }

  /** The first element `p` accepts: the row a `findFirst`, or a `findUnique` on a
      unique column, returns. */
  function First<T>(s: seq<T>, p: T -> bool): (r: Option<T>)
    ensures r.Some? ==> r.value in s && p(r.value)
    ensures r.None? <==> forall i :: 0 <= i < |s| ==> !p(s[i])
  {
    if s == [] then None
    else if p(s[0]) then Some(s[0])
    else First(s[1..], p)
  }

  /** When exactly one element passes, the lookup returns that one. */
  lemma {:induction false} FirstUnique<T>(s: seq<T>, p: T -> bool, k: int)
    requires 0 <= k < |s| && p(s[k])
    requires forall i :: 0 <= i < |s| && i != k ==> !p(s[i])
    ensures First(s, p) == Some(s[k])
  {
    if k > 0 {
      FirstUnique(s[1..], p, k - 1);
    }
  }
}

=== FILE: dashboard.dfy ===
/** The admin dashboard's two reports: the daily PRESENT/ABSENT chart over a date range,
    and the distribution of live employees over their roles. */
module Dashboard {
  import opened Common
  import opened Calendar
  import opened IsoDate
  import opened Entities
  import opened AttendanceGrid

  const InvalidRange := "Invalid or missing start/end date."

  // ------------------------------------------------------------ attendance report

  /** The counts of one day's records by status: `report[dateStr]`. */
  datatype Tally = Tally(present: nat, absent: nat)

  /** `report[dateStr][status] = (report[dateStr][status] || 0) + 1`. */
  function Bump(t: Tally, s: AttendanceStatus): Tally {
    if s == Present then t.(present := t.present + 1) else t.(absent := t.absent + 1)
  }

  /** `report[dateStr]?.PRESENT || 0` and `report[dateStr]?.ABSENT || 0` in one value. */
  function TallyAt<K>(report: map<K, Tally>, k: K): Tally {
    if k in report then report[k] else Tally(0, 0)
  }

  /** The grouping loop: each record bumps the tally filed under its key. */
  function TallyBy<K(==)>(recs: seq<Attendance>, key: Attendance -> K): map<K, Tally> {
    if recs == [] then map[]
    else
      var prev := TallyBy(recs[..|recs| - 1], key);
      var last := recs[|recs| - 1];
      prev[key(last) := Bump(TallyAt(prev, key(last)), last.status)]
  }

  /** Number of records filed under key `k` with status `s`. */
  function KeyCount<K(==)>(recs: seq<Attendance>, key: Attendance -> K, k: K, s: AttendanceStatus): nat {
    if recs == [] then 0
    else
      var last := recs[|recs| - 1];
      KeyCount(recs[..|recs| - 1], key, k, s) + (if key(last) == k && last.status == s then 1 else 0)
  }

  /** The grouping loop counts: the tally under a key holds the number of records of each
      status filed under it, and zero for a key no record has. */
  lemma {:induction false} TallyCounts<K>(recs: seq<Attendance>, key: Attendance -> K, k: K)
    ensures TallyAt(TallyBy(recs, key), k) == Tally(KeyCount(recs, key, k, Present), KeyCount(recs, key, k, Absent))
  {
    if recs != [] {
      TallyCounts(recs[..|recs| - 1], key, k);
    }
  }

  /** Live rows dated `n` with status `s`: the count the chart promises for day `n`. */
  function DayCount(rows: seq<Attendance>, n: int, s: AttendanceStatus): nat {
    if rows == [] then 0
    else
      var last := rows[|rows| - 1];
      DayCount(rows[..|rows| - 1], n, s) + (if !last.deleted && last.date == n && last.status == s then 1 else 0)
  }

  /** Live rows dated `start .. end` with status `s`. */
  function RangeCount(rows: seq<Attendance>, start: int, end: int, s: AttendanceStatus): nat {
    if rows == [] then 0
    else
      var last := rows[|rows| - 1];
      RangeCount(rows[..|rows| - 1], start, end, s)
        + (if !last.deleted && start <= last.date <= end && last.status == s then 1 else 0)
  }

  /** The `findMany` of the report: live records dated `start .. end`, in fetch order. */
  function InRange(rows: seq<Attendance>, start: int, end: int): (r: seq<Attendance>)
    ensures forall i :: 0 <= i < |r| ==> !r[i].deleted && start <= r[i].date <= end
  {
    if rows == [] then []
    else
      var last := rows[|rows| - 1];
      InRange(rows[..|rows| - 1], start, end) + (if !last.deleted && start <= last.date <= end then [last] else [])
  }

  /** Filing the range's records under a key that singles out day `n` among the days of
      the range, the tally under that key counts exactly the live rows of day `n`. */
  lemma {:induction false} TallyOfDay<K>(rows: seq<Attendance>, start: int, end: int, key: Attendance -> K, k: K, n: int)
    requires start <= n <= end
    requires forall a: Attendance :: start <= a.date <= end ==> (key(a) == k <==> a.date == n)
    ensures TallyAt(TallyBy(InRange(rows, start, end), key), k) == Tally(DayCount(rows, n, Present), DayCount(rows, n, Absent))
  {
    TallyCounts(InRange(rows, start, end), key, k);
    RangeKeyCount(rows, start, end, key, k, n, Present);
    RangeKeyCount(rows, start, end, key, k, n, Absent);
  }

  lemma {:induction false} RangeKeyCount<K>(rows: seq<Attendance>, start: int, end: int, key: Attendance -> K, k: K, n: int, s: AttendanceStatus)
    requires start <= n <= end
    requires forall a: Attendance :: start <= a.date <= end ==> (key(a) == k <==> a.date == n)
    ensures KeyCount(InRange(rows, start, end), key, k, s) == DayCount(rows, n, s)
  {
    if rows != [] {
      var init, last := rows[..|rows| - 1], rows[|rows| - 1];
      RangeKeyCount(init, start, end, key, k, n, s);
      var before := InRange(init, start, end);
      if !last.deleted && start <= last.date <= end {
        assert InRange(rows, start, end) == before + [last];
        assert (before + [last])[..|before|] == before;
        assert key(last) == k <==> last.date == n;
        assert KeyCount(before + [last], key, k, s) == KeyCount(before, key, k, s) + (if key(last) == k && last.status == s then 1 else 0);
        assert DayCount(rows, n, s) == DayCount(init, n, s) + (if last.date == n && last.status == s then 1 else 0);
      } else {
        assert InRange(rows, start, end) == before;
        assert DayCount(rows, n, s) == DayCount(init, n, s);
      }
    }
  }

  /** Extending the range by one day adds that day's rows. */
  lemma {:induction false} RangeStep(rows: seq<Attendance>, start: int, end: int, s: AttendanceStatus)
    requires start <= end + 1
    ensures RangeCount(rows, start, end + 1, s) == RangeCount(rows, start, end, s) + DayCount(rows, end + 1, s)
  {
    if rows != [] {
      RangeStep(rows[..|rows| - 1], start, end, s);
    }
  }

  /** An empty range holds no rows. */
  lemma {:induction false} RangeEmpty(rows: seq<Attendance>, start: int, end: int, s: AttendanceStatus)
    requires end < start
    ensures RangeCount(rows, start, end, s) == 0
  {
    if rows != [] {
      RangeEmpty(rows[..|rows| - 1], start, end, s);
    }
  }

  /** The chart: one key and two counts per day. */
  datatype Chart = Chart(dates: seq<string>, present: seq<nat>, absent: seq<nat>)

  /** The `toISOString().slice(0, 10)` key of day `n`: its full-date text within the
      domain of dates, and empty outside it. */
  function DateKey(n: int): string {
    if 0 <= n < DayLimit then DayKey(n) else ""
  }

  /** The formatting loop: walks the days `start .. end`, naming each by `key` and reading
      its tally from the report. */
  method Series<K>(report: map<K, Tally>, key: int -> K, start: int, end: int)
    returns (dates: seq<K>, present: seq<nat>, absent: seq<nat>)
    ensures |dates| == |present| == |absent| == (if end < start then 0 else end - start + 1)
    ensures forall i :: 0 <= i < |dates| ==>
      && start + i <= end
      && dates[i] == key(start + i)
      && present[i] == TallyAt(report, key(start + i)).present
      && absent[i] == TallyAt(report, key(start + i)).absent
  {
    dates, present, absent := [], [], [];
    var d := start;
    while d <= end
      invariant start <= d <= (if end < start then start else end + 1)
      invariant |dates| == |present| == |absent| == d - start
      invariant forall i :: 0 <= i < |dates| ==>
        && start + i < d
        && dates[i] == key(start + i)
        && present[i] == TallyAt(report, key(start + i)).present
        && absent[i] == TallyAt(report, key(start + i)).absent
    {
      var t := TallyAt(report, key(d));
      dates, present, absent := dates + [key(d)], present + [t.present], absent + [t.absent];
      d := d + 1;
    }
  }

  function Sum(s: seq<nat>): nat {
    if s == [] then 0 else Sum(s[..|s| - 1]) + s[|s| - 1]
  }

  /** A series holding each day's count sums to the count over the whole range. */
  lemma {:induction false} SeriesSum(rows: seq<Attendance>, start: int, counts: seq<nat>, s: AttendanceStatus)
    requires forall i :: 0 <= i < |counts| ==> counts[i] == DayCount(rows, start + i, s)
    ensures Sum(counts) == RangeCount(rows, start, start + |counts| - 1, s)
    decreases |counts|
  {
    if counts == [] {
      RangeEmpty(rows, start, start - 1, s);
    } else {
      var k := |counts| - 1;
      SeriesSum(rows, start, counts[..k], s);
      RangeStep(rows, start, start + k - 1, s);
    }
  }

  /** `DashboardService.getAttendanceReport`. `start` and `end` are the days the query
      names; `None` stands for a missing parameter or one `Date` cannot read. */
  method AttendanceReport(rows: seq<Attendance>, start: Option<int>, end: Option<int>) returns (r: Response<Chart>)
    requires start.Some? ==> 0 <= start.value < DayLimit
    requires end.Some? ==> 0 <= end.value < DayLimit
    ensures r.Ok? || r.Fail?
    ensures r.Fail? <==> start.None? || end.None?
    ensures r.Fail? ==> r.message == InvalidRange
    ensures r.Ok? ==> ChartOf(rows, start.value, end.value, r.data)
  {
    if start.None? || end.None? {
      return Fail(InvalidRange);
    }
    var c := Report(rows, start.value, end.value);
    r := Ok(c);
  }

  /** What the chart for `start .. end` holds: one entry per day, in order, each the day's
      key and its counts of live PRESENT and ABSENT rows; so the series sum to the counts
      over the whole range. */
  ghost predicate ChartOf(rows: seq<Attendance>, s: int, e: int, c: Chart)
    requires 0 <= s && e < DayLimit
  {
    && |c.dates| == |c.present| == |c.absent| == (if e < s then 0 else e - s + 1)
    && (forall i :: 0 <= i < |c.dates| ==>
          && s + i <= e
          && c.dates[i] == DateKey(s + i)
          && c.present[i] == DayCount(rows, s + i, Present)
          && c.absent[i] == DayCount(rows, s + i, Absent))
    && Sum(c.present) == RangeCount(rows, s, e, Present)
    && Sum(c.absent) == RangeCount(rows, s, e, Absent)
  }

  /** The report for a readable range. */
  method Report(rows: seq<Attendance>, s: int, e: int) returns (c: Chart)
    requires 0 <= s && e < DayLimit
    ensures ChartOf(rows, s, e, c)
  {
    var report := TallyBy(InRange(rows, s, e), RecordKey);
    var dates, present, absent := Series(report, DateKey, s, e);
    RecordKeysNameDays(s, e);
    CountsOfSeries(rows, s, e, RecordKey, DateKey, present, absent);
    c := Chart(dates, present, absent);
  }

  /** Within the domain of dates, the date key of a record names its day and no other. */
  lemma {:induction false} RecordKeysNameDays(start: int, end: int)
    requires 0 <= start && end < DayLimit
    ensures forall a: Attendance, n :: start <= a.date <= end && start <= n <= end ==>
      (RecordKey(a) == DateKey(n) <==> a.date == n)
  {
    forall a: Attendance, n | start <= a.date <= end && start <= n <= end
      ensures RecordKey(a) == DateKey(n) <==> a.date == n
    {
      DayKeyInjective(a.date, n);
    }
  }

  /** With record keys and day keys that agree exactly when the dates do, the series read
      from the tally hold each day's counts and sum to the counts over the range. */
  lemma {:induction false} CountsOfSeries<K>(rows: seq<Attendance>, s: int, e: int, key: Attendance -> K, dayKey: int -> K,
                                               present: seq<nat>, absent: seq<nat>)
    requires forall a: Attendance, n :: s <= a.date <= e && s <= n <= e ==> (key(a) == dayKey(n) <==> a.date == n)
    requires |present| == |absent| == (if e < s then 0 else e - s + 1)
    requires forall i :: 0 <= i < |present| ==>
      && present[i] == TallyAt(TallyBy(InRange(rows, s, e), key), dayKey(s + i)).present
      && absent[i] == TallyAt(TallyBy(InRange(rows, s, e), key), dayKey(s + i)).absent
    ensures forall i :: 0 <= i < |present| ==>
      present[i] == DayCount(rows, s + i, Present) && absent[i] == DayCount(rows, s + i, Absent)
    ensures Sum(present) == RangeCount(rows, s, e, Present)
    ensures Sum(absent) == RangeCount(rows, s, e, Absent)
  {
    forall i | 0 <= i < |present|
      ensures present[i] == DayCount(rows, s + i, Present) && absent[i] == DayCount(rows, s + i, Absent)
    {
      TallyOfDay(rows, s, e, key, dayKey(s + i), s + i);
    }
    SeriesSum(rows, s, present, Present);
    SeriesSum(rows, s, absent, Absent);
    if e < s {
      RangeEmpty(rows, s, e, Present);
      RangeEmpty(rows, s, e, Absent);
    }
  }

  // ---------------------------------------------------------- role distribution

  /** One `groupBy` row: a role and the number of live employees holding it. */
  datatype Group = Group(role: string, count: nat)

  /** Live employees, the population of both `count` and `groupBy`. */
  function LiveCount(users: seq<User>): nat {
    if users == [] then 0
    else LiveCount(users[..|users| - 1]) + (if LiveEmployee(users[|users| - 1]) then 1 else 0)
  }

  /** Live employees holding `role`: the reference count for a group. */
  function RoleCount(users: seq<User>, role: string): (n: nat)
    ensures n <= LiveCount(users)
  {
    if users == [] then 0
    else
      var u := users[|users| - 1];
      RoleCount(users[..|users| - 1], role) + (if LiveEmployee(u) && u.employee_role == role then 1 else 0)
  }

  predicate HasRole(groups: seq<Group>, role: string) {
    exists i :: 0 <= i < |groups| && groups[i].role == role
  }

  predicate DistinctRoles(groups: seq<Group>) {
    forall i, j :: 0 <= i < |groups| && 0 <= j < |groups| && i != j ==> groups[i].role != groups[j].role
  }

  /** Adds one to the group of `role`. */
  function Increment(groups: seq<Group>, role: string): (r: seq<Group>)
    ensures |r| == |groups|
    ensures forall i :: 0 <= i < |r| ==> r[i].role == groups[i].role
    ensures forall i :: 0 <= i < |r| ==> r[i].count == groups[i].count + (if groups[i].role == role then 1 else 0)
  {
    seq(|groups|, i requires 0 <= i < |groups| =>
      if groups[i].role == role then Group(role, groups[i].count + 1) else groups[i])
  }

  /** `groupBy({ by: ['employee_role'] })` over the live employees, in order of first
      appearance: one group per distinct role, counting the employees that hold it. */
  function GroupByRole(users: seq<User>): (r: seq<Group>)
    ensures |r| <= LiveCount(users)
  {
    if users == [] then []
    else
      var prev := GroupByRole(users[..|users| - 1]);
      var u := users[|users| - 1];
      if !LiveEmployee(u) then prev
      else if HasRole(prev, u.employee_role) then Increment(prev, u.employee_role)
      else prev + [Group(u.employee_role, 1)]
  }

  /** The grouping yields each role of a live employee exactly once, and each group's
      count is the number of live employees holding its role. */
  lemma {:induction false} GroupByRoleSpec(users: seq<User>)
    ensures DistinctRoles(GroupByRole(users))
    ensures forall i :: 0 <= i < |GroupByRole(users)| ==>
      GroupByRole(users)[i].count == RoleCount(users, GroupByRole(users)[i].role)
    ensures forall role :: HasRole(GroupByRole(users), role) <==> RoleCount(users, role) > 0
  {
    if users != [] {
      var init, u := users[..|users| - 1], users[|users| - 1];
      GroupByRoleSpec(init);
      var prev := GroupByRole(init);
      if LiveEmployee(u) && !HasRole(prev, u.employee_role) {
        var g := prev + [Group(u.employee_role, 1)];
        forall role ensures HasRole(g, role) <==> HasRole(prev, role) || role == u.employee_role {
          if HasRole(prev, role) {
            var i :| 0 <= i < |prev| && prev[i].role == role;
            assert g[i].role == role;
          }
          if role == u.employee_role {
            assert g[|prev|].role == role;
          }
        }
      }
    }
  }

  /** A group counts at least one and at most all live employees. */
  lemma {:induction false} GroupCountBounds(users: seq<User>, i: int)
    requires 0 <= i < |GroupByRole(users)|
    ensures 1 <= GroupByRole(users)[i].count == RoleCount(users, GroupByRole(users)[i].role) <= LiveCount(users)
  {
    GroupByRoleSpec(users);
    assert HasRole(GroupByRole(users), GroupByRole(users)[i].role);
  }

  /** Every live employee's role has a group. */
  lemma {:induction false} LiveRoleGrouped(users: seq<User>, k: int)
    requires 0 <= k < |users| && LiveEmployee(users[k])
    ensures HasRole(GroupByRole(users), users[k].employee_role)
  {
    LiveRoleCounted(users, k);
    GroupByRoleSpec(users);
  }

  function SumCounts(groups: seq<Group>): nat {
    if groups == [] then 0 else SumCounts(groups[..|groups| - 1]) + groups[|groups| - 1].count
  }

  /** Incrementing the one group of a role adds one to the total. */
  lemma {:induction false} SumIncrement(groups: seq<Group>, role: string)
    requires DistinctRoles(groups)
    ensures SumCounts(Increment(groups, role)) == SumCounts(groups) + (if HasRole(groups, role) then 1 else 0)
  {
    if groups != [] {
      var k := |groups| - 1;
      var init := groups[..k];
      assert Increment(groups, role)[..k] == Increment(init, role);
      SumIncrement(init, role);
      assert HasRole(groups, role) <==> HasRole(init, role) || groups[k].role == role by {
        if HasRole(groups, role) && groups[k].role != role {
          var i :| 0 <= i < |groups| && groups[i].role == role;
          assert init[i].role == role;
        }
        if HasRole(init, role) {
          var i :| 0 <= i < |init| && init[i].role == role;
          assert groups[i].role == role;
        }
      }
      if HasRole(init, role) {
        var i :| 0 <= i < |init| && init[i].role == role;
        assert groups[i].role == role && i != k;
      }
    }
  }

  /** The groups partition the live employees: their counts add up to the total. */
  lemma {:induction false} GroupsCoverEmployees(users: seq<User>)
    ensures SumCounts(GroupByRole(users)) == LiveCount(users)
  {
    if users != [] {
      var init, u := users[..|users| - 1], users[|users| - 1];
      GroupsCoverEmployees(init);
      var prev := GroupByRole(init);
      if LiveEmployee(u) && HasRole(prev, u.employee_role) {
        GroupByRoleSpec(init);
        SumIncrement(prev, u.employee_role);
      }
    }
  }

  /** One entry of the distribution. */
  datatype RoleShare = RoleShare(role: string, count: nat, percent: real)

  datatype Distribution = Distribution(total: nat, roles: seq<RoleShare>)

  /** `(count / total) * 100`, or 0 for an empty workforce. */
  function Percent(count: nat, total: nat): real {
    if total == 0 then 0.0 else count as real / total as real * 100.0
  }

  /** The share entries of the groups, against `total` employees. */
  function Shares(groups: seq<Group>, total: nat): (r: seq<RoleShare>)
    ensures |r| == |groups|
    ensures forall i :: 0 <= i < |r| ==> r[i] == RoleShare(groups[i].role, groups[i].count, Percent(groups[i].count, total))
  {
    if groups == [] then []
    else
      var g := groups[|groups| - 1];
      Shares(groups[..|groups| - 1], total) + [RoleShare(g.role, g.count, Percent(g.count, total))]
  }

  /** `DashboardService.getEmployeeRoleDistribution`. */
  function RoleDistribution(users: seq<User>): (r: Distribution)
    ensures r.total == LiveCount(users)
    ensures forall i, j :: 0 <= i < |r.roles| && 0 <= j < |r.roles| && i != j ==> r.roles[i].role != r.roles[j].role
    ensures forall k :: 0 <= k < |users| && LiveEmployee(users[k]) ==>
      exists i :: 0 <= i < |r.roles| && r.roles[i].role == users[k].employee_role
    ensures forall i :: 0 <= i < |r.roles| ==>
      && 1 <= r.roles[i].count == RoleCount(users, r.roles[i].role) <= r.total
      && r.roles[i].percent == Percent(r.roles[i].count, r.total)
  {
    var total := LiveCount(users);
    var roles := Shares(GroupByRole(users), total);
    SharesFacts(users, roles);
    Distribution(total, roles)
  }

  lemma {:induction false} SharesFacts(users: seq<User>, roles: seq<RoleShare>)
    requires roles == Shares(GroupByRole(users), LiveCount(users))
    ensures forall i, j :: 0 <= i < |roles| && 0 <= j < |roles| && i != j ==> roles[i].role != roles[j].role
    ensures forall k :: 0 <= k < |users| && LiveEmployee(users[k]) ==>
      exists i :: 0 <= i < |roles| && roles[i].role == users[k].employee_role
    ensures forall i :: 0 <= i < |roles| ==>
      && 1 <= roles[i].count == RoleCount(users, roles[i].role) <= LiveCount(users)
      && roles[i].percent == Percent(roles[i].count, LiveCount(users))
  {
    var groups := GroupByRole(users);
    assert DistinctRoles(groups) by {
      GroupByRoleSpec(users);
    }
    forall k | 0 <= k < |users| && LiveEmployee(users[k])
      ensures exists i :: 0 <= i < |roles| && roles[i].role == users[k].employee_role
    {
      LiveRoleGrouped(users, k);
      var i :| 0 <= i < |groups| && groups[i].role == users[k].employee_role;
      assert roles[i].role == users[k].employee_role;
    }
    forall i | 0 <= i < |roles|
      ensures 1 <= roles[i].count == RoleCount(users, roles[i].role) <= LiveCount(users)
    {
      GroupCountBounds(users, i);
    }
  }

  /** A live employee's role is counted. */
  lemma {:induction false} LiveRoleCounted(users: seq<User>, k: int)
    requires 0 <= k < |users| && LiveEmployee(users[k])
    ensures RoleCount(users, users[k].employee_role) > 0
  {
    var init := users[..|users| - 1];
    if k < |users| - 1 {
      assert init[k] == users[k];
      LiveRoleCounted(init, k);
    }
  }

  /** The share of a role holding `count` of `total` employees is the percentage
      `count * 100 / total`, between 0 (excluded) and 100. */
  lemma PercentBounds(count: nat, total: nat)
    requires 1 <= count <= total
    ensures Percent(count, total) * total as real == count as real * 100.0
    ensures 0.0 < Percent(count, total) <= 100.0
  {
    var q := count as real / total as real;
    assert q * total as real == count as real;
    assert q <= 1.0;
  }
}

=== FILE: employee.dfy ===
/** The employee service: creation (duplicate-email guard, username derivation, password
    fallback, automatic assignment to active projects), the listing with its refreshed
    hours and earnings, and the detail view. */
module Employees {
  import opened Common
  import opened Entities
  import opened Pagination

  const EmailExists := "Email already exists"
  const NotFound := "Employee not found"

  // ------------------------------------------------------------------ username

  /** `email.split('@')[0]`: the text before the first `@`, or all of it. */
  function LocalPart(email: string): (r: string)
    ensures r <= email
    ensures '@' !in r
    ensures |r| < |email| ==> email[|r|] == '@'
  {
    if email == [] || email[0] == '@' then [] else [email[0]] + LocalPart(email[1..])
  }

  predicate IsUpper(c: char) {
    'A' <= c <= 'Z'
  }

  const KelvinSign := '\U{212A}'
  const CapitalDottedI := '\U{0130}'

  /** `toLowerCase()` of one character, as far as a username can tell. ASCII capitals
      become small letters. Of the characters outside ASCII, exactly two lower-case to
      text holding an ASCII letter, and they map as JavaScript maps them: the Kelvin sign
      to `k`, and the capital I with dot above to `i` followed by the combining dot
      above. Every other character is kept as it is; its lower case lies outside ASCII
      too, so the sanitiser drops it either way. */
  function LowerOf(c: char): (r: string)
    ensures r != [] && forall d :: d in r ==> !IsUpper(d)
    ensures IsUpper(c) ==> r == [c + ('a' - 'A')]
    ensures !IsUpper(c) && c != KelvinSign && c != CapitalDottedI ==> r == [c]
  {
    if IsUpper(c) then [(c as int - 'A' as int + 'a' as int) as char]
    else if c == KelvinSign then ['k']
    else if c == CapitalDottedI then ['i', '\U{0307}']
    else [c]
  }

  /** `toLowerCase()`: each character lower-cased on its own, in order. No ASCII capital
      survives, and text with nothing to lower-case is returned as it is. */
  function Lower(s: string): (r: string)
    ensures |r| >= |s|
    ensures forall c :: c in r ==> !IsUpper(c)
    ensures forall c :: c in s && !IsUpper(c) && c != KelvinSign && c != CapitalDottedI ==> c in r
    ensures (forall c :: c in s ==> !IsUpper(c) && c != KelvinSign && c != CapitalDottedI) ==> r == s
  {
    if s == [] then []
    else
      var head, rest := LowerOf(s[0]), Lower(s[1..]);
      assert forall c :: c in s[1..] ==> c in s;
      assert forall c :: c in head + rest ==> c in head || c in rest;
      head + rest
  }

  /** Lower-casing works character by character: it distributes over concatenation. */
  lemma {:induction false} LowerConcat(a: string, b: string)
    ensures Lower(a + b) == Lower(a) + Lower(b)
  {
    if a == [] {
      assert a + b == b;
    } else {
      var c := a[0];
      assert (a + b)[0] == c && (a + b)[1..] == a[1..] + b;
      calc {
        Lower(a + b);
        LowerOf(c) + Lower(a[1..] + b);
        { LowerConcat(a[1..], b); }
        LowerOf(c) + (Lower(a[1..]) + Lower(b));
        (LowerOf(c) + Lower(a[1..])) + Lower(b);
      }
    }
  }

  /** The class `[a-z0-9._-]` the sanitiser keeps. */
  predicate Allowed(c: char) {
    'a' <= c <= 'z' || '0' <= c <= '9' || c == '.' || c == '_' || c == '-'
  }

  /** The username `create` derives: the local part of the email, lower-cased, with every
      character outside `[a-z0-9._-]` removed. */
  function Username(email: string): (r: string)
    ensures forall c :: c in r ==> Allowed(c)
    ensures forall c :: c in LocalPart(email) && Allowed(c) ==> c in r
  {
    Filter(Lower(LocalPart(email)), Allowed)
  }

  /** The username holds only allowed characters, and holds each allowed character of
      the lowercased local part: it is that text with the other characters dropped, in
      order, as many as are kept. */
  lemma UsernameCharacters(email: string)
    ensures forall c :: c in Username(email) ==> Allowed(c)
    ensures forall c :: c in Username(email) <==> c in Lower(LocalPart(email)) && Allowed(c)
    ensures |Username(email)| == CountWhere(Lower(LocalPart(email)), Allowed)
  {
    FilterCount(Lower(LocalPart(email)), Allowed);
  }

  /** The username keeps the allowed characters in the order they appear: cut the
      lowercased local part anywhere, and the username is what each half keeps, end to
      end. */
  lemma UsernameKeepsOrder(email: string, k: nat)
    requires k <= |LocalPart(email)|
    ensures var t := LocalPart(email);
      Username(email) == Filter(Lower(t[..k]), Allowed) + Filter(Lower(t[k..]), Allowed)
  {
    var t := LocalPart(email);
    var front, back := t[..k], t[k..];
    assert t == front + back;
    LowerConcat(front, back);
    FilterConcat(Lower(front), Lower(back), Allowed);
  }

  /** Sanitising a username again changes nothing. */
  lemma UsernameIdempotent(email: string)
    ensures Username(Username(email)) == Username(email)
  {
    var u := Username(email);
    UsernameCharacters(email);
    NoAtIsLocal(u);
    LowerOfAllowed(u);
    FilterAll(u, Allowed);
  }

  lemma {:induction false} NoAtIsLocal(s: string)
    requires '@' !in s
    ensures LocalPart(s) == s
  {
    if s != [] {
      assert s[0] != '@';
      assert '@' !in s[1..];
      NoAtIsLocal(s[1..]);
      assert [s[0]] + s[1..] == s;
    }
  }

  lemma LowerOfAllowed(s: string)
    requires forall c :: c in s ==> Allowed(c)
    ensures Lower(s) == s
  {
  }

  // -------------------------------------------------------------------- create

  /** The body of `POST /employee`; the avatar is the stored file name when a photo was
      uploaded. */
  datatype CreateDto = CreateDto(
    first_name: string,
    last_name: string,
    email: string,
    password: Option<string>,
    phone_number: string,
    physical_number: Option<string>,
    employee_role: string,
    hourly_rate: Option<real>,
    address: Option<string>,
    avatar: Option<string>)

  /** `password || physical_number`: `None` when both are missing, which the hash library
      refuses. */
  function PasswordToUse(dto: CreateDto): (r: Option<string>)
    ensures Given(dto.password) ==> r == dto.password
    ensures !Given(dto.password) ==> r == dto.physical_number
  {
    if Given(dto.password) then dto.password else dto.physical_number
  }

  /** The tables `create` touches. */
  datatype Store = Store(users: seq<User>, projects: seq<Project>, assignees: seq<Assignee>)

  /** The two effects `create` cannot see into, decided by the environment: whether the
      credentials mail is sent, and whether the bulk assignment insert succeeds. */
  datatype Outcomes = Outcomes(mailSent: bool, assignmentStored: bool)

  /** An active project: `{ status: 1, deleted_at: null }`. */
  predicate Active(p: Project) {
    p.status == 1 && !p.deleted
  }

  predicate HasPair(rows: seq<Assignee>, projectId: string, userId: string) {
    exists i :: 0 <= i < |rows| && rows[i].project_id == projectId && rows[i].user_id == userId
  }

  predicate ActiveId(projects: seq<Project>, id: string) {
    exists j :: 0 <= j < |projects| && projects[j].id == id && Active(projects[j])
  }

  /** Each inserted row links the user to an active project with zero totals, and none
      repeats a pair stored before it or inserted earlier. */
  predicate FreshRows(projects: seq<Project>, existing: seq<Assignee>, userId: string, r: seq<Assignee>) {
    forall i :: 0 <= i < |r| ==>
      && r[i].user_id == userId && r[i].total_hours == 0.0 && r[i].total_cost == 0.0
      && ActiveId(projects, r[i].project_id)
      && !HasPair(existing + r[..i], r[i].project_id, userId)
  }

  /** Every active project is linked to the user. */
  predicate CoversActive(projects: seq<Project>, rows: seq<Assignee>, userId: string) {
    forall j :: 0 <= j < |projects| && Active(projects[j]) ==> HasPair(rows, projects[j].id, userId)
  }

  /** The rows `assignEmployeeToActiveProjects` inserts: one zero-total row per active
      project, skipping a pair that already exists (`skipDuplicates`). */
  function AssignActive(projects: seq<Project>, existing: seq<Assignee>, userId: string): (r: seq<Assignee>)
    ensures forall i :: 0 <= i < |r| ==>
      && r[i].user_id == userId && r[i].total_hours == 0.0 && r[i].total_cost == 0.0
      && ActiveId(projects, r[i].project_id)
      && !HasPair(existing + r[..i], r[i].project_id, userId)
    ensures forall j :: 0 <= j < |projects| && Active(projects[j]) ==> HasPair(existing + r, projects[j].id, userId)
  {
    if projects == [] then []
    else
      var init, p := projects[..|projects| - 1], projects[|projects| - 1];
      var prev := AssignActive(init, existing, userId);
      assert FreshRows(init, existing, userId, prev) && CoversActive(init, existing + prev, userId);
      FreshRowsGrow(projects, existing, userId, prev);
      if Active(p) && !HasPair(existing + prev, p.id, userId) then
        AssignAdd(projects, existing, userId, prev);
        prev + [Assignee(p.id, userId, 0.0, 0.0)]
      else
        AssignSkip(projects, existing, userId, prev);
        prev
  }

  /** Rows valid for a prefix of the projects stay valid for all of them. */
  lemma FreshRowsGrow(projects: seq<Project>, existing: seq<Assignee>, userId: string, prev: seq<Assignee>)
    requires projects != [] && FreshRows(projects[..|projects| - 1], existing, userId, prev)
    ensures FreshRows(projects, existing, userId, prev)
  {
    var init := projects[..|projects| - 1];
    forall i | 0 <= i < |prev| ensures ActiveId(projects, prev[i].project_id) {
      var j :| 0 <= j < |init| && init[j].id == prev[i].project_id && Active(init[j]);
      assert projects[j] == init[j];
    }
  }

  /** The last project is skipped: the rows so far already cover it. */
  lemma AssignSkip(projects: seq<Project>, existing: seq<Assignee>, userId: string, prev: seq<Assignee>)
    requires projects != [] && CoversActive(projects[..|projects| - 1], existing + prev, userId)
    requires var p := projects[|projects| - 1]; !(Active(p) && !HasPair(existing + prev, p.id, userId))
    ensures CoversActive(projects, existing + prev, userId)
  {
    var init := projects[..|projects| - 1];
    forall j | 0 <= j < |projects| - 1 && Active(projects[j])
      ensures HasPair(existing + prev, projects[j].id, userId)
    {
      assert init[j] == projects[j];
    }
  }

  /** The last project is active and not yet linked: one row for it is appended. */
  lemma AssignAdd(projects: seq<Project>, existing: seq<Assignee>, userId: string, prev: seq<Assignee>)
    requires projects != []
    requires FreshRows(projects, existing, userId, prev)
    requires CoversActive(projects[..|projects| - 1], existing + prev, userId)
    requires var p := projects[|projects| - 1]; Active(p) && !HasPair(existing + prev, p.id, userId)
    ensures var p := projects[|projects| - 1];
      var r := prev + [Assignee(p.id, userId, 0.0, 0.0)];
      FreshRows(projects, existing, userId, r) && CoversActive(projects, existing + r, userId)
  {
    var init, p := projects[..|projects| - 1], projects[|projects| - 1];
    var a := Assignee(p.id, userId, 0.0, 0.0);
    var r := prev + [a];
    AppendKeepsPairs(existing, prev, a);
    assert r[..|prev|] == prev;
    assert ActiveId(projects, p.id);
    assert forall i :: 0 <= i < |prev| ==> r[..i] == prev[..i];
    assert FreshRows(projects, existing, userId, r);
    assert HasPair(existing + r, p.id, userId) by {
      assert (existing + r)[|existing| + |prev|] == a;
    }
    forall j | 0 <= j < |projects| && Active(projects[j])
      ensures HasPair(existing + r, projects[j].id, userId)
    {
      if j < |projects| - 1 {
        assert init[j] == projects[j];
      }
    }
  }

  /** Appending a row keeps every pair already present. */
  lemma AppendKeepsPairs(existing: seq<Assignee>, prev: seq<Assignee>, a: Assignee)
    ensures forall pid, uid :: HasPair(existing + prev, pid, uid) ==> HasPair(existing + (prev + [a]), pid, uid)
  {
    assert existing + (prev + [a]) == (existing + prev) + [a];
    forall pid, uid | HasPair(existing + prev, pid, uid)
      ensures HasPair(existing + (prev + [a]), pid, uid)
    {
      var i :| 0 <= i < |existing + prev| && (existing + prev)[i].project_id == pid && (existing + prev)[i].user_id == uid;
      assert (existing + (prev + [a]))[i] == (existing + prev)[i];
    }
  }

  /** `EmployeeService.create`. `hash` stands for bcrypt, `newId` for the generated id,
      which no stored user carries. */
  function Create(s: Store, dto: CreateDto, hash: string -> string, newId: string, env: Outcomes)
    : (r: Step<User, Store>)
    requires UserIdUnused(s.users, newId)
    ensures r.response.Fail? <==> EmailTaken(s.users, dto.email)
    ensures r.response.Fail? ==> r.response.message == EmailExists && r.store == s
    ensures !EmailTaken(s.users, dto.email) && PasswordToUse(dto).None? ==> r.response.Caught? && r.store == s
    ensures r.response.Ok? <==> !EmailTaken(s.users, dto.email) && PasswordToUse(dto).Some? && env.mailSent
    ensures r.response.Ok? || (r.response.Caught? && PasswordToUse(dto).Some? && !env.mailSent) ==>
      && PasswordToUse(dto).Some?
      && |r.store.users| == |s.users| + 1
      && r.store.users[..|s.users|] == s.users
      && NewEmployee(r.store.users[|s.users|], dto, hash(PasswordToUse(dto).value), newId)
      && r.store.projects == s.projects
    ensures r.response.Ok? ==> r.response.data == r.store.users[|s.users|]
    ensures r.response.Ok? && env.assignmentStored ==>
      r.store.assignees == s.assignees + AssignActive(s.projects, s.assignees, newId)
    ensures !(r.response.Ok? && env.assignmentStored) ==> r.store.assignees == s.assignees
  {
    if EmailTaken(s.users, dto.email) then Step(Fail(EmailExists), s)
    else match PasswordToUse(dto)
      case None => Step(Caught("bcrypt"), s)
      case Some(pw) =>
        var u := User(newId, Employee, dto.first_name, dto.last_name, dto.first_name + " " + dto.last_name,
          dto.email, Username(dto.email), hash(pw), dto.phone_number, dto.physical_number,
          dto.employee_role, dto.hourly_rate, dto.address, dto.avatar, 0.0, 0.0, false);
        var stored := s.(users := s.users + [u]);
        if !env.mailSent then Step(Caught("mail"), stored)
        else if env.assignmentStored then
          Step(Ok(u), stored.(assignees := s.assignees + AssignActive(s.projects, s.assignees, newId)))
        else Step(Ok(u), stored)
  }

  /** The user row `create` writes. */
  predicate NewEmployee(u: User, dto: CreateDto, passwordHash: string, newId: string) {
    && u.id == newId && u.kind == Employee && !u.deleted
    && u.name == dto.first_name + " " + dto.last_name
    && u.first_name == dto.first_name && u.last_name == dto.last_name
    && u.email == dto.email && u.username == Username(dto.email) && u.password == passwordHash
    && u.phone_number == dto.phone_number && u.physical_number == dto.physical_number
    && u.employee_role == dto.employee_role && u.hourly_rate == dto.hourly_rate
    && u.address == dto.address && u.avatar == dto.avatar
    && u.recorded_hours == 0.0 && u.earning == 0.0
  }

  /** The duplicate-email guard keeps the unique index on `email` intact. */
  lemma CreateKeepsEmailsUnique(s: Store, dto: CreateDto, hash: string -> string, newId: string, env: Outcomes)
    requires UserIdUnused(s.users, newId) && EmailsUnique(s.users)
    ensures EmailsUnique(Create(s, dto, hash, newId, env).store.users)
  {
    var r := Create(s, dto, hash, newId, env);
    if r.store.users != s.users {
      var users := r.store.users;
      assert users == s.users + [users[|s.users|]];
      assert forall i :: 0 <= i < |s.users| ==> s.users[i].email != dto.email;
      assert users[|s.users|].email == dto.email;
    }
  }

  // ------------------------------------------------------------------- findAll

  /** The query of `GET /employee`. */
  datatype Query = Query(employee_role: Option<string>, search: Option<string>, page: Option<string>, limit: Option<string>)

  /** The `where` of `findAll`: live employees, of the role when one is given, matching the
      search in first name, last name, name or email when one is given. Case-insensitive
      `contains` is the abstract `matchText`. */
  predicate Matches(u: User, q: Query, matchText: (string, string) -> bool) {
    && LiveEmployee(u)
    && (Given(q.employee_role) ==> u.employee_role == q.employee_role.value)
    && (Given(q.search) ==>
          || matchText(u.first_name, q.search.value) || matchText(u.last_name, q.search.value)
          || matchText(u.name, q.search.value) || matchText(u.email, q.search.value))
  }

  /** `recorded_hours * Number(hourly_rate || 0)`. */
  function Earning(hours: real, rate: Option<real>): real {
    hours * rate.GetOr(0.0)
  }

  /** The hours and earning `findAll` and `findOne` compute for a user: the `_sum` of the
      hours of their live attendance rows, and that sum times the hourly rate (0 when the
      rate is missing). */
  function Refreshed(u: User, rows: seq<Attendance>): (r: User)
    ensures r.recorded_hours == RecordedHours(rows, u.id)
    ensures r.earning == Earning(RecordedHours(rows, u.id), u.hourly_rate)
    ensures r.(recorded_hours := u.recorded_hours, earning := u.earning) == u
  {
    var hours := RecordedHours(rows, u.id);
    u.(recorded_hours := hours, earning := Earning(hours, u.hourly_rate))
  }

  predicate Listed(page: seq<User>, id: string) {
    exists i :: 0 <= i < |page| && page[i].id == id
  }

  /** The `user.update` each listed employee receives. */
  function Refresh(users: seq<User>, page: seq<User>, rows: seq<Attendance>): (r: seq<User>)
    ensures |r| == |users|
    ensures forall i :: 0 <= i < |users| ==> r[i] == if Listed(page, users[i].id) then Refreshed(users[i], rows) else users[i]
  {
    seq(|users|, i requires 0 <= i < |users| => if Listed(page, users[i].id) then Refreshed(users[i], rows) else users[i])
  }

  /** The filter of `findAll` as a function value, so that the count and the page use
      the same one. */
  function Keep(q: Query, matchText: (string, string) -> bool): User -> bool {
    u => Matches(u, q, matchText)
  }

  /** The listed employees with their fresh totals. */
  function RefreshPage(found: seq<User>, rows: seq<Attendance>): (r: seq<User>)
    ensures |r| == |found|
    ensures forall i :: 0 <= i < |r| ==> r[i] == Refreshed(found[i], rows)
  {
    seq(|found|, i requires 0 <= i < |found| => Refreshed(found[i], rows))
  }

  /** The nine user columns `findAll` and `findOne` select. The password hash, the phone
      numbers and the address are never returned. The avatar stands for the URL built
      from it. */
  datatype Columns = Columns(
    id: string, first_name: string, last_name: string, username: string, name: string,
    email: string, avatar: Option<string>, employee_role: string, hourly_rate: Option<real>)

  function ColumnsOf(u: User): (c: Columns)
    ensures c.id == u.id && c.first_name == u.first_name && c.last_name == u.last_name
    ensures c.username == u.username && c.name == u.name && c.email == u.email
    ensures c.avatar == u.avatar && c.employee_role == u.employee_role && c.hourly_rate == u.hourly_rate
  {
    Columns(u.id, u.first_name, u.last_name, u.username, u.name, u.email, u.avatar, u.employee_role, u.hourly_rate)
  }

  /** A listed employee: the selected columns spread together with the fresh totals. */
  datatype Summary = Summary(user: Columns, recorded_hours: real, earning: real)

  /** The listing item of a refreshed row. */
  function SummaryOf(u: User): (s: Summary)
    ensures s.user == ColumnsOf(u)
    ensures s.recorded_hours == u.recorded_hours && s.earning == u.earning
  {
    Summary(ColumnsOf(u), u.recorded_hours, u.earning)
  }

  function Summaries(page: seq<User>): (r: seq<Summary>)
    ensures |r| == |page|
    ensures forall i :: 0 <= i < |r| ==> r[i] == SummaryOf(page[i])
  {
    seq(|page|, i requires 0 <= i < |page| => SummaryOf(page[i]))
  }

  /** `EmployeeService.findAll`: the page of matching employees, each with fresh hours and
      earning, and the store with those values written back. */
  function FindAll(users: seq<User>, rows: seq<Attendance>, q: Query, matchText: (string, string) -> bool)
    : (r: Step<Page<Summary>, seq<User>>)
    ensures r.response.Ok? || r.response.Caught?
    ensures var p := PagingOf(q.page, q.limit); r.response.Ok? <==> p.page >= 1 && p.size >= 1
    ensures r.response.Caught? ==> r.store == users
    ensures r.response.Ok? ==>
      && r.response.data.meta == MetaOf(CountWhere(users, Keep(q, matchText)), PagingOf(q.page, q.limit))
      && |r.response.data.data| <= PagingOf(q.page, q.limit).size
    ensures r.response.Ok? ==>
      var p := PagingOf(q.page, q.limit);
      var w := Window(Filter(users, Keep(q, matchText)), p.skip, p.size);
      && w.Some?
      && r.response.data.data == Summaries(RefreshPage(w.value, rows))
      && r.store == Refresh(users, w.value, rows)
    ensures r.response.Ok? ==> forall i :: 0 <= i < |r.response.data.data| ==>
      var s := r.response.data.data[i];
      && s.recorded_hours == RecordedHours(rows, s.user.id)
      && s.earning == Earning(s.recorded_hours, s.user.hourly_rate)
    ensures r.response.Ok? ==>
      var p := PagingOf(q.page, q.limit);
      var w := Window(Filter(users, Keep(q, matchText)), p.skip, p.size);
      w.Some? && forall i :: 0 <= i < |w.value| ==>
        var u := RefreshPage(w.value, rows)[i];
        Matches(u, q, matchText) && u.(recorded_hours := 0.0, earning := 0.0) in Zeroed(users)
  {
    var listed := List(users, Keep(q, matchText), q.page, q.limit);
    if listed.Caught? then Step(Caught(listed.origin), users)
    else
      var found := listed.data.data;
      var page := RefreshPage(found, rows);
      ListedRowsStored(users, found, rows, q, matchText);
      Step(Ok(Page(listed.data.meta, Summaries(page))), Refresh(users, found, rows))
  }

  /** The users with their stored totals cleared, to compare rows up to those totals. */
  function Zeroed(users: seq<User>): (r: seq<User>)
    ensures |r| == |users|
    ensures forall i :: 0 <= i < |r| ==> r[i] == users[i].(recorded_hours := 0.0, earning := 0.0)
  {
    seq(|users|, i requires 0 <= i < |users| => users[i].(recorded_hours := 0.0, earning := 0.0))
  }

  lemma ListedRowsStored(users: seq<User>, found: seq<User>, rows: seq<Attendance>, q: Query, matchText: (string, string) -> bool)
    requires forall x :: x in found ==> x in users && Keep(q, matchText)(x)
    ensures forall i :: 0 <= i < |found| ==>
      var u := RefreshPage(found, rows)[i];
      Matches(u, q, matchText) && u.(recorded_hours := 0.0, earning := 0.0) in Zeroed(users)
  {
    var page := RefreshPage(found, rows);
    var z := Zeroed(users);
    forall i | 0 <= i < |found|
      ensures Matches(page[i], q, matchText) && page[i].(recorded_hours := 0.0, earning := 0.0) in z
    {
      assert found[i] in found;
      var j :| 0 <= j < |users| && users[j] == found[i];
      assert z[j] == page[i].(recorded_hours := 0.0, earning := 0.0);
    }
  }

  /** Refreshing is idempotent: a second listing of the same page writes the same values. */
  lemma RefreshIdempotent(users: seq<User>, page: seq<User>, rows: seq<Attendance>)
    ensures Refresh(Refresh(users, page, rows), page, rows) == Refresh(users, page, rows)
  {
    var once := Refresh(users, page, rows);
    var twice := Refresh(once, page, rows);
    forall i | 0 <= i < |users| ensures twice[i] == once[i] {
      assert once[i].id == users[i].id;
    }
  }

  // ------------------------------------------------------------------- findOne

  /** The detail view: the employee, the assignments kept, and the fresh totals. */
  datatype Detail = Detail(user: Columns, assignees: seq<Assignee>, recorded_hours: real, earning: real)

  /** A project that appears among the user's attendance rows. */
  predicate Attended(rows: seq<Attendance>, userId: string, projectId: string) {
    exists i :: 0 <= i < |rows| && rows[i].user_id == userId && rows[i].project_id == Some(projectId)
  }

  /** `EmployeeService.findOne`: the live employee with the id, with only those of their
      assignments whose project they have attendance on, in stored order. */
  function FindOne(users: seq<User>, rows: seq<Attendance>, assignees: seq<Assignee>, id: string)
    : (r: Response<Detail>)
    ensures r.Ok? || r.Fail?
    ensures r.Fail? <==> UserById(users, id).None? || !LiveEmployee(UserById(users, id).value)
    ensures r.Fail? ==> r.message == NotFound
    ensures r.Ok? ==>
      && r.data.user == ColumnsOf(UserById(users, id).value)
      && r.data.recorded_hours == RecordedHours(rows, id)
      && r.data.earning == Earning(RecordedHours(rows, id), r.data.user.hourly_rate)
      && (forall a :: a in r.data.assignees <==> a in assignees && a.user_id == id && Attended(rows, id, a.project_id))
  {
    match UserById(users, id)
    case None => Fail(NotFound)
    case Some(u) =>
      if !LiveEmployee(u) then Fail(NotFound)
      else
        var mine := Filter(assignees, (a: Assignee) => a.user_id == id);
        var kept := Filter(mine, (a: Assignee) => Attended(rows, id, a.project_id));
        var hours := RecordedHours(rows, id);
        Ok(Detail(ColumnsOf(u), kept, hours, Earning(hours, u.hourly_rate)))
  }

  /** The assignments `findOne` keeps appear in the order they are stored: filtering the
      user's assignments split anywhere gives the filtered halves, end to end. */
  lemma FindOneKeepsOrder(users: seq<User>, rows: seq<Attendance>, assignees: seq<Assignee>, id: string, k: nat)
    requires k <= |assignees|
    requires FindOne(users, rows, assignees, id).Ok?
    ensures var keep := (a: Assignee) => a.user_id == id && Attended(rows, id, a.project_id);
      FindOne(users, rows, assignees, id).data.assignees
        == Filter(assignees[..k], keep) + Filter(assignees[k..], keep)
  {
    var keep := (a: Assignee) => a.user_id == id && Attended(rows, id, a.project_id);
    var mineP := (a: Assignee) => a.user_id == id;
    var attP := (a: Assignee) => Attended(rows, id, a.project_id);
    FilterTwice(assignees, mineP, attP, keep);
    assert assignees == assignees[..k] + assignees[k..];
    FilterConcat(assignees[..k], assignees[k..], keep);
  }
}

=== FILE: employee_holiday.dfy ===
/** Leave requests: the inclusive day count `total_days`, the listing filter, and the
    creation, lookup and removal of single requests. */
module EmployeeHoliday {
  import opened Common
  import opened Entities
  import opened Pagination
  import opened IsoDate

  /** `Math.ceil((end - start) / (1000 * 60 * 60 * 24) + 1)`: the number of calendar days the
      request touches, counting both ends. */
  function TotalDays(start: int, end: int): (n: int)
    ensures (n - 2) * MillisPerDay < end - start <= (n - 1) * MillisPerDay
  {
    var gap := CeilDiv(end - start, MillisPerDay);
    CeilTimesDivisor(end - start, MillisPerDay, gap);
    gap + 1
  }

  /** A request that starts and ends on the same instant is one day long. */
  lemma SameDayIsOneDay(t: int)
    ensures TotalDays(t, t) == 1
  {
  }

  /** An exact gap of `k` days counts `k + 1` days; any part of a further day counts it
      whole. */
  lemma WholeDays(start: int, k: int, extra: int)
    requires 0 < extra < MillisPerDay
    ensures TotalDays(start, start + k * MillisPerDay) == k + 1
    ensures TotalDays(start, start + k * MillisPerDay + extra) == k + 2
  {
  }

  /** The count never decreases as the end moves later, nor as the start moves earlier. */
  lemma TotalDaysMonotone(start1: int, start2: int, end1: int, end2: int)
    requires start2 <= start1 && end1 <= end2
    ensures TotalDays(start1, end1) <= TotalDays(start2, end2)
  {
  }

  /** The columns of the `user` relation the leave queries select. The avatar stands for
      the URL built from it. */
  datatype HolidayUser = HolidayUser(
    id: string, first_name: string, last_name: string, name: string, email: string,
    avatar: Option<string>, employee_role: string)

  function HolidayUserOf(u: User): (c: HolidayUser)
    ensures c.id == u.id && c.first_name == u.first_name && c.last_name == u.last_name
    ensures c.name == u.name && c.email == u.email && c.avatar == u.avatar
    ensures c.employee_role == u.employee_role
  {
    HolidayUser(u.id, u.first_name, u.last_name, u.name, u.email, u.avatar, u.employee_role)
  }

  /** A request as `findAll` and `findOne` return it: its four selected columns, the
      requesting user's card, and the day count. */
  datatype HolidayView = HolidayView(holiday: Holiday, user: Option<HolidayUser>, total_days: int)

  function View(h: Holiday, users: seq<User>): (v: HolidayView)
    ensures v.holiday == h
    ensures v.user.None? <==> !UserExists(users, h.user_id)
    ensures v.user.Some? ==> exists u :: u in users && u.id == h.user_id && v.user.value == HolidayUserOf(u)
    ensures (v.total_days - 2) * MillisPerDay < h.end_date - h.start_date <= (v.total_days - 1) * MillisPerDay
  {
    HolidayView(h, Related(users, h.user_id, HolidayUserOf), TotalDays(h.start_date, h.end_date))
  }

  /** The query of `GET /employee-holiday`; the two dates are instants, absent when not
      supplied. */
  datatype Query = Query(
    user_id: Option<string>,
    start_date: Option<int>,
    end_date: Option<int>,
    page: Option<string>,
    limit: Option<string>)

  /** The `where` object: each bound present only when its parameter was supplied. */
  datatype Where = Where(user_id: Option<string>, startsFrom: Option<int>, endsBy: Option<int>)

  function BuildWhere(q: Query): (w: Where)
    ensures w.user_id.Some? <==> Given(q.user_id)
    ensures w.user_id.Some? ==> w.user_id == q.user_id
    ensures w.startsFrom == q.start_date && w.endsBy == q.end_date
  {
    Where(if Given(q.user_id) then q.user_id else None, q.start_date, q.end_date)
  }

  /** The ORM's reading of a `Where`. */
  predicate Satisfies(w: Where, h: Holiday) {
    && (w.user_id.Some? ==> h.user_id == w.user_id.value)
    && (w.startsFrom.Some? ==> h.start_date >= w.startsFrom.value)
    && (w.endsBy.Some? ==> h.end_date <= w.endsBy.value)
  }

  function Keep(q: Query): Holiday -> bool {
    h => Satisfies(BuildWhere(q), h)
  }

  function Views(hs: seq<Holiday>, users: seq<User>): (r: seq<HolidayView>)
    ensures |r| == |hs|
    ensures forall i :: 0 <= i < |r| ==> r[i] == View(hs[i], users)
  {
    seq(|hs|, i requires 0 <= i < |hs| => View(hs[i], users))
  }

  /** `EmployeeHolidayService.findAll`: one page of the matching requests, each with its
      user's card and day count, and the count of all matching requests. */
  function FindAll(rows: seq<Holiday>, users: seq<User>, q: Query): (r: Response<Page<HolidayView>>)
    ensures r.Ok? || r.Caught?
    ensures var p := PagingOf(q.page, q.limit); r.Ok? <==> p.page >= 1 && p.size >= 1
    ensures r.Ok? ==> r.data.meta == MetaOf(CountWhere(rows, Keep(q)), PagingOf(q.page, q.limit))
    ensures r.Ok? ==> |r.data.data| <= PagingOf(q.page, q.limit).size
    ensures r.Ok? ==> forall v :: v in r.data.data ==>
      && v.holiday in rows
      && (Given(q.user_id) ==> v.holiday.user_id == q.user_id.value)
      && (q.start_date.Some? ==> v.holiday.start_date >= q.start_date.value)
      && (q.end_date.Some? ==> v.holiday.end_date <= q.end_date.value)
      && v.total_days == TotalDays(v.holiday.start_date, v.holiday.end_date)
    ensures r.Ok? ==>
      var p := PagingOf(q.page, q.limit);
      var w := Window(Filter(rows, Keep(q)), p.skip, p.size);
      w.Some? && r.data.data == Views(w.value, users)
  {
    var listed := List(rows, Keep(q), q.page, q.limit);
    if listed.Caught? then Caught(listed.origin)
    else
      ViewsOfMatches(rows, users, q, listed.data.data);
      Ok(Page(listed.data.meta, Views(listed.data.data, users)))
  }

  /** The views of matching requests are views of stored requests meeting the query. */
  lemma ViewsOfMatches(rows: seq<Holiday>, users: seq<User>, q: Query, found: seq<Holiday>)
    requires forall h :: h in found ==> h in rows && Keep(q)(h)
    ensures forall v :: v in Views(found, users) ==>
      && v.holiday in rows
      && (Given(q.user_id) ==> v.holiday.user_id == q.user_id.value)
      && (q.start_date.Some? ==> v.holiday.start_date >= q.start_date.value)
      && (q.end_date.Some? ==> v.holiday.end_date <= q.end_date.value)
      && v.total_days == TotalDays(v.holiday.start_date, v.holiday.end_date)
  {
    var vs := Views(found, users);
    forall v | v in vs
      ensures v.holiday in found && v.total_days == TotalDays(v.holiday.start_date, v.holiday.end_date)
    {
      var i :| 0 <= i < |vs| && vs[i] == v;
      assert found[i] in found;
    }
  }

  /** The filter keeps exactly the requests meeting every supplied condition, and with no
      condition supplied it keeps them all. */
  lemma FilterIsConjunction(q: Query, h: Holiday)
    ensures Keep(q)(h) <==>
      && (Given(q.user_id) ==> h.user_id == q.user_id.value)
      && (q.start_date.Some? ==> h.start_date >= q.start_date.value)
      && (q.end_date.Some? ==> h.end_date <= q.end_date.value)
    ensures !Given(q.user_id) && q.start_date.None? && q.end_date.None? ==> Keep(q)(h)
  {
  }

  /** `EmployeeHolidayService.findOne`: a successful response in both cases; the user's
      card and the day count are attached only to a request that exists, and a missing id
      gives no data. */
  function FindOne(rows: seq<Holiday>, users: seq<User>, id: string): (r: Response<Option<HolidayView>>)
    ensures r.Ok?
    ensures r.data.None? <==> forall i :: 0 <= i < |rows| ==> rows[i].id != id
    ensures r.data.Some? ==>
      && r.data.value.holiday in rows && r.data.value.holiday.id == id
      && r.data.value.total_days == TotalDays(r.data.value.holiday.start_date, r.data.value.holiday.end_date)
      && r.data.value == View(r.data.value.holiday, users)
  {
    match First(rows, (h: Holiday) => h.id == id)
    case None => Ok(None)
    case Some(h) => Ok(Some(View(h, users)))
  }

  /** The body of `POST /employee-holiday`. */
  datatype CreateDto = CreateDto(user_id: string, start_date: int, end_date: int)

  predicate IdUnused(rows: seq<Holiday>, id: string) {
    forall i :: 0 <= i < |rows| ==> rows[i].id != id
  }

  /** `EmployeeHolidayService.create`: the foreign key on `user_id` makes the insert fail
      for an unknown user; otherwise the request is stored as given. */
  function Create(rows: seq<Holiday>, users: seq<User>, dto: CreateDto, newId: string)
    : (r: Step<Holiday, seq<Holiday>>)
    requires IdUnused(rows, newId)
    ensures r.response.Ok? || r.response.Caught?
    ensures r.response.Caught? <==> !UserExists(users, dto.user_id)
    ensures r.response.Caught? ==> r.store == rows
    ensures r.response.Ok? ==>
      && r.store == rows + [r.response.data]
      && r.response.data == Holiday(newId, dto.user_id, dto.start_date, dto.end_date)
  {
    if !UserExists(users, dto.user_id) then Step(Caught("orm"), rows)
    else
      var h := Holiday(newId, dto.user_id, dto.start_date, dto.end_date);
      Step(Ok(h), rows + [h])
  }

  /** A created request is found again by its id, with its user's card. */
  lemma CreateThenFind(rows: seq<Holiday>, users: seq<User>, dto: CreateDto, newId: string)
    requires IdUnused(rows, newId) && UserExists(users, dto.user_id)
    ensures var s := Create(rows, users, dto, newId);
      FindOne(s.store, users, newId) == Ok(Some(View(s.response.data, users)))
    ensures Create(rows, users, dto, newId).response.data.user_id == dto.user_id
    ensures View(Create(rows, users, dto, newId).response.data, users).user.Some?
  {
    var s := Create(rows, users, dto, newId);
    FirstUnique(s.store, (h: Holiday) => h.id == newId, |rows|);
  }

  /** `EmployeeHolidayService.remove`: a hard delete, which fails when no request has the
      id and otherwise removes exactly the requests carrying it. */
  function Remove(rows: seq<Holiday>, id: string): (r: Step<Holiday, seq<Holiday>>)
    ensures r.response.Ok? || r.response.Caught?
    ensures r.response.Caught? <==> forall i :: 0 <= i < |rows| ==> rows[i].id != id
    ensures r.response.Caught? ==> r.store == rows
    ensures r.response.Ok? ==> r.response.data in rows && r.response.data.id == id
    ensures forall h :: h in r.store <==> h in rows && h.id != id
  {
    match First(rows, (h: Holiday) => h.id == id)
    case None =>
      assert forall h :: h in rows ==> h.id != id;
      Step(Caught("orm"), rows)
    case Some(h) => Step(Ok(h), Filter(rows, (x: Holiday) => x.id != id))
  }
}

=== FILE: entities.dfy ===
/** The rows of the relational store, as immutable records.

    Dates are day numbers (see `Calendar`), instants are integer milliseconds,
    hours and money are exact reals. Tables with soft deletes carry a `deleted`
    flag that stands for a non-null `deleted_at`. */
module Entities {
  import opened Common

  datatype UserType = Employee | Admin

  datatype User = User(
    id: string,
    kind: UserType,
    first_name: string,
    last_name: string,
    name: string,
    email: string,
    username: string,
    password: string,        // the stored hash
    phone_number: string,
    physical_number: Option<string>,
    employee_role: string,
    hourly_rate: Option<real>,
    address: Option<string>,
    avatar: Option<string>,
    recorded_hours: real,
    earning: real,
    deleted: bool)

  datatype AttendanceStatus = Present | Absent

  datatype Attendance = Attendance(
    id: string,
    user_id: string,
    date: int,
    start_time: Option<int>,
    lunch_start: Option<int>,
    lunch_end: Option<int>,
    end_time: Option<int>,
    hours: Option<real>,
    status: AttendanceStatus,
    notes: Option<string>,
    address: Option<string>,
    project_id: Option<string>,
    deleted: bool)

  datatype Project = Project(
    id: string,
    name: string,
    address: Option<string>,
    start_date: Option<int>,
    end_date: Option<int>,
    budget: Option<real>,
    cost: Option<real>,
    priority: Option<string>,
    status: int,
    owner: Option<string>,
    deleted: bool)

  /** The project/user join row, carrying accumulated hours and cost. */
  datatype Assignee = Assignee(project_id: string, user_id: string, total_hours: real, total_cost: real)

  /** A leave request; both bounds are instants in milliseconds. */
  datatype Holiday = Holiday(id: string, user_id: string, start_date: int, end_date: int)

  datatype NotificationEvent = NotificationEvent(kind: Option<string>, text: Option<string>)

  /** A notification joined with its sender's `name` and `avatar` (absent when there is
      no sender) and its event. */
  datatype Notification = Notification(
    id: string,
    sender_id: Option<string>,
    sender_name: Option<string>,
    sender_avatar: Option<string>,
    receiver_id: Option<string>,
    entity_id: Option<string>,
    event: Option<NotificationEvent>,
    created_at: int)

  datatype Loan = Loan(id: string, loan_amount: Option<real>)

  /** A live employee: the `{ type: 'employee', deleted_at: null }` filter. */
  predicate LiveEmployee(u: User) {
    u.kind == Employee && !u.deleted
  }

  predicate UserIdUnused(users: seq<User>, id: string) {
    forall i :: 0 <= i < |users| ==> users[i].id != id
  }

  predicate EmailTaken(users: seq<User>, email: string) {
    exists i :: 0 <= i < |users| && users[i].email == email
  }

  /** The unique index on `email`. */
  predicate EmailsUnique(users: seq<User>) {
    forall i, j :: 0 <= i < |users| && 0 <= j < |users| && users[i].email == users[j].email ==> i == j
  }

  /** `_sum.hours` over a user's live attendance rows, `|| 0` when there are none
      (rows without hours do not contribute, as SQL `SUM` skips nulls). */
  function RecordedHours(rows: seq<Attendance>, user: string): (h: real)
    ensures (forall i :: 0 <= i < |rows| ==> rows[i].user_id != user || rows[i].deleted || rows[i].hours.None?)
      ==> h == 0.0
    ensures (forall i :: 0 <= i < |rows| ==> rows[i].hours.Some? ==> rows[i].hours.value >= 0.0) ==> h >= 0.0
  {
    if rows == [] then 0.0
    else
      var last := rows[|rows| - 1];
      RecordedHours(rows[..|rows| - 1], user)
        + (if last.user_id == user && !last.deleted && last.hours.Some? then last.hours.value else 0.0)
  }

  /** The user `findUnique({ where: { id } })` returns; ids are unique, so the first match. */
  function UserById(users: seq<User>, id: string): (r: Option<User>)
    ensures r.Some? ==> r.value in users && r.value.id == id
    ensures r.None? <==> !UserExists(users, id)
  {
    First(users, (u: User) => u.id == id)
  }

  /** The `user` relation of a row whose `user_id` is `id`, in the shape of the `select`
      the query applies to it. `None` stands for a dangling key, which the foreign key
      rules out in a consistent store. */
  function Related<C>(users: seq<User>, id: string, select: User -> C): (r: Option<C>)
    ensures r.None? <==> !UserExists(users, id)
    ensures r.Some? ==> exists u :: u in users && u.id == id && r.value == select(u)
  {
    match UserById(users, id)
    case None => None
    case Some(u) => Some(select(u))
  }

  /** A stored user carries the id: what a foreign key to `User` requires. Soft-deleted
      users still satisfy it. */
  predicate UserExists(users: seq<User>, id: string) {
    exists i :: 0 <= i < |users| && users[i].id == id
  }
}

=== FILE: iso_date.dfy ===
/** Text forms of dates and times as the services print them.

    `FullDate` is the `full-date` production of RFC 3339 section 5.6
    (`date-fullyear "-" date-month "-" date-mday`, each a fixed number of digits);
    `DayKey(n)` is what `date.toISOString().slice(0, 10)` gives for a stored date at
    UTC midnight of day `n`. `ParseFullDate` is its inverse, which makes keys
    comparable: two days have equal keys exactly when they are the same day. */
module IsoDate {
  import opened Common
  import opened Calendar

  const MillisPerMinute := 60000
  const MillisPerHour := 3600000
  const MillisPerDay := 86400000

  function Digit(n: int): (c: char)
    requires 0 <= n <= 9
  {
    (48 + n) as char
  }

  predicate IsDigit(c: char) {
    '0' <= c <= '9'
  }

  function DigitValue(c: char): int
    requires IsDigit(c)
  {
    c as int - 48
  }

  predicate AllDigits(s: string) {
    forall i :: 0 <= i < |s| ==> IsDigit(s[i])
  }

  /** Value of a string of decimal digits. */
  function DecimalValue(s: string): nat
    requires AllDigits(s)
  {
    if s == [] then 0 else 10 * DecimalValue(s[..|s| - 1]) + DigitValue(s[|s| - 1])
  }

  function Pow10(w: nat): nat {
    if w == 0 then 1 else 10 * Pow10(w - 1)
  }

  /** The last `width` decimal digits of `n`, zero-padded: `n.toString().padStart(width, '0')`
      whenever `n` has at most `width` digits. */
  function Numeral(n: nat, width: nat): (s: string)
    ensures |s| == width && AllDigits(s)
  {
    if width == 0 then [] else Numeral(n / 10, width - 1) + [Digit(n % 10)]
  }

  /** Two-digit, zero-padded decimal of a month, a day, an hour or a minute. */
  function Pad2(n: int): string
    requires 0 <= n <= 99
  {
    Numeral(n, 2)
  }

  /** Four-digit, zero-padded decimal year. */
  function Pad4(n: int): string
    requires 0 <= n <= 9999
  {
    Numeral(n, 4)
  }

  function FullDate(d: Date): (s: string)
    requires Valid(d)
  {
    Pad4(d.year) + "-" + Pad2(d.month) + "-" + Pad2(d.day)
  }

  /** Reads a `full-date`; `None` for anything that is not ten characters of the form
      `DDDD-DD-DD` naming a valid date. */
  function ParseFullDate(s: string): (r: Option<Date>)
    ensures r.Some? ==> Valid(r.value)
  {
    if |s| == 10 && s[4] == '-' && s[7] == '-'
      && AllDigits(s[..4]) && AllDigits(s[5..7]) && AllDigits(s[8..])
    then
      var d := Date(DecimalValue(s[..4]), DecimalValue(s[5..7]), DecimalValue(s[8..]));
      if Valid(d) then Some(d) else None
    else None
  }

  /** The last digit of a numeral is its units digit. */
  lemma DecimalLast(s: string)
    requires s != [] && AllDigits(s)
    ensures AllDigits(s[..|s| - 1])
    ensures DecimalValue(s) == 10 * DecimalValue(s[..|s| - 1]) + DigitValue(s[|s| - 1])
  {
  }

  lemma DigitRoundTrip(c: char)
    requires IsDigit(c)
    ensures Digit(DigitValue(c)) == c
  {
  }

  /** A numeral of `w` digits reads back as the number it prints, when the number fits. */
  lemma {:induction false} NumeralValue(n: nat, w: nat)
    requires n < Pow10(w)
    ensures DecimalValue(Numeral(n, w)) == n
    decreases w
  {
    if w > 0 {
      var s := Numeral(n, w);
      assert n / 10 < Pow10(w - 1) by {
        assert 10 * (n / 10) <= n < 10 * Pow10(w - 1);
      }
      NumeralValue(n / 10, w - 1);
      DecimalLast(s);
      assert s[..|s| - 1] == Numeral(n / 10, w - 1);
    }
  }

  /** A string of `w` digits is a numeral of `w` digits: printing its value gives it back. */
  lemma {:induction false} NumeralOfValue(s: string)
    requires AllDigits(s)
    ensures DecimalValue(s) < Pow10(|s|)
    ensures Numeral(DecimalValue(s), |s|) == s
    decreases |s|
  {
    if s != [] {
      var init, c := s[..|s| - 1], s[|s| - 1];
      DecimalLast(s);
      NumeralOfValue(init);
      var v := DecimalValue(s);
      assert v / 10 == DecimalValue(init) && v % 10 == DigitValue(c);
      DigitRoundTrip(c);
      assert s == init + [c];
    }
  }

  lemma Pad2Value(n: int)
    requires 0 <= n <= 99
    ensures AllDigits(Pad2(n)) && DecimalValue(Pad2(n)) == n
  {
    NumeralValue(n, 2);
  }

  lemma Pad4Value(n: int)
    requires 0 <= n <= 9999
    ensures AllDigits(Pad4(n)) && DecimalValue(Pad4(n)) == n
  {
    NumeralValue(n, 4);
  }

  /** The value of one digit. */
  lemma OneDigitValue(s: string)
    requires |s| == 1 && AllDigits(s)
    ensures DecimalValue(s) == DigitValue(s[0])
  {
    assert s[..0] == [];
  }

  /** A number below ten prints as a zero and its digit. */
  lemma PadOneDigit(v: int)
    requires 0 <= v <= 9
    ensures Pad2(v) == ['0', Digit(v)]
  {
    assert Numeral(v / 10, 1) == ['0'];
  }

  /** The value of two digits. */
  lemma TwoDigitValue(s: string)
    requires |s| == 2 && AllDigits(s)
    ensures DecimalValue(s) == 10 * DigitValue(s[0]) + DigitValue(s[1])
  {
    DecimalLast(s);
    assert s[..1] == [s[0]];
    DecimalLast(s[..1]);
    assert s[..1][..0] == [];
  }

  /** Two digits print back as themselves. */
  lemma TwoDigits(s: string)
    requires |s| == 2 && AllDigits(s)
    ensures DecimalValue(s) <= 99 && Pad2(DecimalValue(s)) == s
  {
    NumeralOfValue(s);
  }

  /** Four digits print back as themselves. */
  lemma FourDigits(s: string)
    requires |s| == 4 && AllDigits(s)
    ensures DecimalValue(s) <= 9999 && Pad4(DecimalValue(s)) == s
  {
    NumeralOfValue(s);
  }

  /** Reading back a printed date gives the date. */
  lemma ParsePrinted(d: Date)
    requires Valid(d)
    ensures ParseFullDate(FullDate(d)) == Some(d)
  {
    var s := FullDate(d);
    assert s[..4] == Pad4(d.year);
    assert s[5..7] == Pad2(d.month);
    assert s[8..] == Pad2(d.day);
    Pad4Value(d.year);
    Pad2Value(d.month);
    Pad2Value(d.day);
  }

  /** Printing is injective, and a printed date is always ten characters long. */
  lemma FullDateInjective(a: Date, b: Date)
    requires Valid(a) && Valid(b)
    ensures FullDate(a) == FullDate(b) <==> a == b
    ensures |FullDate(a)| == 10
  {
    ParsePrinted(a);
    ParsePrinted(b);
  }

  /** `toISOString().slice(0, 10)` of the UTC midnight of day `n`. */
  function DayKey(n: int): string
    requires 0 <= n < DayLimit
  {
    FullDate(CivilFromDay(n))
  }

  /** Two days share a key exactly when they are the same day. */
  lemma DayKeyInjective(a: int, b: int)
    requires 0 <= a < DayLimit && 0 <= b < DayLimit
    ensures DayKey(a) == DayKey(b) <==> a == b
  {
    FullDateInjective(CivilFromDay(a), CivilFromDay(b));
  }

  /** The key of a day is the printed form of the date it stands for. */
  lemma DayKeyOfDate(d: Date)
    requires Valid(d)
    ensures DayKey(DayNumber(d)) == FullDate(d)
  {
    CivilRoundTrip(d);
  }

  /** Minutes since UTC midnight of an instant given in milliseconds (floored, as
      `Date` does for instants before the epoch). */
  function MinuteOfDay(ms: int): (m: int)
    ensures 0 <= m < 1440
  {
    (ms % MillisPerDay) / MillisPerMinute
  }

  /** `toISOString().slice(11, 16)`: `HH:MM` of the UTC time of day. */
  function ClockText(ms: int): (s: string)
    ensures |s| == 5 && s[2] == ':'
  {
    var m := MinuteOfDay(ms);
    Pad2(m / 60) + ":" + Pad2(m % 60)
  }

  /** `toISOString().slice(11, 13)`: the two-digit UTC hour. */
  function HourText(ms: int): (s: string)
    ensures |s| == 2
  {
    Pad2(MinuteOfDay(ms) / 60)
  }

  /** The printed clock reads back as the instant's hour and minute. */
  lemma ClockTextValue(ms: int)
    ensures var s := ClockText(ms);
      AllDigits(s[..2]) && AllDigits(s[3..])
      && 60 * DecimalValue(s[..2]) + DecimalValue(s[3..]) == MinuteOfDay(ms)
  {
    var m := MinuteOfDay(ms);
    var s := ClockText(ms);
    assert s[..2] == Pad2(m / 60);
    assert s[3..] == Pad2(m % 60);
    Pad2Value(m / 60);
    Pad2Value(m % 60);
  }

  /** The printed hour reads back as the instant's hour, and it is the first two
      characters of the printed clock. */
  lemma HourTextValue(ms: int)
    ensures AllDigits(HourText(ms)) && DecimalValue(HourText(ms)) == MinuteOfDay(ms) / 60
    ensures HourText(ms) == ClockText(ms)[..2]
  {
    var m := MinuteOfDay(ms);
    Pad2Value(m / 60);
    assert ClockText(ms)[..2] == Pad2(m / 60);
  }
}

=== FILE: notification.dfy ===
/** Notifications: who sees which, the payload each one is formatted into (with the loan
    amount for loan requests), and single and bulk deletion. */
module Notifications {
  import opened Common
  import opened Entities

  const NotFound := "Notification not found"
  const Deleted := "Notification deleted successfully"
  const AllDeleted := "All notifications deleted successfully"
  const LoanRequest := "loan request"

  /** Admins see what is addressed to them and what is addressed to no one; for any
      other user no receiver condition is applied. */
  predicate VisibleTo(u: User, n: Notification)
    ensures u.kind != Admin ==> VisibleTo(u, n)
    ensures n.receiver_id.None? || n.receiver_id == Some(u.id) ==> VisibleTo(u, n)
    ensures u.kind == Admin && n.receiver_id.Some? && n.receiver_id.value != u.id ==> !VisibleTo(u, n)
  {
    u.kind == Admin ==> n.receiver_id == Some(u.id) || n.receiver_id.None?
  }

  function Visible(u: User): Notification -> bool {
    n => VisibleTo(u, n)
  }

  /** The payload of one notification, in the shape the socket events use. The avatar
      stands for the URL built from it. */
  datatype Formatted = Formatted(
    receiver_id: Option<string>,
    sender_id: Option<string>,
    sender_name: string,
    sender_image: Option<string>,
    text: string,
    amount: Option<real>,
    kind: string,
    entity_id: Option<string>,
    id: string,
    created_at: int)

  /** Loan `i` is the first one stored under `id`. */
  predicate FirstWithId(loans: seq<Loan>, id: string, i: int) {
    0 <= i < |loans| && loans[i].id == id && forall j :: 0 <= j < i ==> loans[j].id != id
  }

  /** `loan?.loan_amount || null`; the amount is a decimal object, truthy whenever present. */
  function LoanAmount(loans: seq<Loan>, id: string): (r: Option<real>)
    ensures r.Some? ==> exists i :: 0 <= i < |loans| && loans[i].id == id && loans[i].loan_amount == r
    ensures (forall i :: 0 <= i < |loans| ==> loans[i].id != id) ==> r.None?
    ensures forall i :: FirstWithId(loans, id, i) ==> r == loans[i].loan_amount
  {
    if loans == [] then None
    else if loans[0].id == id then loans[0].loan_amount
    else
      var r := LoanAmount(loans[1..], id);
      assert r.Some? ==> exists i :: 0 <= i < |loans| && loans[i].id == id && loans[i].loan_amount == r by {
        if r.Some? {
          var i :| 0 <= i < |loans[1..]| && loans[1..][i].id == id && loans[1..][i].loan_amount == r;
          assert loans[i + 1] == loans[1..][i];
        }
      }
      r
  }

  function EventText(n: Notification): Option<string> {
    if n.event.Some? then n.event.value.text else None
  }

  function EventKind(n: Notification): Option<string> {
    if n.event.Some? then n.event.value.kind else None
  }

  /** The condition under which the loan is looked up: an entity id, and an event text
      mentioning a loan request. */
  predicate IsLoanRequest(n: Notification) {
    Given(n.entity_id) && EventText(n).Some? && Includes(EventText(n).value, LoanRequest)
  }

  /** The formatting step of `findAll` for one notification. */
  function Format(n: Notification, loans: seq<Loan>): (f: Formatted)
    ensures f.id == n.id && f.receiver_id == n.receiver_id && f.sender_id == n.sender_id
    ensures f.entity_id == n.entity_id && f.created_at == n.created_at
    ensures f.sender_name == (if Given(n.sender_name) then n.sender_name.value else "Unknown")
    ensures f.sender_image == (if Given(n.sender_avatar) then n.sender_avatar else None)
    ensures f.text == (if Given(EventText(n)) then EventText(n).value else "Notification")
    ensures f.kind == (if Given(EventKind(n)) then EventKind(n).value else "message")
    ensures f.amount.Some? ==> IsLoanRequest(n)
    ensures f.amount.Some? ==> exists i :: 0 <= i < |loans| && loans[i].id == n.entity_id.value && loans[i].loan_amount == f.amount
    ensures IsLoanRequest(n) ==> f.amount == LoanAmount(loans, n.entity_id.value)
  {
    Formatted(
      n.receiver_id,
      n.sender_id,
      if Given(n.sender_name) then n.sender_name.value else "Unknown",
      if Given(n.sender_avatar) then n.sender_avatar else None,
      if Given(EventText(n)) then EventText(n).value else "Notification",
      if IsLoanRequest(n) then LoanAmount(loans, n.entity_id.value) else None,
      if Given(EventKind(n)) then EventKind(n).value else "message",
      n.entity_id,
      n.id,
      n.created_at)
  }

  function FormatAll(ns: seq<Notification>, loans: seq<Loan>): (r: seq<Formatted>)
    ensures |r| == |ns|
    ensures forall i :: 0 <= i < |r| ==> r[i] == Format(ns[i], loans)
  {
    seq(|ns|, i requires 0 <= i < |ns| => Format(ns[i], loans))
  }

  /** `NotificationService.findAll`: the notifications the user may see, in stored order,
      each formatted. An unknown user makes the type check throw. */
  function FindAll(users: seq<User>, notifications: seq<Notification>, loans: seq<Loan>, userId: string)
    : (r: Response<seq<Formatted>>)
    ensures r.Ok? || r.Caught?
    ensures r.Caught? <==> UserById(users, userId).None?
    ensures r.Ok? ==>
      var fetched := Filter(notifications, Visible(UserById(users, userId).value));
      && |r.data| == |fetched|
      && forall i :: 0 <= i < |r.data| ==> r.data[i] == Format(fetched[i], loans)
  {
    match UserById(users, userId)
    case None => Caught("user")
    case Some(u) => Ok(FormatAll(Filter(notifications, Visible(u)), loans))
  }

  /** What an admin is shown is exactly the notifications addressed to them or to no
      one; any other user is shown every notification, in stored order. */
  lemma FindAllVisibility(users: seq<User>, notifications: seq<Notification>, loans: seq<Loan>, userId: string)
    requires UserById(users, userId).Some?
    ensures var r := FindAll(users, notifications, loans, userId);
      && r.Ok?
      && (UserById(users, userId).value.kind == Admin ==> forall n :: n in notifications ==>
            ((exists i :: 0 <= i < |r.data| && r.data[i].id == n.id && r.data[i] == Format(n, loans))
              <== n.receiver_id == Some(userId) || n.receiver_id.None?))
      && (UserById(users, userId).value.kind == Admin ==> forall i :: 0 <= i < |r.data| ==>
            r.data[i].receiver_id == Some(userId) || r.data[i].receiver_id.None?)
      && (UserById(users, userId).value.kind != Admin ==> r.data == FormatAll(notifications, loans))
  {
    var u := UserById(users, userId).value;
    var fetched := Filter(notifications, Visible(u));
    var r := FindAll(users, notifications, loans, userId);
    if u.kind == Admin {
      forall n | n in notifications && (n.receiver_id == Some(userId) || n.receiver_id.None?)
        ensures exists i :: 0 <= i < |r.data| && r.data[i].id == n.id && r.data[i] == Format(n, loans)
      {
        assert n in fetched;
        var i :| 0 <= i < |fetched| && fetched[i] == n;
        assert r.data[i] == Format(n, loans);
      }
      forall i | 0 <= i < |r.data| ensures r.data[i].receiver_id == Some(userId) || r.data[i].receiver_id.None? {
        assert fetched[i] in fetched;
      }
    } else {
      FilterAll(notifications, Visible(u));
    }
  }

  /** The formatted list keeps the fetched order: the notifications before a cut point
      are formatted before those after it. */
  lemma FormatKeepsOrder(ns: seq<Notification>, loans: seq<Loan>, k: nat)
    requires k <= |ns|
    ensures FormatAll(ns, loans) == FormatAll(ns[..k], loans) + FormatAll(ns[k..], loans)
  {
  }

  /** A formatted notification carries an amount only for a loan request whose loan
      exists with an amount. */
  lemma AmountOnlyForLoans(n: Notification, loans: seq<Loan>)
    ensures Format(n, loans).amount.Some? <==> IsLoanRequest(n) && LoanAmount(loans, n.entity_id.value).Some?
  {
  }

  /** A notification without a sender name, event text or event type is shown with the
      fallbacks. */
  lemma Fallbacks(n: Notification, loans: seq<Loan>)
    requires n.sender_name.None? && n.event.None?
    ensures var f := Format(n, loans);
      f.sender_name == "Unknown" && f.text == "Notification" && f.kind == "message" && f.amount.None?
  {
  }

  predicate HasId(ns: seq<Notification>, id: string) {
    exists i :: 0 <= i < |ns| && ns[i].id == id
  }

  /** `NotificationService.remove`: an unknown id is reported and nothing is deleted;
      otherwise the notification with that id is deleted and the rest remain. */
  function Remove(notifications: seq<Notification>, id: string): (r: Step<string, seq<Notification>>)
    ensures r.response.Ok? || r.response.Fail?
    ensures r.response.Fail? <==> !HasId(notifications, id)
    ensures r.response.Fail? ==> r.response.message == NotFound && r.store == notifications
    ensures r.response.Ok? ==> r.response.data == Deleted && |r.store| < |notifications|
    ensures forall n :: n in r.store <==> n in notifications && n.id != id
  {
    if !HasId(notifications, id) then
      assert forall n :: n in notifications ==> n.id != id;
      Step(Fail(NotFound), notifications)
    else
      var rest := Filter(notifications, (n: Notification) => n.id != id);
      FilterCount(notifications, (n: Notification) => n.id != id);
      CountBelow(notifications, (n: Notification) => n.id != id);
      Step(Ok(Deleted), rest)
  }

  /** A filter that drops some element counts fewer than all. */
  lemma {:induction false} CountBelow<T>(s: seq<T>, p: T -> bool)
    requires exists i :: 0 <= i < |s| && !p(s[i])
    ensures CountWhere(s, p) < |s|
  {
    var init := s[..|s| - 1];
    if p(s[|s| - 1]) {
      var i :| 0 <= i < |s| && !p(s[i]);
      assert init[i] == s[i];
      CountBelow(init, p);
    }
  }

  /** The rows `removeAll` targets: addressed to the user or to no one. */
  predicate ForUser(userId: string, n: Notification) {
    n.receiver_id == Some(userId) || n.receiver_id.None?
  }

  /** `NotificationService.removeAll`: reports when nothing targets the user; otherwise
      deletes exactly the targeted rows and keeps every other row, in order. */
  function RemoveAll(notifications: seq<Notification>, userId: string): (r: Step<string, seq<Notification>>)
    ensures r.response.Ok? || r.response.Fail?
    ensures r.response.Fail? <==> CountWhere(notifications, (n: Notification) => ForUser(userId, n)) == 0
    ensures r.response.Fail? ==> r.response.message == NotFound && r.store == notifications
    ensures r.response.Ok? ==> r.response.data == AllDeleted
    ensures forall n :: n in r.store <==> n in notifications && !ForUser(userId, n)
    ensures |r.store| == |notifications| - CountWhere(notifications, (n: Notification) => ForUser(userId, n))
  {
    var targeted := Filter(notifications, (n: Notification) => ForUser(userId, n));
    FilterCount(notifications, (n: Notification) => ForUser(userId, n));
    if |targeted| == 0 then
      NoneTargeted(notifications, userId);
      Step(Fail(NotFound), notifications)
    else
      var kept := Filter(notifications, (n: Notification) => !ForUser(userId, n));
      FilterCount(notifications, (n: Notification) => !ForUser(userId, n));
      CountSplit(notifications, (n: Notification) => ForUser(userId, n), (n: Notification) => !ForUser(userId, n));
      Step(Ok(AllDeleted), kept)
  }

  lemma NoneTargeted(notifications: seq<Notification>, userId: string)
    requires |Filter(notifications, (n: Notification) => ForUser(userId, n))| == 0
    ensures forall n :: n in notifications ==> !ForUser(userId, n)
  {
    var targeted := Filter(notifications, (n: Notification) => ForUser(userId, n));
    assert forall n :: n in notifications && ForUser(userId, n) ==> n in targeted;
  }

  /** A filter and its complement count the whole sequence between them. */
  lemma {:induction false} CountSplit<T>(s: seq<T>, p: T -> bool, q: T -> bool)
    requires forall x :: q(x) == !p(x)
    ensures CountWhere(s, p) + CountWhere(s, q) == |s|
  {
    if s != [] {
      CountSplit(s[..|s| - 1], p, q);
    }
  }

  /** After a successful `removeAll`, a second one for the same user reports that
      nothing is left to delete. */
  lemma RemoveAllTwice(notifications: seq<Notification>, userId: string)
    ensures RemoveAll(RemoveAll(notifications, userId).store, userId).response == Fail(NotFound)
  {
    var rest := RemoveAll(notifications, userId).store;
    NoneLeft(rest, userId);
  }

  lemma {:induction false} NoneLeft(s: seq<Notification>, userId: string)
    requires forall n :: n in s ==> !ForUser(userId, n)
    ensures CountWhere(s, (n: Notification) => ForUser(userId, n)) == 0
  {
    if s != [] {
      assert s[|s| - 1] in s;
      NoneLeft(s[..|s| - 1], userId);
    }
  }
}

=== FILE: pagination.dfy ===
/** Paging of every `findAll` listing. The page number and the page size are read from
    the query text with JavaScript's `parseInt` in base ten; a result that is `NaN` or zero
    falls back to page one and to ten rows. The offset is the number of rows on the pages
    before the requested one, and the page count is the total divided by the page size,
    rounded up.

    `parseInt` is modelled on its integer prefix: leading white space, an optional
    sign, then the longest run of decimal digits; no digit at all is `NaN`. */
module Pagination {
  import opened Common
  import opened IsoDate

  const DefaultPage := 1
  const DefaultLimit := 10

  /** The white space `parseInt` skips (`StrWhiteSpaceChar` of ECMA-262): tab, vertical
      tab, form feed, the byte order mark, the space separators of Unicode category Zs,
      and the four line terminators. */
  predicate IsSpace(c: char) {
    c == '\t' || c == '\U{000B}' || c == '\U{000C}' || c == '\U{FEFF}'
    || c == ' ' || c == '\U{00A0}' || c == '\U{1680}' || '\U{2000}' <= c <= '\U{200A}'
    || c == '\U{202F}' || c == '\U{205F}' || c == '\U{3000}'
    || c == '\n' || c == '\r' || c == '\U{2028}' || c == '\U{2029}'
  }

  function SkipSpace(s: string): (r: string)
    ensures r == [] || !IsSpace(r[0])
  {
    if s != [] && IsSpace(s[0]) then SkipSpace(s[1..]) else s
  }

  /** What the white-space scan drops is a prefix of white space, and what it keeps is
      the rest of the text. */
  lemma {:induction false} SkipSpaceSkipsBlanks(s: string)
    ensures |SkipSpace(s)| <= |s|
    ensures SkipSpace(s) == s[|s| - |SkipSpace(s)|..]
    ensures forall i :: 0 <= i < |s| - |SkipSpace(s)| ==> IsSpace(s[i])
    decreases |s|
  {
    if s != [] && IsSpace(s[0]) {
      SkipSpaceSkipsBlanks(s[1..]);
      assert SkipSpace(s) == SkipSpace(s[1..]);
      forall i | 1 <= i < |s| - |SkipSpace(s)|
        ensures IsSpace(s[i])
      {
        assert s[i] == s[1..][i - 1];
      }
    }
  }

  /** The longest prefix of `s` made of decimal digits. */
  function DigitPrefix(s: string): (r: string)
    ensures AllDigits(r) && r <= s
    ensures |r| == |s| || !IsDigit(s[|r|])
  {
    if s != [] && IsDigit(s[0]) then [s[0]] + DigitPrefix(s[1..]) else []
  }

  /** `parseInt(s, 10)`; `None` stands for `NaN`. */
  function ParseInt(s: string): (r: Option<int>)
    ensures r.None? <==> DigitPrefix(SkipSignOf(SkipSpace(s))) == []
  {
    ReadSigned(SkipSpace(s))
  }

  /** The sign and digit run that follow the white space. */
  function ReadSigned(t: string): (r: Option<int>)
    ensures r.None? <==> DigitPrefix(SkipSignOf(t)) == []
  {
    var digits := DigitPrefix(SkipSignOf(t));
    if digits == [] then None
    else if t[0] == '-' then Some(-(DecimalValue(digits) as int))
    else Some(DecimalValue(digits))
  }

  function SkipSignOf(t: string): string {
    if t != [] && (t[0] == '-' || t[0] == '+') then t[1..] else t
  }

  /** `parseInt(s, 10) || fallback`: `NaN` and zero are both falsy. */
  function ParseOr(s: Option<string>, fallback: int): (r: int)
    requires fallback != 0
    ensures r != 0
    ensures s.None? ==> r == fallback
    ensures s.Some? && ParseInt(s.value).Some? && ParseInt(s.value).value != 0
      ==> r == ParseInt(s.value).value
    ensures s.Some? && (ParseInt(s.value).None? || ParseInt(s.value) == Some(0)) ==> r == fallback
  {
    if s.None? then fallback
    else match ParseInt(s.value)
      case None => fallback
      case Some(v) => if v == 0 then fallback else v
  }

  datatype Paging = Paging(page: int, size: int, skip: int)

  /** Page number, page size and offset of a listing request. The query defaults
      `page = '1'` and `limit = '10'` apply to absent parameters; the `||` fallbacks
      apply to anything that parses to `NaN` or zero. */
  function PagingOf(page: Option<string>, limit: Option<string>): (p: Paging)
    ensures p.page != 0 && p.size != 0
    ensures p.skip == (p.page - 1) * p.size
  {
    var pageNumber := ParseOr(page, DefaultPage);
    var pageSize := ParseOr(limit, DefaultLimit);
    Paging(pageNumber, pageSize, (pageNumber - 1) * pageSize)
  }

  /** `Math.ceil(a / b)` for integers, `b != 0`. */
  function CeilDiv(a: int, b: int): (r: int)
    requires b != 0
    ensures (r - 1) as real < a as real / b as real <= r as real
  {
    var q := a / b;
    DivisionBounds(a, b);
    if b > 0 && a % b != 0 then q + 1 else q
  }

  /** Euclidean division against real division: `a / b` is the floor of the real quotient
      for a positive divisor, and its ceiling for a negative one. */
  lemma DivisionBounds(a: int, b: int)
    requires b != 0
    ensures b > 0 ==> (a / b) as real <= a as real / b as real < (a / b + 1) as real
    ensures b > 0 ==> (a % b == 0 <==> (a / b) as real == a as real / b as real)
    ensures b < 0 ==> (a / b - 1) as real < a as real / b as real <= (a / b) as real
  {
    var q, r := a / b, a % b;
    assert a == b * q + r && 0 <= r < if b > 0 then b else -b;
    assert a as real == b as real * q as real + r as real;
    if b > 0 {
      assert a as real / b as real == q as real + r as real / b as real;
    } else {
      assert a as real / b as real == q as real + r as real / b as real;
      assert r as real / b as real <= 0.0;
      assert r as real < -(b as real);
      assert r as real / b as real > -1.0;
    }
  }

  datatype Meta = Meta(total: nat, page: int, limit: int, totalPages: int)

  /** The `meta` block of a listing. */
  function MetaOf(total: nat, p: Paging): (m: Meta)
    requires p.size != 0
    ensures m.total == total && m.page == p.page && m.limit == p.size
    ensures p.size > 0 ==> (m.totalPages - 1) * p.size < total <= m.totalPages * p.size
  {
    var pages := CeilDiv(total, p.size);
    CeilTimesDivisor(total, p.size, pages);
    Meta(total, p.page, p.size, pages)
  }

  lemma CeilTimesDivisor(a: int, b: int, r: int)
    requires b != 0 && (r - 1) as real < a as real / b as real <= r as real
    ensures b > 0 ==> (r - 1) * b < a <= r * b
  {
    if b > 0 {
      assert (r - 1) as real * b as real < a as real / b as real * b as real;
      assert a as real / b as real * b as real <= r as real * b as real;
    }
  }

  /** The `skip`/`take` window the ORM applies to the matching rows. A negative offset
      is refused by the ORM, reported here as `None`; so is a negative `take`, whose
      reverse-paging meaning is not modelled. */
  function Window<T>(rows: seq<T>, skip: int, take: int): (r: Option<seq<T>>)
    ensures r.Some? <==> skip >= 0 && take >= 0
    ensures r.Some? ==> |r.value| <= take
    ensures r.Some? ==> forall i :: 0 <= i < |r.value| ==> skip + i < |rows| && r.value[i] == rows[skip + i]
    ensures r.Some? && skip + take <= |rows| ==> |r.value| == take
    ensures r.Some? && skip + take > |rows| ==> |r.value| == (if skip < |rows| then |rows| - skip else 0)
  {
    if skip < 0 || take < 0 then None
    else if skip >= |rows| then Some([])
    else if skip + take >= |rows| then Some(rows[skip..])
    else Some(rows[skip..skip + take])
  }

  /** Absent page and limit mean the first ten rows. */
  lemma DefaultPaging()
    ensures PagingOf(None, None) == Paging(1, 10, 0)
  {
  }

  /** A plain decimal numeral parses to its value. */
  lemma {:induction false} ParseDecimal(s: string)
    requires s != [] && AllDigits(s)
    ensures ParseInt(s) == Some(DecimalValue(s))
  {
    assert SkipSpace(s) == s;
    assert SkipSignOf(s) == s;
    AllDigitsPrefix(s);
  }

  /** `parseInt` reads any text made of white space, an optional sign, a run of digits and
      a tail that does not start with a digit as the signed value of the digits. */
  lemma {:induction false} ParseSigned(ws: string, sign: string, digits: string, rest: string)
    requires forall i :: 0 <= i < |ws| ==> IsSpace(ws[i])
    requires sign == "" || sign == "+" || sign == "-"
    requires digits != [] && AllDigits(digits)
    requires rest == [] || !IsDigit(rest[0])
    ensures ParseInt(ws + sign + digits + rest)
      == Some(if sign == "-" then -(DecimalValue(digits) as int) else DecimalValue(digits))
  {
    var u := digits + rest;
    var t := sign + u;
    assert ws + sign + digits + rest == ws + t;
    if sign == "" {
      assert t == u && t[0] == digits[0];
    } else {
      assert t[0] == sign[0] && t[1..] == u;
    }
    SpacePrefix(ws, t);
    assert SkipSignOf(t) == u;
    DigitRun(digits, rest);
    ParseSkipped(ws + t, t, digits);
  }

  /** `ParseInt` once the white space and the digit run are known. */
  lemma ParseSkipped(s: string, t: string, digits: string)
    requires t != [] && SkipSpace(s) == t && DigitPrefix(SkipSignOf(t)) == digits && digits != []
    ensures ParseInt(s) == Some(if t[0] == '-' then -(DecimalValue(digits) as int) else DecimalValue(digits))
  {
    assert ParseInt(s) == ReadSigned(t);
  }

  lemma {:induction false} SpacePrefix(ws: string, t: string)
    requires forall i :: 0 <= i < |ws| ==> IsSpace(ws[i])
    requires t == [] || !IsSpace(t[0])
    ensures SkipSpace(ws + t) == t
    decreases |ws|
  {
    if ws == [] {
      assert ws + t == t;
    } else {
      assert (ws + t)[1..] == ws[1..] + t;
      SpacePrefix(ws[1..], t);
    }
  }

  lemma {:induction false} DigitRun(digits: string, rest: string)
    requires AllDigits(digits)
    requires rest == [] || !IsDigit(rest[0])
    ensures DigitPrefix(digits + rest) == digits
    decreases |digits|
  {
    if digits == [] {
      assert digits + rest == rest;
    } else {
      assert (digits + rest)[1..] == digits[1..] + rest;
      DigitRun(digits[1..], rest);
    }
  }

  lemma {:induction false} AllDigitsPrefix(s: string)
    requires AllDigits(s)
    ensures DigitPrefix(s) == s
    decreases |s|
  {
    if s != [] {
      AllDigitsPrefix(s[1..]);
    }
  }

  lemma QuotientBelow(q: int, t: int, size: int)
    requires size > 0 && q * size < t * size
    ensures q < t
  {
    assert (t - q) * size > 0;
  }

  /** With a positive page size, pages `1 .. totalPages` partition the `total` matching rows:
      row `j` lands on page `j / size + 1`, which never exceeds `totalPages`, and the last
      page is not empty. */
  lemma PagesCoverRows(total: nat, p: Paging, j: nat)
    requires p.size > 0 && j < total
    ensures 1 <= j / p.size + 1 <= MetaOf(total, p).totalPages
    ensures (MetaOf(total, p).totalPages - 1) * p.size < total
  {
    var m := MetaOf(total, p);
    assert (j / p.size) * p.size <= j < m.totalPages * p.size;
    QuotientBelow(j / p.size, m.totalPages, p.size);
  }

  datatype Page<T> = Page(meta: Meta, data: seq<T>)

  /** A `findAll` listing: count the rows the filter keeps, then fetch one window of them.
      The ORM's `orderBy` is abstracted: `rows` is taken to be in fetch order. */
  function List<T>(rows: seq<T>, keep: T -> bool, page: Option<string>, limit: Option<string>)
    : (r: Response<Page<T>>)
    ensures r.Ok? || r.Caught?
    ensures var p := PagingOf(page, limit); r.Ok? <==> p.page >= 1 && p.size >= 1
    ensures r.Ok? ==> r.data.meta == MetaOf(CountWhere(rows, keep), PagingOf(page, limit))
    ensures r.Ok? ==> |r.data.data| <= PagingOf(page, limit).size
    ensures r.Ok? ==> forall x :: x in r.data.data ==> x in rows && keep(x)
    ensures var p := PagingOf(page, limit); r.Ok? ==> Window(Filter(rows, keep), p.skip, p.size) == Some(r.data.data)
  {
    ListPage(rows, keep, PagingOf(page, limit))
  }

  /** The listing for an already computed page number, size and offset. */
  function ListPage<T>(rows: seq<T>, keep: T -> bool, p: Paging): (r: Response<Page<T>>)
    requires p.size != 0 && p.skip == (p.page - 1) * p.size
    ensures r.Ok? || r.Caught?
    ensures r.Ok? <==> p.page >= 1 && p.size >= 1
    ensures r.Ok? ==> r.data.meta == MetaOf(CountWhere(rows, keep), p)
    ensures r.Ok? ==> |r.data.data| <= p.size
    ensures r.Ok? ==> forall x :: x in r.data.data ==> x in rows && keep(x)
    ensures r.Ok? ==> Window(Filter(rows, keep), p.skip, p.size) == Some(r.data.data)
  {
    var matching := Filter(rows, keep);
    FilterCount(rows, keep);
    SkipSign(p);
    if p.skip < 0 || p.size < 0 then Caught("orm")
    else
      var w := Window(matching, p.skip, p.size).value;
      WindowMembers(matching, p.skip, p.size);
      Ok(Page(MetaOf(|matching|, p), w))
  }

  /** Every row of a window is a row of the listing it was cut from. */
  lemma WindowMembers<T>(rows: seq<T>, skip: int, take: int)
    requires skip >= 0 && take >= 0
    ensures Window(rows, skip, take).Some?
    ensures forall x :: x in Window(rows, skip, take).value ==> x in rows
  {
    var w := Window(rows, skip, take).value;
    forall x | x in w ensures x in rows {
      var i :| 0 <= i < |w| && w[i] == x;
      assert rows[skip + i] == x;
    }
  }

  lemma SkipSign(p: Paging)
    requires p.size != 0 && p.skip == (p.page - 1) * p.size
    ensures p.skip >= 0 && p.size >= 0 <==> p.page >= 1 && p.size >= 1
  {
    if p.size > 0 && p.page < 1 {
      assert (p.page - 1) * p.size < 0;
    }
  }
}

=== FILE: project.dfy ===
/** The project service: creation with its initial assignees, the update that replaces
    the assignee list, and the project listing. */
module Projects {
  import opened Common
  import opened Entities
  import opened Pagination
  import opened IsoDate

  /** The tables the project service touches. */
  datatype Store = Store(projects: seq<Project>, assignees: seq<Assignee>, users: seq<User>)

  /** Every id a nested `connect` names is a stored user; otherwise the whole write fails. */
  predicate AllUsersExist(users: seq<User>, ids: seq<string>) {
    forall i :: 0 <= i < |ids| ==> UserExists(users, ids[i])
  }

  /** An owner id, when one is given, names a stored user; otherwise the write fails on
      the project's foreign key. */
  predicate OwnerExists(users: seq<User>, userId: Option<string>) {
    Given(userId) ==> UserExists(users, userId.value)
  }

  /** `assignees.map(userId => ({ user: { connect: { id: userId } } }))` under a project:
      one join row per listed id, in list order, with the columns' zero totals. */
  function RowsFor(projectId: string, ids: seq<string>): (r: seq<Assignee>)
    ensures |r| == |ids|
    ensures forall i :: 0 <= i < |r| ==> r[i] == Assignee(projectId, ids[i], 0.0, 0.0)
  {
    seq(|ids|, i requires 0 <= i < |ids| => Assignee(projectId, ids[i], 0.0, 0.0))
  }

  function OfProject(projectId: string): Assignee -> bool {
    (a: Assignee) => a.project_id == projectId
  }

  function OtherProject(projectId: string): Assignee -> bool {
    (a: Assignee) => a.project_id != projectId
  }

  predicate ProjectIdUnused(s: Store, id: string) {
    && (forall i :: 0 <= i < |s.projects| ==> s.projects[i].id != id)
    && (forall i :: 0 <= i < |s.assignees| ==> s.assignees[i].project_id != id)
  }

  /** A written project as `include: { assignees: true }` returns it: the row and its
      join rows as they stand after the write. */
  datatype Saved = Saved(project: Project, assignees: seq<Assignee>)

  function Included(p: Project, rows: seq<Assignee>): (r: Saved)
    ensures r.project == p
    ensures forall a :: a in r.assignees <==> a in rows && a.project_id == p.id
  {
    Saved(p, Filter(rows, OfProject(p.id)))
  }

  /** Rows appended for a project that had none are exactly its rows afterwards. */
  lemma AddedRows(rows: seq<Assignee>, id: string, ids: seq<string>)
    requires forall i :: 0 <= i < |rows| ==> rows[i].project_id != id
    ensures Filter(rows + RowsFor(id, ids), OfProject(id)) == RowsFor(id, ids)
  {
    var added := RowsFor(id, ids);
    FilterConcat(rows, added, OfProject(id));
    FilterNone(rows, OfProject(id));
    FilterAll(added, OfProject(id));
  }

  /** After dropping a project's rows and appending new ones, its rows are the new ones. */
  lemma ReplacedRows(rows: seq<Assignee>, id: string, ids: seq<string>)
    ensures Filter(Filter(rows, OtherProject(id)) + RowsFor(id, ids), OfProject(id)) == RowsFor(id, ids)
  {
    var kept := Filter(rows, OtherProject(id));
    var added := RowsFor(id, ids);
    FilterConcat(kept, added, OfProject(id));
    FilterTwice(rows, OtherProject(id), OfProject(id), (a: Assignee) => false);
    FilterNone(rows, (a: Assignee) => false);
    FilterAll(added, OfProject(id));
  }

  // -------------------------------------------------------------------- create

  /** The body of `POST /project`; the two dates are instants, absent when not given. */
  datatype CreateDto = CreateDto(
    name: string,
    address: Option<string>,
    start_date: Option<int>,
    end_date: Option<int>,
    budget: Option<real>,
    cost: Option<real>,
    priority: Option<string>,
    userId: Option<string>,
    assignees: Option<seq<string>>)

  /** The ids `create` connects: none unless the list is present and non-empty. */
  function Listed(dto: CreateDto): (ids: seq<string>)
    ensures dto.assignees.None? ==> ids == []
    ensures dto.assignees.Some? ==> ids == dto.assignees.value
  {
    if dto.assignees.Some? && |dto.assignees.value| > 0 then dto.assignees.value else []
  }

  /** `ProjectService.create`. `newId` is the generated id and `defaultStatus` the
      column default of `status`, which the request cannot set. The reply carries the
      new project with its join rows. */
  function Create(s: Store, dto: CreateDto, newId: string, defaultStatus: int)
    : (r: Step<Saved, Store>)
    requires ProjectIdUnused(s, newId)
    ensures r.response.Ok? || r.response.Caught?
    ensures r.response.Caught? <==> !AllUsersExist(s.users, Listed(dto)) || !OwnerExists(s.users, dto.userId)
    ensures r.response.Caught? ==> r.store == s
    ensures r.response.Ok? ==>
      && r.response.data == Included(r.response.data.project, r.store.assignees)
      && r.response.data.assignees == RowsFor(newId, Listed(dto))
    ensures r.response.Ok? ==>
      var p := r.response.data.project;
      && p == Project(newId, dto.name, dto.address, dto.start_date, dto.end_date, dto.budget, dto.cost,
                      dto.priority, defaultStatus, if Given(dto.userId) then dto.userId else None, false)
      && r.store.projects == s.projects + [p]
      && r.store.assignees == s.assignees + RowsFor(newId, Listed(dto))
      && r.store.users == s.users
  {
    var ids := Listed(dto);
    if !AllUsersExist(s.users, ids) || !OwnerExists(s.users, dto.userId) then Step(Caught("orm"), s)
    else
      var p := Project(newId, dto.name, dto.address, dto.start_date, dto.end_date, dto.budget, dto.cost,
        dto.priority, defaultStatus, if Given(dto.userId) then dto.userId else None, false);
      var rows := s.assignees + RowsFor(newId, ids);
      AddedRows(s.assignees, newId, ids);
      Step(Ok(Included(p, rows)), s.(projects := s.projects + [p], assignees := rows))
  }

  /** A created project has exactly one assignee row per listed id, in list order, and
      none when the list is absent or empty. */
  lemma CreateAssigneeRows(s: Store, dto: CreateDto, newId: string, defaultStatus: int)
    requires ProjectIdUnused(s, newId)
    requires Create(s, dto, newId, defaultStatus).response.Ok?
    ensures var rows := Create(s, dto, newId, defaultStatus).store.assignees;
      && Filter(rows, OfProject(newId)) == RowsFor(newId, Listed(dto))
      && (dto.assignees.None? || dto.assignees == Some([]) ==> Filter(rows, OfProject(newId)) == [])
  {
    AddedRows(s.assignees, newId, Listed(dto));
  }

  // -------------------------------------------------------------------- update

  /** The body of `PATCH /project/:id`: every field optional. */
  datatype UpdateDto = UpdateDto(
    name: Option<string>,
    address: Option<string>,
    start_date: Option<int>,
    end_date: Option<int>,
    budget: Option<real>,
    cost: Option<real>,
    priority: Option<string>,
    userId: Option<string>,
    assignees: Option<seq<string>>)

  /** The scalar part of the update: an absent field leaves its column as it is, the
      owner changes only for a truthy `userId`, and the id, status and deletion mark are
      never touched. */
  function Apply(p: Project, dto: UpdateDto): (q: Project)
    ensures q.id == p.id && q.status == p.status && q.deleted == p.deleted
    ensures Given(dto.userId) ==> q.owner == dto.userId
    ensures !Given(dto.userId) ==> q.owner == p.owner
  {
    p.(name := dto.name.GetOr(p.name),
       address := if dto.address.Some? then dto.address else p.address,
       start_date := if dto.start_date.Some? then dto.start_date else p.start_date,
       end_date := if dto.end_date.Some? then dto.end_date else p.end_date,
       budget := if dto.budget.Some? then dto.budget else p.budget,
       cost := if dto.cost.Some? then dto.cost else p.cost,
       priority := if dto.priority.Some? then dto.priority else p.priority,
       owner := if Given(dto.userId) then dto.userId else p.owner)
  }

  /** Applying the same changes again changes nothing, and only the supplied fields
      change: a request with no field set leaves the project as it was. */
  lemma ApplyIdempotent(p: Project, dto: UpdateDto)
    ensures Apply(Apply(p, dto), dto) == Apply(p, dto)
    ensures dto.name.None? && dto.address.None? && dto.start_date.None? && dto.end_date.None?
      && dto.budget.None? && dto.cost.None? && dto.priority.None? && !Given(dto.userId)
      ==> Apply(p, dto) == p
  {
  }

  predicate ProjectExists(projects: seq<Project>, id: string) {
    exists i :: 0 <= i < |projects| && projects[i].id == id
  }

  function ApplyTo(projects: seq<Project>, id: string, dto: UpdateDto): (r: seq<Project>)
    ensures |r| == |projects|
    ensures forall i :: 0 <= i < |r| ==> r[i] == if projects[i].id == id then Apply(projects[i], dto) else projects[i]
  {
    seq(|projects|, i requires 0 <= i < |projects| => if projects[i].id == id then Apply(projects[i], dto) else projects[i])
  }

  /** `ProjectService.update`. With an assignee list, the project's join rows are all
      deleted and one row per listed id is created; without one they are left alone. An
      unknown project, owner or assignee makes the whole write fail. The reply carries the
      updated project with its join rows after the write. */
  function Update(s: Store, id: string, dto: UpdateDto): (r: Step<Saved, Store>)
    ensures r.response.Ok? || r.response.Caught?
    ensures r.response.Caught? <==>
      || !ProjectExists(s.projects, id)
      || !OwnerExists(s.users, dto.userId)
      || (dto.assignees.Some? && !AllUsersExist(s.users, dto.assignees.value))
    ensures r.response.Caught? ==> r.store == s
    ensures r.response.Ok? ==>
      && r.response.data.project in r.store.projects && r.response.data.project.id == id
      && r.store.projects == ApplyTo(s.projects, id, dto)
      && r.store.users == s.users
      && r.response.data == Included(r.response.data.project, r.store.assignees)
    ensures r.response.Ok? && dto.assignees.Some? ==> r.response.data.assignees == RowsFor(id, dto.assignees.value)
    ensures r.response.Ok? && dto.assignees.None? ==> r.response.data.assignees == Filter(s.assignees, OfProject(id))
    ensures r.response.Ok? && dto.assignees.Some? ==>
      r.store.assignees == Filter(s.assignees, OtherProject(id)) + RowsFor(id, dto.assignees.value)
    ensures dto.assignees.None? ==> r.store.assignees == s.assignees
  {
    match First(s.projects, (p: Project) => p.id == id)
    case None => Step(Caught("orm"), s)
    case Some(p) =>
      if !OwnerExists(s.users, dto.userId) || (dto.assignees.Some? && !AllUsersExist(s.users, dto.assignees.value)) then
        Step(Caught("orm"), s)
      else
        var projects := ApplyTo(s.projects, id, dto);
        var assignees :=
          if dto.assignees.Some? then Filter(s.assignees, OtherProject(id)) + RowsFor(id, dto.assignees.value)
          else s.assignees;
        var k :| 0 <= k < |s.projects| && s.projects[k] == p;
        assert projects[k] == Apply(p, dto);
        ReplacedRows(s.assignees, id, if dto.assignees.Some? then dto.assignees.value else []);
        Step(Ok(Included(Apply(p, dto), assignees)), s.(projects := projects, assignees := assignees))
  }

  /** With a list, the project's assignees become exactly that list and every other
      project's rows are kept as they were; without one nothing about assignees changes. */
  lemma UpdateReplacesAssignees(s: Store, id: string, dto: UpdateDto)
    requires Update(s, id, dto).response.Ok?
    ensures var rows := Update(s, id, dto).store.assignees;
      && (dto.assignees.Some? ==> Filter(rows, OfProject(id)) == RowsFor(id, dto.assignees.value))
      && Filter(rows, OtherProject(id)) == Filter(s.assignees, OtherProject(id))
      && (dto.assignees.None? ==> Filter(rows, OfProject(id)) == Filter(s.assignees, OfProject(id)))
  {
    if dto.assignees.Some? {
      var kept := Filter(s.assignees, OtherProject(id));
      var added := RowsFor(id, dto.assignees.value);
      ReplacedRows(s.assignees, id, dto.assignees.value);
      FilterConcat(kept, added, OtherProject(id));
      FilterTwice(s.assignees, OtherProject(id), OtherProject(id), OtherProject(id));
      FilterNone(added, OtherProject(id));
    }
  }

  /** Sending the same update twice leaves the store as the first one did. */
  lemma UpdateIdempotent(s: Store, id: string, dto: UpdateDto)
    requires Update(s, id, dto).response.Ok?
    ensures var once := Update(s, id, dto).store; Update(once, id, dto).store == once
  {
    var once := Update(s, id, dto).store;
    var k :| 0 <= k < |s.projects| && s.projects[k].id == id;
    assert once.projects[k].id == id;
    ApplyToIdempotent(s.projects, id, dto);
    if dto.assignees.Some? {
      ReplaceIdempotent(s.assignees, id, dto.assignees.value);
    }
  }

  lemma ApplyToIdempotent(projects: seq<Project>, id: string, dto: UpdateDto)
    ensures ApplyTo(ApplyTo(projects, id, dto), id, dto) == ApplyTo(projects, id, dto)
  {
    var once := ApplyTo(projects, id, dto);
    var twice := ApplyTo(once, id, dto);
    forall i | 0 <= i < |once| ensures twice[i] == once[i] {
      ApplyIdempotent(projects[i], dto);
    }
  }

  /** Replacing a project's rows by a list, twice, is replacing them once. */
  lemma ReplaceIdempotent(rows: seq<Assignee>, id: string, ids: seq<string>)
    ensures var once := Filter(rows, OtherProject(id)) + RowsFor(id, ids);
      Filter(once, OtherProject(id)) + RowsFor(id, ids) == once
  {
    var kept := Filter(rows, OtherProject(id));
    var added := RowsFor(id, ids);
    FilterConcat(kept, added, OtherProject(id));
    FilterTwice(rows, OtherProject(id), OtherProject(id), OtherProject(id));
    FilterNone(added, OtherProject(id));
    assert kept + [] == kept;
  }

  // ------------------------------------------------------------------- findAll

  /** The query of `GET /project`. */
  datatype Query = Query(
    search: Option<string>,
    priority: Option<string>,
    status: Option<string>,
    page: Option<string>,
    limit: Option<string>)

  /** The conditions the listing adds, each only when its parameter is truthy; no
      condition excludes soft-deleted projects. Case-insensitive `contains` is the
      abstract `matchText`, and a missing address matches no search. */
  predicate Satisfies(q: Query, statusValue: Option<int>, p: Project, matchText: (string, string) -> bool) {
    && (Given(q.priority) ==> p.priority == q.priority)
    && (statusValue.Some? ==> p.status == statusValue.value)
    && (Given(q.search) ==>
          || matchText(p.name, q.search.value)
          || (p.address.Some? && matchText(p.address.value, q.search.value)))
  }

  function Keep(q: Query, statusValue: Option<int>, matchText: (string, string) -> bool): Project -> bool {
    p => Satisfies(q, statusValue, p, matchText)
  }

  /** `ProjectService.findAll` as written: the `status` parameter is placed in the filter
      as text, while the column holds an integer, so the ORM rejects any query that
      supplies it. */
  function FindAll(projects: seq<Project>, q: Query, matchText: (string, string) -> bool)
    : (r: Response<Page<Project>>)
    ensures r.Ok? || r.Caught?
    ensures Given(q.status) ==> r.Caught?
    ensures !Given(q.status) ==> r == FindAllIntended(projects, q, matchText)
  {
    if Given(q.status) then Caught("orm")
    else List(projects, Keep(q, None, matchText), q.page, q.limit)
  }

  /** The listing with the status compared as the integer the text spells; text that
      spells no integer is still refused. */
  function FindAllIntended(projects: seq<Project>, q: Query, matchText: (string, string) -> bool)
    : (r: Response<Page<Project>>)
    ensures r.Ok? || r.Caught?
    ensures Given(q.status) && ParseInt(q.status.value).None? ==> r.Caught?
    ensures var status := if Given(q.status) then ParseInt(q.status.value) else None;
      && (r.Ok? <==> (!Given(q.status) || status.Some?) && PagingOf(q.page, q.limit).page >= 1 && PagingOf(q.page, q.limit).size >= 1)
      && (r.Ok? ==> r.data.meta.total == CountWhere(projects, Keep(q, status, matchText)))
      && (r.Ok? ==> |r.data.data| <= PagingOf(q.page, q.limit).size)
      && (r.Ok? ==> forall p :: p in r.data.data ==>
            && p in projects
            && (Given(q.priority) ==> p.priority == q.priority)
            && (status.Some? ==> p.status == status.value)
            && (Given(q.search) ==>
                  matchText(p.name, q.search.value) || (p.address.Some? && matchText(p.address.value, q.search.value))))
      && (r.Ok? ==> Window(Filter(projects, Keep(q, status, matchText)), PagingOf(q.page, q.limit).skip,
                           PagingOf(q.page, q.limit).size) == Some(r.data.data))
  {
    var status := if Given(q.status) then ParseInt(q.status.value) else None;
    if Given(q.status) && status.None? then Caught("orm")
    else List(projects, Keep(q, status, matchText), q.page, q.limit)
  }

  /** The listing as written fails for `?status=1`, whatever the store holds. */
  lemma StatusQueryRefused(projects: seq<Project>, matchText: (string, string) -> bool)
    ensures FindAll(projects, Query(None, None, Some("1"), None, None), matchText).Caught?
  {
    assert Given(Some("1"));
  }

  /** The intended listing of a status that spells an integer is the first page of the
      projects with that status, and it counts exactly those. */
  lemma StatusQueryIntended(projects: seq<Project>, status: string, value: int, matchText: (string, string) -> bool)
    requires status != [] && ParseInt(status) == Some(value)
    ensures var r := FindAllIntended(projects, Query(None, None, Some(status), None, None), matchText);
      && r.Ok?
      && (forall p :: p in r.data.data ==> p in projects && p.status == value)
      && r.data.meta.total == CountWhere(projects, (p: Project) => p.status == value)
  {
    var q := Query(None, None, Some(status), None, None);
    assert Given(q.status);
    DefaultPaging();
    SameCount(projects, Keep(q, Some(value), matchText), (p: Project) => p.status == value);
  }

  /** Two filters that agree on every element count alike. */
  lemma {:induction false} SameCount<T>(s: seq<T>, p: T -> bool, q: T -> bool)
    requires forall x :: p(x) == q(x)
    ensures CountWhere(s, p) == CountWhere(s, q)
  {
    if s != [] {
      SameCount(s[..|s| - 1], p, q);
    }
  }

  /** Without a search, priority or status every project is counted, the soft-deleted
      ones included. */
  lemma UnfilteredCountsAll(projects: seq<Project>, matchText: (string, string) -> bool, page: Option<string>, limit: Option<string>)
    requires PagingOf(page, limit).page >= 1 && PagingOf(page, limit).size >= 1
    ensures var r := FindAll(projects, Query(None, None, None, page, limit), matchText);
      r.Ok? && r.data.meta.total == |projects|
  {
    var q := Query(None, None, None, page, limit);
    AllCounted(projects, Keep(q, None, matchText));
  }

  lemma {:induction false} AllCounted<T>(s: seq<T>, p: T -> bool)
    requires forall x :: p(x)
    ensures CountWhere(s, p) == |s|
  {
    if s != [] {
      AllCounted(s[..|s| - 1], p);
    }
  }
}
